=== FILE: README.md ===
# A verified model of the core of `mysh`

`mysh` is a small interactive shell written in C. Each turn of its read-eval
loop reads a line into a fixed 512-character buffer (after the line a `!!` or
`!n` selected for replay, if any), cuts it at its line terminator and trims
it, and saves it to a 32-entry history unless it is a history command. It
then expands `$NAME` references from a 32-entry variable table, splits the
buffer into at most 63 tokens, or 64 when a comment ends the line (double
quotes group blanks, `#` starts a comment), substitutes aliases from a 32-entry alias table, takes trailing
`&`, `<path` and `>path` markers off the end, and dispatches the command to
one of 50 builtins or to an external program. Finally it releases the tokens
that alias substitution allocated.

This project models that core in Dafny and proves what it does:

- `Constants` and `Wrappers` hold the sizes of the C arrays and an `Option` type.
- `CString` holds NUL-terminated strings inside a `seq<char>` buffer (`StrLen`, `CStr`). One `char` stands for one byte of the C buffer: the 512-, 128- and 32-character bounds count bytes, and `IsAlpha`, `IsDigit` and `IsSpace` classify single bytes as the C locale does.
- `Utility` covers `utility.c`. `TrimSpaces`, `RemoveNewline` and `RemoveBrackets` are methods that work in place on an `array<char>`. Each one is proved against a function on the buffer's contents. `CompareInt` and `CompareProcessInfo` are functions.
- `Builtins` holds the builtin table, `find_builtin` and the output of `print`, `echo` and `len`. It also holds `prompt`'s update and `atoi`.
- `Tables` holds the pure specifications of the variable table, the alias table, alias resolution, the history window and `!n`/`!!`, with the text each of their handlers writes.
- `Expansion` defines what `expand_variables` computes.
- `Lexer` defines what `tokenize` does to the buffer and where the tokens start.
- `Redirects` defines what `handle_redirects` extracts from the tokens.
- `ShellState` holds the `Shell` record as a class. Its fields are the C fields: `buffer`, `tokens`, `isProcessed`, `history`, `aliases` and `variables` are arrays, and the counts, flags and prompt are ordinary fields. Its methods are the handlers and the pipeline steps, and each one is proved against the specification functions above.
- `Repl` gives the body of `repl` in two forms. `Turn` is a function on values. `Step` is a method on the `Shell` object, proved equal to `Turn`. `Step` is split into the priming, `fgets` with `remove_newline`, the history filter, `tokenize`, the alias substitution, `handle_redirects`, the dispatch and the release loop.

The text `fgets` returns is a parameter of `Step`. `None` stands for the end of the input. The exit status of everything the model does not include is also a parameter, `otherStatus`: external programs and the builtins not modelled here.

`alias` appends a new entry without checking whether the alias name is already in use, so alias names are not unique. Alias resolution walks the table in order and rewrites the token each time a name matches. A later entry can therefore rewrite the result of an earlier one (`Tables.ResolveChains`).

## Model

| member | source | states |
|---|---|---|
| Utility.TrimSpaces | utility.c:36-50 | trim_spaces in place: it returns the index of the first non-space character, and the buffer becomes `TrimmedBuffer` of the old buffer (one NUL written after the last non-space character) |
| Utility.TrimSpacesResult | utility.c:36-50 | the C string at the returned index is exactly the input string with its leading and trailing whitespace removed |
| Utility.TrimSpacesWritesOnce | utility.c:48 | trim_spaces changes at most one cell, the one just past the trimmed text |
| Utility.TrimSpacesKeepsLeading | utility.c:44-48 | the string at the original start keeps its leading blanks and loses only its trailing whitespace (what repl saves to the history) |
| Utility.TrimSpacesIdempotent | utility.c:36-50 | trimming the trimmed string again, from where the first call pointed, returns the same index and leaves the buffer unchanged |
| Utility.TrimSpacesRepeat | main.c:36-37 | calling trim_spaces again on the same buffer start (as the history filter does three times) returns the same index and changes nothing more |
| Utility.TrimIdempotent | utility.c:36-50 | on strings, trimming twice equals trimming once |
| Utility.RemoveNewline | utility.c:25-29 | the first '\n' or '\r' in the buffer is overwritten with NUL; `found` is false exactly when there is none (the C loop would run past the array), and then nothing changes |
| Utility.RemoveNewlineCuts | utility.c:25-29 | after the cut, the C string is the old string up to its first line terminator |
| Utility.RemoveBrackets | utility.c:31-34 | the last character of the string becomes NUL and the returned index is one past the start |
| Utility.RemoveBracketsStrips | utility.c:31-34 | the returned string is the input without its first and last characters (empty when it had fewer than two) |
| Utility.CompareInt | utility.c:52-54 | the result is negative, zero or positive exactly when a < b, a == b or a > b |
| Utility.CompareProcessInfo | utility.c:56-58 | the same three-way comparison, on the pid fields of two ProcessInfo records |
| Utility.ComparatorOrderIsAscending | utility.c:56-58 | a sequence that the comparator orders (adjacent results <= 0) has ascending pids for every pair of positions |
| Builtins.FindBuiltin | shell.c:126-132 | a name is found exactly when it is in the 50-entry command table, and the result is the first index that holds it |
| Builtins.PrintOutput | shell.c:1182-1190 | print writes every character of the arguments after the command name, plus one blank between neighbours |
| Builtins.WordsOfJoined | shell.c:1182-1190 | splitting print's output at blanks gives back the arguments when none of them is empty or holds a blank |
| Builtins.EchoOutput | shell.c:1177-1180 | echo's output is print's output followed by exactly one newline |
| Builtins.LenOutput | shell.c:1168-1175 | len's number plus the separating blanks equals the length of print's output for the same arguments |
| Builtins.PromptUpdate | shell.c:1206-1220 | the status is 1 exactly when an argument longer than 8 characters is given, and then the prompt is kept; otherwise the argument, if any, becomes the prompt; the prompt's length bound is preserved |
| Builtins.AtoiDecimal | shell.c:581 | atoi reads back the decimal digits of every natural number |
| Tables.SwapRemoveMultiset | shell.c:417 | removing an entry by moving the last entry into its slot keeps every other entry (as a multiset) |
| Tables.Lookup | shell.c:142-148 | get_value finds nothing exactly when no entry has the name; otherwise it returns the value of an entry with that name |
| Tables.SetVar | shell.c:428-463 | status 1, with the table unchanged, exactly when there is no argument, the argument holds no '=', or the name is new and the table is full; otherwise status 0 |
| Tables.SetThenGet | shell.c:444-462 | after a successful setvar `name=value`, looking up the name gives value |
| Tables.SetVarKeepsOthers | shell.c:444-461 | setvar leaves the value of every other name unchanged |
| Tables.FreeVar | shell.c:405-426 | status 1, with the table unchanged, exactly when there is no argument or the name is unset; otherwise the table loses exactly that entry (as a multiset) |
| Tables.FreeThenGet | shell.c:405-426 | on a table with unique names (the invariant setvar and freevar keep, and every session carries), after freevar the name is unset and every other name keeps its value |
| Tables.VarTableInvariant | shell.c:413-461 | setvar and freevar keep the table within 32 entries with unique names |
| Tables.SetVarMessageStatus | shell.c:428-463 | setvar writes nothing exactly when it sets the variable (or, as modelled, gets no '='); its usage line and the full-table notice go with status 1 |
| Tables.FreeVarMessageStatus | shell.c:405-426 | freevar writes nothing exactly when it frees the variable; a refused existing argument is named in "Variable '…' wasn't set" |
| Tables.AddAlias | shell.c:501-527 | status 1, with the table unchanged, exactly when an argument is missing, the table is full or the alias name is a builtin; otherwise the entry mapping the name (third argument) to the command (second argument) is appended and the old entries are kept in order |
| Tables.Unalias | shell.c:529-551 | status 1, with the table unchanged, exactly when there is no argument or no alias has the name; otherwise the first entry with the name is removed and every other entry is kept (as a multiset) |
| Tables.AliasMessageStatus | shell.c:501-527 | alias writes "Alias '<name>' added" when it adds the entry, and otherwise one of its three notices (usage, limit, builtin name) |
| Tables.UnaliasMessageStatus | shell.c:529-551 | unalias succeeds exactly when it writes "Alias '<name>' removed" for its argument |
| Tables.AliasTableBounded | shell.c:508-512 | alias and unalias keep the table within 32 entries |
| Tables.AliasThenUnalias | shell.c:501-551 | adding a new alias and then removing it restores the table and succeeds |
| Tables.ResolveAll | shell.c:265-272 | map_aliases resolves every token on its own through the whole alias table |
| Tables.ResolveFirstMatch | shell.c:266-271 | when no alias name is also some alias's command, a token is replaced by the command of the first alias with its name |
| Tables.ResolveChains | shell.c:266-271 | resolution depends on the order of the table: `a -> b` before `b -> c` turns `a` into `c`, and in the other order into `b` |
| Tables.Pushed | shell.c:114-124 | the history grows by one until it holds 32 entries and then stays at 32 |
| Tables.PushedIsWindow | shell.c:114-124 | save_to_history keeps the last 32 of the old entries and the new line |
| Tables.SaveAllIsWindow | shell.c:114-124 | after any number of saves, the history is the last 32 lines ever saved |
| Tables.NthCmd | shell.c:574-600 | `!n` selects an entry exactly when 1 <= n <= 32 and n <= the history count, and the selected index is within the history (corrected: see Findings) |
| Tables.NthBack | shell.c:581-596 | once N is read, the entry N back is refused exactly for N over 32, over the count or (corrected) below 1, and is otherwise index count - N |
| Tables.NthCmdAsWrittenOutOfRange | shell.c:581-596 | as written, `!n 0` and `!n -1` pass both checks and select index count and count + 1, past the last entry |
| Tables.NthCmdAgrees | shell.c:581-596 | when the corrected `!n` selects an entry, the code as written selects the same one |
| Tables.LastCmd | shell.c:602-613 | `!!` fails exactly when the history is empty, and otherwise selects the last entry |
| Tables.NthOneIsLast | shell.c:574-613 | `!n 1` and `!!` select the same entry |
| Tables.NthCmdSelects | shell.c:594-598 | `!n k`, for 1 <= k <= the count, selects index count - k, the k-th most recent entry, and echoes the prompt, '>' and that entry |
| Tables.NthCmdMessageEchoes | shell.c:574-600 | when `!n` selects an entry it writes the prompt, '>' and that entry; when it refuses it writes a notice, except for n < 1 |
| Tables.LastCmdMessageEchoes | shell.c:602-613 | `!!` writes the prompt, '>' and the newest entry, or "History empty" when there is none |
| Expansion.ExpandedBuffer | shell.c:190-220 | after expansion, the buffer holds the expanded line as a C string, and the cells past its terminator are unchanged |
| Expansion.ExpandNoNul | shell.c:196-216 | expansion never introduces a NUL, so the expanded line is one C string |
| Expansion.ExpandWithoutDollar | shell.c:196-216 | a line without '$' expands to itself |
| Expansion.ExpandLiterals | shell.c:197 | a '$' not followed by a letter is copied, and an unset variable expands to nothing |
| Expansion.ExpandExample | shell.c:196-216 | `print $X$X` with X=5 becomes `print 55` |
| Expansion.ExpandExampleFits | shell.c:198-206 | that expansion fits the buffer and the name-length limit |
| Expansion.ExpandNameBoundary | shell.c:201-202 | a name runs over letters, digits and '_' and stops at any other character |
| Lexer.LexTokens | shell.c:222-263 | after tokenize every token is a non-empty C string in the rewritten buffer, and no token starts at a quote character (which texts the tokens hold is stated by the next rows) |
| Lexer.LexWords | shell.c:227-259 | a line without `"` and without `#`, holding fewer than 64 blank-separated words, is tokenized without error into exactly its non-empty blank-separated words, in order |
| Lexer.LexExampleEcho | shell.c:227-261 | `echo  "a b"  c` gives exactly the tokens `echo`, `a b` and `c` and ends normally: the quotes keep their blank, and runs of blanks outside them separate tokens |
| Lexer.LexExampleBlanks | shell.c:242-259 | `ls  -l` gives the tokens `ls` and `-l` |
| Lexer.LexExampleQuoted | shell.c:228-235 | `"a b"` gives the single token `a b` |
| Lexer.LexExampleCommented | shell.c:237-240 | `ls #x` gives `ls`, and the scan stops at the comment |
| Redirects.Extract | shell.c:155-177 | the number of tokens left is the number before the run of trailing markers |
| Redirects.ExtractNone | shell.c:164-171 | extraction fails exactly when one of the trailing markers has a path that does not fit the 128-character path buffer |
| Redirects.ExtractFlags | shell.c:159-174 | background or a redirection is set exactly when the trailing run holds such a marker, and a redirection's path comes from the leftmost marker of its kind |
| Redirects.ExtractIdempotent | shell.c:159-177 | the tokens that are left hold no trailing marker, so extracting again changes nothing |
| Redirects.ExtractExample | shell.c:159-177 | `cmd a >out &` leaves `cmd a`, runs in the background and sends output to `out` |
| Redirects.ExtractUncapped | shell.c:159 | the three-token bound of the loop never stops the scan: four trailing markers are all taken |
| Redirects.ExtractLeftmostWins | shell.c:159-174 | with `<a <b` the input comes from `a`, and an `&` that is not trailing stays a token |
| ShellState.Split | shell.c:222-224 | tokenize fails to expand exactly when the expanded line does not fit, and otherwise every token start lies in the buffer |
| ShellState.Shell.constructor | shell.c:66-94 | a new shell has the default prompt, status 0, empty history, alias and variable tables (so unique variable names), and no flags set |
| ShellState.Shell.SaveToHistory | shell.c:114-124 | the history becomes `Pushed` of the old history and the line, which keeps the last 32 lines |
| ShellState.Shell.FindVariable | shell.c:143-145 | the loop stops at the first entry with the name, or at the count when there is none |
| ShellState.Shell.GetValue | shell.c:142-148 | get_value returns the table lookup of the name |
| ShellState.Shell.SetVarHandler | shell.c:428-463 | the variable table and the exit status become those `SetVar` gives, and the text written is `SetVarMessage` |
| ShellState.Shell.FreeVarHandler | shell.c:405-426 | the variable table and the exit status become those `FreeVar` gives, and the text written is `FreeVarMessage` |
| ShellState.Shell.ExpandVariables | shell.c:190-220 | succeeds exactly when the expansion fits, and then the buffer becomes `ExpandedBuffer`; on failure the buffer is unchanged |
| ShellState.Shell.Tokenize | shell.c:222-263 | the buffer and token array after tokenize are those `Split` describes, and the argument texts are the tokens `Split` gives |
| ShellState.Shell.HandleRedirects | shell.c:155-177 | the recorded flags and paths and the lowered token count are what `Extract` gives, the removed tokens become NULL, and slots above the old count are untouched |
| ShellState.Shell.MapAliases | shell.c:265-272 | each argument becomes its alias resolution, exactly the replaced tokens gain an is_processed flag, and the other tokens are untouched |
| ShellState.Shell.AliasHandler | shell.c:501-527 | the alias table and the exit status become those `AddAlias` gives, and the text written is `AliasMessage` |
| ShellState.Shell.UnaliasHandler | shell.c:529-551 | the alias table and the exit status become those `Unalias` gives, and the text written is `UnaliasMessage` |
| ShellState.Shell.SwapOutAlias | shell.c:539-542 | the removed slot receives the last entry and the count drops by one |
| ShellState.Shell.NthCmdHandler | shell.c:574-600 | on success the next line is primed from the selected entry with status 0; on failure status 1 and the selection is unchanged; the text written is `NthCmdMessage` |
| ShellState.Shell.SelectBack | shell.c:581-599 | once N is read: status, selection and primed line follow `NthBack`, and the text written is `NthBackMessage` |
| ShellState.Shell.LastCmdHandler | shell.c:602-613 | the same, for the most recent entry, writing `LastCmdMessage` |
| ShellState.Shell.PromptHandler | shell.c:1206-1220 | the prompt and status become those `PromptUpdate` gives, and with no argument the prompt is written |
| ShellState.Shell.PrintHandler | shell.c:1182-1190 | writes `PrintOutput` of the arguments, with status 0 |
| ShellState.Shell.LenHandler | shell.c:1168-1175 | writes `LenOutput` of the arguments, with status 0 |
| Repl.HandleKeepsBounds | shell.c:325-392 | running any modelled builtin keeps the tables within their arrays, the variable names unique and a selected replay within the history |
| Repl.HandleSelects | shell.c:574-613 | only `!!` and `!n` change the replay selection, and what they select is a valid history index |
| Repl.ExecuteKeepsBounds | main.c:50-57 | dispatching a command keeps the session within the arrays and its variable names unique |
| Repl.ExecuteProgram | main.c:52-54 | a name not in the builtin table runs as a program: only the exit status changes |
| Repl.ExecuteBackground | shell.c:364-376 | a builtin run in the background runs in the child, so the shell's own session is unchanged and the shell does not exit; for any builtin but `exit` the child writes what the same command writes in the foreground |
| Repl.ExecuteExits | shell.c:1222-1227 | a command ends the shell exactly when it is `exit` run in the foreground |
| Repl.ExecuteFreeVar | shell.c:405-426 | `freevar name` run by the shell unsets the name and leaves every other name's value, because every session keeps its variable names unique |
| Repl.ExecuteReplay | shell.c:574-613 | a command changes the replay selection only if it is `!!` or `!n` in the foreground, and the new selection is a valid history index |
| Repl.ExecuteEcho | shell.c:1177-1190 | `echo a b` writes `a b` and a newline, with status 0 |
| Repl.EvaluateExits | main.c:43-57 | a line ends the shell exactly when, after alias substitution and marker extraction, its command is `exit` and it is not in the background |
| Repl.EvaluateKeepsBounds | main.c:43-57 | evaluating any line keeps the session within the arrays and its variable names unique |
| Repl.UnaliasNotSubstituted | main.c:44-45 | a line starting with `unalias` is not alias-substituted |
| Repl.TurnKeepsBounds | main.c:18-63 | a turn keeps the history within 32 entries, the session within the arrays and its variable names unique |
| Repl.Received | main.c:25-35 | after fgets and remove_newline, the buffer holds the primed text and the chunk, cut at the first line terminator |
| Repl.LineFoundInText | main.c:25-35 | a chunk that holds a line terminator is always cut there, whatever the rest of the buffer holds |
| Repl.LineBuffer | main.c:35-43 | the buffer tokenize receives holds the line read, without its trailing whitespace |
| Repl.Prime | main.c:18-23 | when a replay is selected, its history entry is copied to the front of the buffer and the selection is cleared; the offset is its length |
| Repl.Receive | main.c:25-35 | the line terminator is found exactly when `LineFound` holds, and then the buffer becomes `Received` |
| Repl.TrimmedLine | main.c:36-37 | the history filter sees the trimmed line, and the buffer keeps trim_spaces' single write |
| Repl.SaveLine | main.c:36-38 | the line is saved exactly when its trimmed form is not `history`, `!!` or a `!n` command, and then the history becomes `Pushed` of the line without its trailing whitespace |
| Repl.Release | main.c:59-63 | the is_processed flags below n are cleared, and the flags from n on are kept |
| Repl.RunBuiltin | shell.c:364-379 | running a builtin in the foreground changes the shell and writes the text as `Handle` says |
| Repl.RunReplay | shell.c:574-613 | `!!` and `!n` change the shell and write the text as `Replay` says |
| Repl.RunTableEdit | shell.c:405-551 | alias, unalias, setvar and freevar change the shell and write the text as `TableEdit` says |
| Repl.RunReply | shell.c:1168-1227 | the builtins that only write or set the status change the shell as `Reply` says |
| Repl.Dispatch | main.c:52-56 | the dispatch changes the shell as `Execute` says |
| Repl.Substitute | main.c:44-45 | the arguments become `Substituted`, and no flag is set above the token count |
| Repl.EvalTokens | main.c:44-57 | substitution, extraction and dispatch change the shell as `Evaluate` says |
| Repl.RedirectAndDispatch | main.c:50-57 | extraction and dispatch change the shell as `Redirected` says |
| Repl.RunLine | main.c:43-63 | tokenize, evaluation and the release loop change the shell as `RunTokens` says, and leave no is_processed flag set |
| Repl.Step | main.c:18-63 | one turn on the shell object equals `Turn` on its session, history and buffer, and keeps the shell valid, its variable names unique and every flag cleared |
| Repl.SnapshotOk | shell.c:428-463 | the shell's session is within bounds exactly when no two of its variables share a name, the invariant setvar keeps by overwriting a name already set |
| Repl.ReadAndRun | main.c:25-63 | the turn after the priming equals `Turn` with the chunk fgets returned |
| Repl.StaleFlagAfterMarkerAlias | main.c:59-63 | as written, after `alias & bg`, the line `sleep bg` leaves the flag of the replaced `bg` set |

## Left out

- Output streams, the prompt text written before each line, debug output (`debug_level`, `print_tokens`), colours (`setcolor`, `resetcolor`, `colorlist`, `color_active`) and `status`: these only write text. The handlers modelled here (`prompt`, `print`, `echo`, `len`, `alias`, `unalias`, `setvar`, `freevar`, `!!` and `!n`) return the text they write to the output stream as a value.
- `fork`, `exec`, `waitpid` and everything `execute_external` does: the exit status of an external program is the parameter `otherStatus`.
- Opening the redirection files, and `dup`/`dup2` around a builtin: opening is assumed to succeed, and the redirected streams are not modelled.
- The builtins outside the core (pipes, wait, process and file-system commands, calc and sum): their exit status is `otherStatus`, and they do not change the modelled state.
- `help`, `history`, `aliaslist` and `varlist`: the model sets their status to 0 and leaves the state alone, but the lists they print are not modelled.
- `ferror`/`errno` after `fgets`: a read error ends the loop like the end of the input, and the `errno` status is not modelled.
- `malloc`, `strdup` and `free`: memory is not modelled. The release loop is modelled through the `isProcessed` flags it clears.
- ShellState.Shell.SetVarHandler: the '=' inside the argument token is not overwritten with NUL, because the token is not read again. When the argument has no '=', the C code reads an uninitialised name; the model gives status 1, writes nothing and leaves the table unchanged.
- Tables.NthCmdMessage: when the corrected `!n` refuses n < 1 it writes nothing, because the C code has no notice for that case (as written it echoes the slot past the last entry; see Findings).
- Repl.Execute: a builtin run in the background writes its handler's text from the child. The model does not capture the stdio buffering around that: the child ends with `_exit`, so text left in an unflushed buffer (output without a newline on a terminal, any output to a file or pipe) is lost, and output the parent had not flushed before the fork is copied into the child.
- Lexer.LexTokens: the NUL check inside the blank loop of tokenize (shell.c:255) can never succeed, so it is not modelled as a separate path.
- ShellState.Shell.HandleRedirects: when a path does not fit, the state after the failure is not specified; the C `strcpy` would overflow the 128-character buffer.
- Repl.Turn: when the expanded line does not fit the buffer, a variable name has 32 or more characters, a 65th token would start or the NULL entry after a 64th token would be written, no line terminator is in the buffer, or every token is a marker, the C code has undefined behaviour (it overflows an array or looks up a NULL command). The model stops the line with a distinct outcome instead.
- Builtins.AtoiDecimal: the model's atoi does not wrap at 32 bits (C's atoi is undefined on overflow).
- Utility.CompareInt: requires that the difference fits an int, because C's signed subtraction is undefined on overflow.
- Utility.CompareProcessInfo: requires that the difference of the pids fits an int, for the same reason.
- Utility.RemoveBrackets: requires a non-empty string, because on an empty string the C code writes before its start.
- Repl.Step: `fgets` is modelled as returning a NUL-free chunk that fits the room it is given. A chunk holding NUL, and the case where only one byte of room is left, are not modelled.
- Repl.ExecuteExits: `exit` ends the process; the model reports the `Exited` outcome with the status instead.

## Findings

| source | as written | input that shows it | evidently intended | confidence | as-written member | corrected member |
|---|---|---|---|---|---|---|
| shell.c:581-596 | `nthcmd` checks only `n > 32` and `n > history_count`, so `n <= 0` passes and `history_index = history_count - n` lies past the last entry | `!n 0` (or `!n -1`) with any history | refuse `n < 1` with status 1, like the other out-of-range values | high (not executed) | Tables.NthCmdAsWritten, Tables.NthCmdAsWrittenOutOfRange | Tables.NthCmd, Tables.NthCmdSelects |
| main.c:59-63 | the release loop runs up to `token_count` after `handle_redirects` has lowered it, so a token that an alias replaced and that turned out to be a trailing marker keeps its `is_processed` flag (its copy is never freed, and the next line frees whatever token sits in that slot) | `alias & bg`, then `sleep bg` | release every token tokenize produced | high (not executed) | Repl.FlagsLeftAsWritten, Repl.StaleFlagAfterMarkerAlias | Repl.RunLine, Repl.Step |

=== FILE: builtins.dfy ===
/**
 * The builtin command table, its lookup, and the handlers that only fold
 * over the argument vector: print, echo, len and prompt. An argument vector
 * `args` holds the texts of the tokens, the command name at index 0.
 */
module Builtins {
  import opened Wrappers
  import opened Constants
  import opened CString
  import opened Utility

  // ---------------------------------------------------------------------
  // Command table

  /** Names of the command table, in table order (written ten to a row). */
  const Commands: seq<string> :=
    ["debug", "prompt", "status", "exit", "help", "print", "echo", "len", "sum", "calc"] +
    ["basename", "dirname", "dirch", "dirwd", "dirmk", "dirrm", "dirls", "rename", "unlink", "remove"] +
    ["linkhard", "linksoft", "linkread", "linklist", "cpcat", "pid", "ppid", "uid", "euid", "gid"] +
    ["egid", "sysinfo", "proc", "pids", "pinfo", "waitone", "waitall", "pipes", "!!", "!n"] +
    ["history", "alias", "unalias", "aliaslist", "setcolor", "resetcolor", "colorlist", "setvar", "freevar", "varlist"]

  /** First entry of the table at or after c whose name is cmd. */
  function FindFrom(table: seq<string>, cmd: string, c: nat): (r: Option<nat>)
    requires c <= |table|
    ensures r.Some? ==> c <= r.value < |table| && table[r.value] == cmd
    ensures r.Some? ==> forall j :: c <= j < r.value ==> table[j] != cmd
    ensures r.None? ==> forall j :: c <= j < |table| ==> table[j] != cmd
    decreases |table| - c
  {
    if c == |table| then None
    else if table[c] == cmd then Some(c)
    else FindFrom(table, cmd, c + 1)
  }

  /**
   * find_builtin: the index of the first entry named cmd (standing for its
   * handler), or None for a name outside the table.
   */
  function FindBuiltin(cmd: string): (r: Option<nat>)
    ensures r.Some? <==> cmd in Commands
    ensures r.Some? ==> r.value < NUM_COMMANDS && Commands[r.value] == cmd
    ensures r.Some? ==> forall j :: 0 <= j < r.value ==> Commands[j] != cmd
  {
    FindFrom(Commands, cmd, 0)
  }

  // ---------------------------------------------------------------------
  // print, echo, len

  /** The words separated by single blanks. */
  function Joined(words: seq<string>): (r: string)
  {
    if |words| == 0 then ""
    else if |words| == 1 then words[0]
    else words[0] + " " + Joined(words[1..])
  }

  /** Sum of the lengths of the words. */
  function TotalLength(words: seq<string>): (r: nat)
  {
    if |words| == 0 then 0 else |words[0]| + TotalLength(words[1..])
  }

  /** The joined text has the words' characters plus one blank between neighbours. */
  lemma {:induction false} JoinedLength(words: seq<string>)
    ensures |Joined(words)| == TotalLength(words) + (if |words| == 0 then 0 else |words| - 1)
  {
    if |words| > 1 {
      JoinedLength(words[1..]);
    }
  }

  /** Length of the run of non-blank characters at the start of s. */
  function WordLength(s: string): (n: nat)
    ensures n <= |s|
    ensures forall k :: 0 <= k < n ==> s[k] != ' '
    ensures n < |s| ==> s[n] == ' '
  {
    if s == [] || s[0] == ' ' then 0 else 1 + WordLength(s[1..])
  }

  /** The maximal runs of non-blank characters of s: s split at blanks, empty pieces dropped. */
  function Words(s: string): (r: seq<string>)
    decreases |s|
  {
    if s == [] then []
    else if s[0] == ' ' then Words(s[1..])
    else
      var n := WordLength(s);
      [s[..n]] + Words(s[n..])
  }

  /** A word: at least one character and no blank. */
  predicate IsWord(w: string) {
    |w| > 0 && ' ' !in w
  }

  lemma WordLengthOfWord(w: string, rest: string)
    requires ' ' !in w
    requires rest == [] || rest[0] == ' '
    ensures WordLength(w + rest) == |w|
  {
    if w != [] {
      assert (w + rest)[1..] == w[1..] + rest;
      WordLengthOfWord(w[1..], rest);
    }
  }

  /** Splitting the joined words at blanks gives the words back. */
  lemma {:induction false} WordsOfJoined(words: seq<string>)
    requires forall k :: 0 <= k < |words| ==> IsWord(words[k])
    ensures Words(Joined(words)) == words
  {
    if |words| == 1 {
      var w := words[0];
      WordLengthOfWord(w, []);
      assert w[|w|..] == [];
      assert w[..|w|] == w;
    } else if |words| > 1 {
      var w, rest := words[0], Joined(words[1..]);
      var s := w + " " + rest;
      assert s == w + (" " + rest);
      WordLengthOfWord(w, " " + rest);
      assert s[..|w|] == w;
      assert s[|w|..] == " " + rest;
      assert (" " + rest)[1..] == rest;
      WordsOfJoined(words[1..]);
      assert words == [w] + words[1..];
    }
  }

  /** What print_handler writes: the arguments after the command name, blank-separated. */
  function PrintOutput(args: seq<string>): (out: string)
    ensures |args| >= 1 ==>
      |out| == TotalLength(args[1..]) + (if |args| <= 2 then 0 else |args| - 2)
  {
    JoinedLength(if |args| >= 1 then args[1..] else []);
    if |args| <= 1 then "" else Joined(args[1..])
  }

  /** What echo_handler writes: the print output and a newline. */
  function EchoOutput(args: seq<string>): (out: string)
    ensures |out| > 0 && out[|out| - 1] == '\n'
    ensures out[..|out| - 1] == PrintOutput(args)
  {
    PrintOutput(args) + "\n"
  }

  /**
   * What len_handler writes (as a number): the summed length of the
   * arguments after the command name, that is, every character print would
   * write except the blanks between the arguments.
   */
  function LenOutput(args: seq<string>): (n: nat)
    ensures |args| >= 1 ==> n + (if |args| <= 2 then 0 else |args| - 2) == |PrintOutput(args)|
  {
    if |args| <= 1 then 0 else TotalLength(args[1..])
  }

  // ---------------------------------------------------------------------
  // prompt

  /**
   * prompt_handler: with no argument the prompt is kept (and shown); an
   * argument longer than PROMPT_TEXT_MAX_LENGTH is refused with status 1;
   * otherwise it becomes the prompt.
   */
  function PromptUpdate(prompt: string, args: seq<string>): (r: (string, int))
    requires |args| >= 1
    ensures r.1 == 0 || r.1 == 1
    ensures r.1 == 1 <==> |args| > 1 && |args[1]| > PROMPT_TEXT_MAX_LENGTH
    ensures r.0 == (if |args| > 1 && r.1 == 0 then args[1] else prompt)
    ensures |prompt| <= PROMPT_TEXT_MAX_LENGTH ==> |r.0| <= PROMPT_TEXT_MAX_LENGTH
  {
    if |args| == 1 then (prompt, 0)
    else if |args[1]| > PROMPT_TEXT_MAX_LENGTH then (prompt, 1)
    else (args[1], 0)
  }

  // ---------------------------------------------------------------------
  // atoi

  /** Length of the run of decimal digits at the start of s. */
  function DigitRun(s: string): (n: nat)
    ensures n <= |s|
    ensures forall k :: 0 <= k < n ==> IsDigit(s[k])
    ensures n < |s| ==> !IsDigit(s[n])
  {
    if s == [] || !IsDigit(s[0]) then 0 else 1 + DigitRun(s[1..])
  }

  /** Value of a string of decimal digits. */
  function DigitsValue(d: string): (r: nat)
    requires forall k :: 0 <= k < |d| ==> IsDigit(d[k])
  {
    if d == [] then 0
    else
      assert IsDigit(d[|d| - 1]);
      10 * DigitsValue(d[..|d| - 1]) + (d[|d| - 1] as int - '0' as int)
  }

  /**
   * atoi: leading whitespace skipped, an optional sign, then the longest
   * run of digits (none gives 0).
   */
  function Atoi(s: string): (r: int)
  {
    var t := s[FirstNonSpace(s, 0)..];
    var negative := |t| > 0 && t[0] == '-';
    var u := if |t| > 0 && (t[0] == '-' || t[0] == '+') then t[1..] else t;
    var v: int := DigitsValue(u[..DigitRun(u)]);
    if negative then -v else v
  }

  /** Decimal digits of n, most significant first. */
  function Decimal(n: nat): (d: string)
    ensures |d| > 0 && forall k :: 0 <= k < |d| ==> IsDigit(d[k])
  {
    var last := ['0' + (n % 10) as char];
    if n < 10 then last else Decimal(n / 10) + last
  }

  lemma {:induction false} DecimalValue(n: nat)
    ensures DigitsValue(Decimal(n)) == n
  {
    var d := Decimal(n);
    if n >= 10 {
      DecimalValue(n / 10);
      assert d[..|d| - 1] == Decimal(n / 10);
    }
  }

  /** atoi reads back the decimal digits of any natural number. */
  lemma AtoiDecimal(n: nat)
    ensures Atoi(Decimal(n)) == n
  {
    var d := Decimal(n);
    assert !IsSpace(d[0]);
    assert FirstNonSpace(d, 0) == 0;
    assert d[0..] == d;
    assert DigitRun(d) == |d| by {
      DigitRunAll(d);
    }
    assert d[..|d|] == d;
    DecimalValue(n);
  }

  lemma DigitRunAll(d: string)
    requires forall k :: 0 <= k < |d| ==> IsDigit(d[k])
    ensures DigitRun(d) == |d|
  {
  }
}

=== FILE: constants.dfy ===
/** Capacity constants of the shell (constants.h). */
module Constants {
  /** Size of the line buffer, terminator included. */
  const BUFFER_SIZE: nat := 512
  /** Slots in the token array, the NULL terminator of the argument vector included. */
  const MAX_TOKENS: nat := 64
  /** Entries in the builtin command table. */
  const NUM_COMMANDS: nat := 50
  /** Longest prompt text accepted by `prompt`. */
  const PROMPT_TEXT_MAX_LENGTH: nat := 8
  /** Size of each redirection path buffer, terminator included. */
  const PATH_MAX_LENGTH: nat := 128
  const DEFAULT_PROMPT_TEXT: string := "mysh"
  const HISTORY_SIZE: nat := 32
  const MAX_ALIASES: nat := 32
  const MAX_VARIABLES: nat := 32
  /** Size of the variable-name buffer used by the expander, terminator included. */
  const MAX_VARNAME_LENGTH: nat := 32
}

=== FILE: cstring.dfy ===
/**
 * C strings inside fixed-size character buffers: a string starting at index i
 * runs up to the first NUL at or after i. Character classes of <ctype.h> in
 * the "C" locale.
 */
module CString {
  const NUL: char := '\0'

  /** isspace: blank, tab, newline, vertical tab, form feed, carriage return. */
  predicate IsSpace(c: char) {
    c == ' ' || c == '\t' || c == '\n' || c == '\U{B}' || c == '\U{C}' || c == '\r'
  }

  predicate IsAlpha(c: char) { 'a' <= c <= 'z' || 'A' <= c <= 'Z' }

  predicate IsDigit(c: char) { '0' <= c <= '9' }

  predicate IsAlnum(c: char) { IsAlpha(c) || IsDigit(c) }

  /** A terminator occurs at or after index i, so a C string starts there. */
  predicate Terminated(s: seq<char>, i: nat) {
    i <= |s| && NUL in s[i..]
  }

  /** strlen: the distance from i to the first terminator. */
  function StrLen(s: seq<char>, i: nat): (n: nat)
    requires Terminated(s, i)
    ensures i + n < |s| && s[i + n] == NUL
    ensures forall k :: i <= k < i + n ==> s[k] != NUL
    decreases |s| - i
  {
    if s[i] == NUL then 0
    else
      assert s[i..] == [s[i]] + s[i + 1..];
      StrLen(s, i + 1) + 1
  }

  /** The text of the C string that starts at i. */
  function CStr(s: seq<char>, i: nat): (t: string)
    requires Terminated(s, i)
    ensures NUL !in t
    ensures |t| == StrLen(s, i) && t == s[i..i + |t|]
  {
    s[i..i + StrLen(s, i)]
  }

  /** Two strings without a terminator join into one without a terminator. */
  lemma NoNulJoin(t: string, a: string, b: string)
    requires t == a + b && NUL !in a && NUL !in b
    ensures NUL !in t
  {
  }

  /** A buffer holding t followed by a terminator at i holds the C string t there. */
  lemma CStrIs(s: seq<char>, i: nat, t: string)
    requires NUL !in t
    requires i + |t| < |s| && s[i..i + |t|] == t && s[i + |t|] == NUL
    ensures Terminated(s, i) && CStr(s, i) == t
  {
    assert s[i..][|t|] == NUL;
  }

  /** Writing outside a C string, terminator included, leaves it unchanged. */
  lemma CStrFramed(s: seq<char>, s': seq<char>, i: nat)
    requires Terminated(s, i)
    requires |s'| == |s|
    requires forall k :: i <= k <= i + StrLen(s, i) ==> s'[k] == s[k]
    ensures Terminated(s', i) && CStr(s', i) == CStr(s, i)
  {
    var t := CStr(s, i);
    assert s'[i..i + |t|] == t;
    CStrIs(s', i, t);
  }

  /** Writing a terminator at j, with no terminator from i up to j, cuts the C string at i there. */
  lemma CStrCut(s: seq<char>, i: nat, j: nat)
    requires i <= j < |s| && NUL !in s[i..j]
    ensures Terminated(s[j := NUL], i) && CStr(s[j := NUL], i) == s[i..j]
  {
    var s' := s[j := NUL];
    assert s'[i..j] == s[i..j];
    CStrIs(s', i, s[i..j]);
  }

  /** The characters of a C string are those of the buffer. */
  lemma CStrSlice(s: seq<char>, i: nat, j: nat, k: nat)
    requires Terminated(s, i) && j <= k <= StrLen(s, i)
    ensures CStr(s, i)[j..k] == s[i + j..i + k]
    ensures NUL !in s[i + j..i + k]
  {
    var t := CStr(s, i);
    assert forall m :: 0 <= m < k - j ==> t[j..k][m] == t[j + m] == s[i + j + m];
    var u := s[i + j..i + k];
    assert forall m :: 0 <= m < |u| ==> u[m] == s[i + j + m] != NUL;
  }

  /** strchr on a text: the index of the first c, or the length when c does not occur. */
  function IndexOf(s: string, c: char): (k: nat)
    ensures k <= |s|
    ensures k < |s| ==> s[k] == c
    ensures forall j :: 0 <= j < k ==> s[j] != c
    ensures k == |s| <==> c !in s
  {
    if s == [] then 0 else if s[0] == c then 0 else 1 + IndexOf(s[1..], c)
  }

  /** The text of a C string kept in a string of its own: everything before its first terminator. */
  function CText(s: string): (t: string)
    ensures NUL !in t && |t| <= |s| && t == s[..|t|]
    ensures NUL !in s ==> t == s
  {
    s[..IndexOf(s, NUL)]
  }

  /** strlen on a character buffer. */
  method Length(a: array<char>, i: nat) returns (n: nat)
    requires Terminated(a[..], i)
    ensures n == StrLen(a[..], i)
  {
    n := 0;
    while a[i + n] != NUL
      invariant n <= StrLen(a[..], i)
      decreases StrLen(a[..], i) - n
    {
      n := n + 1;
    }
  }

  /** Copies out the C string that starts at i (what strcpy/strdup read). */
  method ReadString(a: array<char>, i: nat) returns (t: string)
    requires Terminated(a[..], i)
    ensures t == CStr(a[..], i)
  {
    var n := Length(a, i);
    t := a[i..i + n];
  }
}

=== FILE: expansion.dfy ===
/**
 * Variable expansion of a line (expand_variables): a `$` followed by a
 * letter, together with the longest run of letters, digits and `_` after
 * it, is replaced by the value of the variable of that name, or by nothing
 * when it is unset; every other character is copied.
 */
module Expansion {
  import opened Wrappers
  import opened Constants
  import opened CString
  import opened Tables

  predicate IsNameChar(c: char) { IsAlnum(c) || c == '_' }

  /** Length of the run of name characters of s starting at i. */
  function NameLength(s: string, i: nat): (n: nat)
    requires i <= |s|
    ensures i + n <= |s|
    ensures forall k :: i <= k < i + n ==> IsNameChar(s[k])
    ensures i + n < |s| ==> !IsNameChar(s[i + n])
    decreases |s| - i
  {
    if i < |s| && IsNameChar(s[i]) then 1 + NameLength(s, i + 1) else 0
  }

  /** A run of name characters ending at a character that is not one has the length NameLength gives. */
  lemma NameLengthIs(s: string, i: nat, j: nat)
    requires i <= j <= |s|
    requires forall k :: i <= k < j ==> IsNameChar(s[k])
    requires j == |s| || !IsNameChar(s[j])
    ensures NameLength(s, i) == j - i
  {
  }

  /** A variable reference starts at i: a `$` followed by a letter. */
  predicate RefAt(s: string, i: nat) {
    i + 1 < |s| && s[i] == '$' && IsAlpha(s[i + 1])
  }

  /** The name of the reference at i. */
  function RefName(s: string, i: nat): (r: string)
    requires RefAt(s, i)
  {
    s[i + 1..i + 1 + NameLength(s, i + 1)]
  }

  /**
   * The text a reference stands for: the characters of the variable's value
   * up to its terminator, or nothing when it is unset.
   */
  function ValueOf(vars: seq<Variable>, name: string): (t: string)
    ensures NUL !in t
  {
    match Lookup(vars, name)
    case Some(v) => CText(v)
    case None => ""
  }

  /** Where the expansion step at i ends: after the name of a reference, after the character otherwise. */
  function StepEnd(s: string, i: nat): (j: nat)
    requires i < |s|
    ensures i < j <= |s|
  {
    if RefAt(s, i) then i + 1 + NameLength(s, i + 1) else i + 1
  }

  /** What the expansion step at i contributes: a reference's value, or the character itself. */
  function StepText(s: string, i: nat, vars: seq<Variable>): (r: string)
    requires i < |s|
  {
    if RefAt(s, i) then ValueOf(vars, RefName(s, i)) else [s[i]]
  }

  /** Expansion of s from index i on, one step at a time. */
  function ExpandFrom(s: string, i: nat, vars: seq<Variable>): (r: string)
    requires i <= |s|
    decreases |s| - i
  {
    if i == |s| then "" else StepText(s, i, vars) + ExpandFrom(s, StepEnd(s, i), vars)
  }

  function Expand(s: string, vars: seq<Variable>): (r: string)
  {
    ExpandFrom(s, 0, vars)
  }

  /**
   * Every reference from i on has a name shorter than MAX_VARNAME_LENGTH,
   * so that it fits the expander's name buffer with its terminator.
   */
  predicate NamesFitFrom(s: string, i: nat)
    requires i <= |s|
    decreases |s| - i
  {
    if i == |s| then true
    else if RefAt(s, i) then
      NameLength(s, i + 1) < MAX_VARNAME_LENGTH && NamesFitFrom(s, i + 1 + NameLength(s, i + 1))
    else NamesFitFrom(s, i + 1)
  }

  /** The names from a reference on fit iff its own name does and those after it do. */
  lemma NamesFitRef(s: string, i: nat)
    requires RefAt(s, i)
    ensures NamesFitFrom(s, i) == (NameLength(s, i + 1) < MAX_VARNAME_LENGTH && NamesFitFrom(s, i + 1 + NameLength(s, i + 1)))
  {
  }

  /** A literal character does not change whether the names after it fit. */
  lemma NamesFitChar(s: string, i: nat)
    requires i < |s| && !RefAt(s, i)
    ensures NamesFitFrom(s, i) == NamesFitFrom(s, i + 1)
  {
  }

  /**
   * The expansion stays within what the C code can hold: every name fits
   * the name buffer and the expanded line, terminator included, fits
   * BUFFER_SIZE.
   */
  predicate ExpandFits(s: string, vars: seq<Variable>) {
    NamesFitFrom(s, 0) && |Expand(s, vars)| < BUFFER_SIZE
  }

  /** The expansion of a C string holds no terminator, so it reads back as one C string. */
  lemma {:induction false} ExpandNoNul(s: string, i: nat, vars: seq<Variable>)
    requires i <= |s| && NUL !in s
    ensures NUL !in ExpandFrom(s, i, vars)
    decreases |s| - i
  {
    if i < |s| {
      ExpandNoNul(s, StepEnd(s, i), vars);
      assert s[i] in s;
      NoNulJoin(ExpandFrom(s, i, vars), StepText(s, i, vars), ExpandFrom(s, StepEnd(s, i), vars));
    }
  }

  /**
   * The line buffer after expand_variables: the expanded line and its
   * terminator are copied over the front of the buffer; the rest is kept.
   */
  function ExpandedBuffer(b: seq<char>, vars: seq<Variable>): (r: seq<char>)
    requires Terminated(b, 0) && |b| == BUFFER_SIZE && ExpandFits(CStr(b, 0), vars)
    ensures |r| == |b| && Terminated(r, 0)
    ensures CStr(r, 0) == Expand(CStr(b, 0), vars)
    ensures r[|CStr(r, 0)| + 1..] == b[|CStr(r, 0)| + 1..]
  {
    ExpandNoNul(CStr(b, 0), 0, vars);
    var e := Expand(CStr(b, 0), vars);
    var r := e + [NUL] + b[|e| + 1..];
    CStrIs(r, 0, e);
    r
  }

  /** A line without `$` expands to itself. */
  lemma {:induction false} ExpandWithoutDollar(s: string, i: nat, vars: seq<Variable>)
    requires i <= |s| && '$' !in s
    ensures ExpandFrom(s, i, vars) == s[i..]
    decreases |s| - i
  {
    if i < |s| {
      assert s[i] != '$';
      ExpandWithoutDollar(s, i + 1, vars);
      assert s[i..] == [s[i]] + s[i + 1..];
    }
  }

  /**
   * A `$` that is not followed by a letter is copied with the character
   * after it; an unset variable disappears.
   */
  lemma ExpandLiterals()
    ensures Expand("a$1", []) == "a$1"
    ensures Expand("$ $", []) == "$ $"
    ensures Expand("[$HOME]", []) == "[]"
  {
    assert NameLength("[$HOME]", 2) == 4;
    assert RefName("[$HOME]", 1) == "HOME";
  }

  /** With X set to 5, `print $X$X` expands to `print 55`. */
  lemma ExpandExample()
    ensures Expand("print $X$X", [Variable("X", "5")]) == "print 55"
  {
    var s := "print $X$X";
    var vars := [Variable("X", "5")];
    assert NameLength(s, 9) == 1;
    assert NameLength(s, 7) == 1;
    assert RefName(s, 8) == "X";
    assert RefName(s, 6) == "X";
    assert ValueOf(vars, "X") == "5";
    assert ExpandFrom(s, 8, vars) == "5";
    assert ExpandFrom(s, 6, vars) == "55";
    assert ExpandFrom(s, 3, vars) == "nt 55";
  }

  /** The same line fits the buffers of the C code. */
  lemma ExpandExampleFits()
    ensures ExpandFits("print $X$X", [Variable("X", "5")])
  {
    var s := "print $X$X";
    ExpandExample();
    assert NameLength(s, 9) == 1;
    assert NameLength(s, 7) == 1;
    assert NamesFitFrom(s, 8);
    assert NamesFitFrom(s, 6);
    assert NamesFitFrom(s, 3);
  }

  /** A name runs to the first character that is not a letter, digit or `_`. */
  lemma ExpandNameBoundary()
    ensures Expand("$X_1-$X", [Variable("X", "5"), Variable("X_1", "one")]) == "one-5"
  {
    var s := "$X_1-$X";
    var vars := [Variable("X", "5"), Variable("X_1", "one")];
    assert NameLength(s, 1) == 3;
    assert RefName(s, 0) == "X_1";
    assert NameLength(s, 6) == 1;
    assert RefName(s, 5) == "X";
    assert VarIndex(vars, "X_1") == 1;
    assert ValueOf(vars, "X_1") == "one";
    assert ExpandFrom(s, 5, vars) == "5";
  }

  /** Concatenation regroups: a prefix followed by v + rest is the prefix extended by v, followed by rest. */
  lemma Regroup(p: string, v: string, rest: string, whole: string)
    requires p + (v + rest) == whole
    ensures (p + v) + rest == whole && |p + v| <= |whole|
  {
  }

  /** The round at the reference at i, seen from j, the end of its name. */
  lemma RefRound(s: string, i: nat, vars: seq<Variable>, p: string, j: nat)
    requires RefAt(s, i) && p + ExpandFrom(s, i, vars) == Expand(s, vars)
    requires j == i + 1 + NameLength(s, i + 1)
    ensures j <= |s|
    ensures (p + ValueOf(vars, RefName(s, i))) + ExpandFrom(s, j, vars) == Expand(s, vars)
    ensures |p + ValueOf(vars, RefName(s, i))| <= |Expand(s, vars)|
    ensures NamesFitFrom(s, i) == (NameLength(s, i + 1) < MAX_VARNAME_LENGTH && NamesFitFrom(s, j))
  {
    ExpandRefStep(s, i, j, vars, p, Expand(s, vars));
    NamesFitRef(s, i);
  }

  /**
   * One reference step of the expansion: its value follows what was
   * expanded before it.
   */
  lemma ExpandRefStep(s: string, i: nat, j: nat, vars: seq<Variable>, p: string, whole: string)
    requires RefAt(s, i) && j == i + 1 + NameLength(s, i + 1)
    requires p + ExpandFrom(s, i, vars) == whole
    ensures (p + ValueOf(vars, RefName(s, i))) + ExpandFrom(s, j, vars) == whole
    ensures |p + ValueOf(vars, RefName(s, i))| <= |whole|
  {
    assert StepText(s, i, vars) == ValueOf(vars, RefName(s, i)) && StepEnd(s, i) == j;
    ExpandStep(s, i, vars, p, whole);
  }

  /** One literal step of the expansion: the character follows what was expanded before it. */
  lemma ExpandCharStep(s: string, i: nat, vars: seq<Variable>, p: string, whole: string)
    requires i < |s| && !RefAt(s, i) && p + ExpandFrom(s, i, vars) == whole
    ensures (p + [s[i]]) + ExpandFrom(s, i + 1, vars) == whole
    ensures |p + [s[i]]| <= |whole|
  {
    ExpandStep(s, i, vars, p, whole);
  }

  /** One step of the expansion: its text follows what was expanded before it. */
  lemma ExpandStep(s: string, i: nat, vars: seq<Variable>, p: string, whole: string)
    requires i < |s| && p + ExpandFrom(s, i, vars) == whole
    ensures (p + StepText(s, i, vars)) + ExpandFrom(s, StepEnd(s, i), vars) == whole
    ensures |p + StepText(s, i, vars)| <= |whole|
  {
    Regroup(p, StepText(s, i, vars), ExpandFrom(s, StepEnd(s, i), vars), whole);
  }

}

=== FILE: lexer.dfy ===
/**
 * Splitting the line buffer into tokens in place (tokenize). The scan is a
 * machine with two flags, `quoted` (inside double quotes) and `reading`
 * (inside a token): it writes terminators into the buffer and records the
 * index where each token starts; a token's text is the C string there.
 */
module Lexer {
  import opened Wrappers
  import opened Constants
  import opened CString
  import Builtins

  datatype LexOutcome =
    | Done     // the scan reached the terminator
    | Comment  // a `#` outside quotes and outside a token ended the line
    | TooMany  // the token array would overflow (the C code writes past it)

  /** The state of the scan before it looks at buffer[c]. */
  datatype Scan = Scan(buffer: seq<char>, c: nat, quoted: bool, reading: bool, starts: seq<nat>)

  /** The buffer after the scan, the token start indices, and how the scan ended. */
  datatype Lexed = Lexed(buffer: seq<char>, starts: seq<nat>, outcome: LexOutcome)

  predicate Live(s: Scan) {
    Terminated(s.buffer, s.c)
  }

  /** buffer[c] would start a token: outside quotes it is not a blank, and no token is being read. */
  predicate StartsToken(s: Scan)
    requires Live(s)
  {
    var ch := s.buffer[s.c];
    ch != NUL && ch != '"' && !(s.quoted && s.reading) && !(ch == '#' && !s.quoted && !s.reading) &&
    (s.quoted || ch != ' ') && !s.reading
  }

  /** Whether the scan stops at buffer[c], and how. */
  function Halt(s: Scan): (r: Option<LexOutcome>)
    requires Live(s)
  {
    var ch := s.buffer[s.c];
    if ch == NUL then Some(if |s.starts| >= MAX_TOKENS then TooMany else Done)
    else if ch != '"' && !(s.quoted && s.reading) && ch == '#' && !s.quoted && !s.reading then Some(Comment)
    else if StartsToken(s) && |s.starts| >= MAX_TOKENS then Some(TooMany)
    else None
  }

  /**
   * One character of the scan: a quote toggles quoting and is overwritten
   * by a terminator; inside quotes within a token everything is kept; a
   * token starts at the first character that is quoted or not a blank; a
   * blank outside quotes ends the token and is overwritten by a terminator.
   */
  function Next(s: Scan): (n: Scan)
    requires Live(s) && Halt(s).None?
    ensures Live(n) && n.c == s.c + 1 && |n.buffer| == |s.buffer|
  {
    var ch := s.buffer[s.c];
    if ch == '"' then
      Scan(s.buffer[s.c := NUL], s.c + 1, !s.quoted, s.reading, s.starts)
    else if s.quoted && s.reading then
      Scan(s.buffer, s.c + 1, s.quoted, s.reading, s.starts)
    else if s.quoted || ch != ' ' then
      if s.reading then Scan(s.buffer, s.c + 1, s.quoted, s.reading, s.starts)
      else Scan(s.buffer, s.c + 1, s.quoted, true, s.starts + [s.c])
    else
      Scan(s.buffer[s.c := NUL], s.c + 1, s.quoted, false, s.starts)
  }

  /** The result once the scan stops at buffer[c]; a comment is cut off with a terminator. */
  function Stop(s: Scan): (r: Lexed)
    requires Live(s) && Halt(s).Some?
  {
    var o := Halt(s).value;
    Lexed(if o == Comment then s.buffer[s.c := NUL] else s.buffer, s.starts, o)
  }

  /** The scan from state s to its end. */
  function LexFrom(s: Scan): (r: Lexed)
    requires Live(s)
    decreases |s.buffer| - s.c
  {
    if Halt(s).Some? then Stop(s) else LexFrom(Next(s))
  }

  /** The scan of a whole line. */
  function Lex(b: seq<char>): (r: Lexed)
    requires Terminated(b, 0)
  {
    LexFrom(Scan(b, 0, false, false, []))
  }

  /** Every token start is the start of a C string of the buffer. */
  predicate StartsOk(b: seq<char>, starts: seq<nat>) {
    forall k :: 0 <= k < |starts| ==> Terminated(b, starts[k])
  }

  /** The texts of the tokens, in order. */
  function Texts(b: seq<char>, starts: seq<nat>): (ts: seq<string>)
    requires StartsOk(b, starts)
    ensures |ts| == |starts|
  {
    seq(|starts|, k requires 0 <= k < |starts| => CStr(b, starts[k]))
  }

  // ---------------------------------------------------------------------
  // What every scan of a line b keeps true

  /** The buffer differs from b only by terminators, and only before c. */
  predicate WritesOk(b: seq<char>, buf: seq<char>, c: nat) {
    && |buf| == |b|
    && (forall k :: 0 <= k < |b| ==> buf[k] == b[k] || buf[k] == NUL)
    && (forall k :: c <= k < |b| ==> buf[k] == b[k])
  }

  /**
   * The starts increase, lie before c, and sit at characters of b that are
   * neither terminators nor quotes and that are still in place.
   */
  predicate StartsShape(b: seq<char>, buf: seq<char>, starts: seq<nat>, c: nat) {
    && |starts| <= MAX_TOKENS
    && (forall j, k :: 0 <= j < k < |starts| ==> starts[j] < starts[k])
    && (forall k :: 0 <= k < |starts| ==>
          starts[k] < c && starts[k] < |b| && starts[k] < |buf| && Terminated(b, starts[k]) &&
          b[starts[k]] != NUL && b[starts[k]] != '"' && buf[starts[k]] == b[starts[k]])
  }

  predicate Shaped(b: seq<char>, s: Scan) {
    Live(s) && WritesOk(b, s.buffer, s.c) && StartsShape(b, s.buffer, s.starts, s.c)
  }

  lemma NextWrites(b: seq<char>, s: Scan)
    requires Shaped(b, s) && Halt(s).None?
    ensures WritesOk(b, Next(s).buffer, Next(s).c)
  {
  }

  lemma NextStarts(b: seq<char>, s: Scan)
    requires Shaped(b, s) && Halt(s).None?
    ensures StartsShape(b, Next(s).buffer, Next(s).starts, Next(s).c)
  {
    var n := Next(s);
    if StartsToken(s) {
      assert n == Scan(s.buffer, s.c + 1, s.quoted, true, s.starts + [s.c]);
      assert s.buffer[s.c] == b[s.c];
      assert Terminated(b, s.c) by {
        assert b[s.c..] == s.buffer[s.c..];
      }
    } else {
      assert n.starts == s.starts;
      assert n.buffer == s.buffer || n.buffer == s.buffer[s.c := NUL];
    }
  }

  /** One step keeps the scan shaped. */
  lemma NextShaped(b: seq<char>, s: Scan)
    requires Shaped(b, s) && Halt(s).None?
    ensures Shaped(b, Next(s))
  {
    NextWrites(b, s);
    NextStarts(b, s);
  }

  /** What a finished scan of b guarantees. */
  predicate LexedOk(b: seq<char>, r: Lexed) {
    && WritesOk(b, r.buffer, |b|)
    && StartsShape(b, r.buffer, r.starts, |b|)
    && (r.outcome == Done ==> |r.starts| < MAX_TOKENS)
  }

  lemma StopOk(b: seq<char>, s: Scan)
    requires Shaped(b, s) && Halt(s).Some?
    ensures LexedOk(b, Stop(s))
  {
  }

  lemma {:induction false} LexFromOk(b: seq<char>, s: Scan)
    requires Shaped(b, s)
    ensures LexedOk(b, LexFrom(s))
    decreases |s.buffer| - s.c
  {
    if Halt(s).Some? {
      StopOk(b, s);
    } else {
      NextShaped(b, s);
      LexFromOk(b, Next(s));
    }
  }

  /** Terminators stay in place, so every C string of the line is still terminated after the scan. */
  lemma TerminatedAfter(b: seq<char>, b': seq<char>, i: nat)
    requires |b'| == |b| && Terminated(b, i)
    requires forall k :: 0 <= k < |b| ==> b'[k] == b[k] || b'[k] == NUL
    ensures Terminated(b', i)
  {
    var n := StrLen(b, i);
    assert b'[i..][n] == NUL;
  }

  /**
   * The scan of a line: every token is a non-empty C string of the scanned
   * buffer that starts at a character of the line other than a quote, the
   * starts increase, only terminators are written, and a finished scan
   * leaves a slot for the NULL entry of the token array.
   */
  lemma LexTokens(b: seq<char>)
    requires Terminated(b, 0)
    ensures LexedOk(b, Lex(b))
    ensures StartsOk(Lex(b).buffer, Lex(b).starts)
    ensures forall k :: 0 <= k < |Lex(b).starts| ==>
      |Texts(Lex(b).buffer, Lex(b).starts)[k]| > 0 && b[Lex(b).starts[k]] != '"'
  {
    var r := Lex(b);
    LexFromOk(b, Scan(b, 0, false, false, []));
    forall k | 0 <= k < |r.starts|
      ensures Terminated(r.buffer, r.starts[k]) && |CStr(r.buffer, r.starts[k])| > 0
    {
      TerminatedAfter(b, r.buffer, r.starts[k]);
      assert r.buffer[r.starts[k]] != NUL;
    }
  }

  // ---------------------------------------------------------------------
  // Runs of characters

  /** buf with terminators written over [c, c + n), one position after the other. */
  function Cleared(buf: seq<char>, c: nat, n: nat): (r: seq<char>)
    requires c + n <= |buf|
    ensures |r| == |buf|
    ensures forall k :: 0 <= k < |r| ==> r[k] == if c <= k < c + n then NUL else buf[k]
    decreases n
  {
    if n == 0 then buf else Cleared(buf[c := NUL], c + 1, n - 1)
  }

  /** Outside quotes, inside a token, every character but a blank, a quote or the terminator is kept. */
  lemma {:induction false} InWord(buf: seq<char>, c: nat, n: nat, starts: seq<nat>)
    requires Terminated(buf, c) && c + n <= |buf|
    requires forall k :: c <= k < c + n ==> buf[k] != NUL && buf[k] != ' ' && buf[k] != '"'
    ensures Terminated(buf, c + n)
    ensures LexFrom(Scan(buf, c, false, true, starts)) == LexFrom(Scan(buf, c + n, false, true, starts))
    decreases n
  {
    if n > 0 {
      KeepStep(buf, c, false, starts);
      InWord(buf, c + 1, n - 1, starts);
    }
  }

  /** Inside quotes and inside a token, every character but a quote or the terminator is kept. */
  lemma {:induction false} InQuotes(buf: seq<char>, c: nat, n: nat, starts: seq<nat>)
    requires Terminated(buf, c) && c + n <= |buf|
    requires forall k :: c <= k < c + n ==> buf[k] != NUL && buf[k] != '"'
    ensures Terminated(buf, c + n)
    ensures LexFrom(Scan(buf, c, true, true, starts)) == LexFrom(Scan(buf, c + n, true, true, starts))
    decreases n
  {
    if n > 0 {
      KeepStep(buf, c, true, starts);
      InQuotes(buf, c + 1, n - 1, starts);
    }
  }

  /** Outside quotes, a blank ends the token and is overwritten by a terminator. */
  lemma BlankStep(buf: seq<char>, c: nat, reading: bool, starts: seq<nat>)
    requires Terminated(buf, c) && buf[c] == ' '
    ensures Terminated(buf[c := NUL], c + 1)
    ensures LexFrom(Scan(buf, c, false, reading, starts)) == LexFrom(Scan(buf[c := NUL], c + 1, false, false, starts))
  {
    assert Terminated(buf[c := NUL], c + 1) by {
      assert buf[c..] == [buf[c]] + buf[c + 1..];
      assert buf[c := NUL][c + 1..] == buf[c + 1..];
    }
    var s := Scan(buf, c, false, reading, starts);
    assert Halt(s).None?;
    assert Next(s) == Scan(buf[c := NUL], c + 1, false, false, starts);
  }

  /** Outside quotes, a run of blanks ends the token and is overwritten by terminators. */
  lemma {:induction false} Blanks(buf: seq<char>, c: nat, n: nat, reading: bool, starts: seq<nat>)
    requires Terminated(buf, c) && c + n <= |buf| && n > 0
    requires forall k :: c <= k < c + n ==> buf[k] == ' '
    ensures Terminated(Cleared(buf, c, n), c + n)
    ensures LexFrom(Scan(buf, c, false, reading, starts)) ==
      LexFrom(Scan(Cleared(buf, c, n), c + n, false, false, starts))
    decreases n
  {
    BlankStep(buf, c, reading, starts);
    if n > 1 {
      Blanks(buf[c := NUL], c + 1, n - 1, false, starts);
    }
  }

  /** A quote toggles quoting and is overwritten by a terminator. */
  lemma QuoteStep(buf: seq<char>, c: nat, quoted: bool, reading: bool, starts: seq<nat>)
    requires Terminated(buf, c) && buf[c] == '"'
    ensures Terminated(buf[c := NUL], c + 1)
    ensures LexFrom(Scan(buf, c, quoted, reading, starts)) ==
      LexFrom(Scan(buf[c := NUL], c + 1, !quoted, reading, starts))
  {
    assert Terminated(buf[c := NUL], c + 1) by {
      assert buf[c..] == [buf[c]] + buf[c + 1..];
      assert buf[c := NUL][c + 1..] == buf[c + 1..];
    }
    var s := Scan(buf, c, quoted, reading, starts);
    assert Halt(s).None?;
    assert Next(s) == Scan(buf[c := NUL], c + 1, !quoted, reading, starts);
  }

  /** Outside a token, a character that is quoted or not a blank starts a token while there is room. */
  lemma StartStep(buf: seq<char>, c: nat, quoted: bool, starts: seq<nat>)
    requires Terminated(buf, c) && buf[c] != NUL && buf[c] != '"'
    requires quoted || (buf[c] != ' ' && buf[c] != '#')
    requires |starts| < MAX_TOKENS
    ensures Terminated(buf, c + 1)
    ensures LexFrom(Scan(buf, c, quoted, false, starts)) ==
      LexFrom(Scan(buf, c + 1, quoted, true, starts + [c]))
  {
    assert Terminated(buf, c + 1) by {
      assert buf[c..] == [buf[c]] + buf[c + 1..];
    }
    var s := Scan(buf, c, quoted, false, starts);
    assert Halt(s).None?;
    assert Next(s) == Scan(buf, c + 1, quoted, true, starts + [c]);
  }

  /** Outside quotes and outside a token, `#` ends the line: it is overwritten by a terminator. */
  lemma CommentStep(buf: seq<char>, c: nat, starts: seq<nat>)
    requires Terminated(buf, c) && buf[c] == '#'
    ensures LexFrom(Scan(buf, c, false, false, starts)) == Lexed(buf[c := NUL], starts, Comment)
  {
  }

  /**
   * At the terminator the scan ends: done with the buffer and the starts it
   * has, or too many when no slot is left for the NULL entry.
   */
  lemma EndStep(buf: seq<char>, c: nat, quoted: bool, reading: bool, starts: seq<nat>)
    requires c < |buf| && buf[c] == NUL
    ensures Terminated(buf, c)
    ensures LexFrom(Scan(buf, c, quoted, reading, starts)) ==
      Lexed(buf, starts, if |starts| >= MAX_TOKENS then TooMany else Done)
  {
    assert buf[c..][0] == NUL;
  }

  /** Inside a token, a character that is neither a quote nor a blank outside quotes is kept. */
  lemma KeepStep(buf: seq<char>, c: nat, quoted: bool, starts: seq<nat>)
    requires Terminated(buf, c) && buf[c] != NUL && buf[c] != '"' && (quoted || buf[c] != ' ')
    ensures Terminated(buf, c + 1)
    ensures LexFrom(Scan(buf, c, quoted, true, starts)) == LexFrom(Scan(buf, c + 1, quoted, true, starts))
  {
    assert Terminated(buf, c + 1) by {
      assert buf[c..] == [buf[c]] + buf[c + 1..];
    }
    var s := Scan(buf, c, quoted, true, starts);
    assert Halt(s).None?;
    assert Next(s) == Scan(buf, c + 1, quoted, true, starts);
  }

  /** A token that would start when all MAX_TOKENS slots are taken stops the scan. */
  lemma FullStep(buf: seq<char>, c: nat, quoted: bool, starts: seq<nat>)
    requires Terminated(buf, c) && buf[c] != NUL && buf[c] != '"'
    requires quoted || (buf[c] != ' ' && buf[c] != '#')
    requires |starts| >= MAX_TOKENS
    ensures LexFrom(Scan(buf, c, quoted, false, starts)) == Lexed(buf, starts, TooMany)
  {
  }

  /** The scan of `ls  -l` up to the second token: the first token, then the blanks cleared. */
  lemma LexExampleFirst(b: seq<char>)
    requires |b| == 7 && b[0] == 'l' && b[1] == 's' && b[2] == ' ' && b[3] == ' '
    requires b[4] == '-' && b[5] == 'l' && b[6] == NUL
    ensures Terminated(b, 0) && Terminated(Cleared(b, 2, 2), 4)
    ensures Lex(b) == LexFrom(Scan(Cleared(b, 2, 2), 4, false, false, [0]))
  {
    LexExampleWord(b);
    LexExampleGap(b);
  }

  /** The first token of `ls  -l`: `ls` is scanned up to the first blank. */
  lemma LexExampleWord(b: seq<char>)
    requires |b| == 7 && b[0] == 'l' && b[1] == 's' && b[2] == ' ' && b[6] == NUL
    ensures Terminated(b, 0) && Terminated(b, 2)
    ensures Lex(b) == LexFrom(Scan(b, 2, false, true, [0]))
  {
    assert Terminated(b, 0) by { assert b[0..][6] == NUL; }
    StartStep(b, 0, false, []);
    assert [] + [0] == [0];
    InWord(b, 1, 1, [0]);
  }

  /** The two blanks of `ls  -l` end the first token and become terminators. */
  lemma LexExampleGap(b: seq<char>)
    requires |b| == 7 && b[2] == ' ' && b[3] == ' ' && b[6] == NUL
    ensures Terminated(b, 2) && Terminated(Cleared(b, 2, 2), 4)
    ensures LexFrom(Scan(b, 2, false, true, [0])) == LexFrom(Scan(Cleared(b, 2, 2), 4, false, false, [0]))
  {
    assert Terminated(b, 2) by { assert b[2..][4] == NUL; }
    Blanks(b, 2, 2, true, [0]);
  }

  /** The rest of that scan: the second token, then the terminator. */
  lemma LexExampleSecond(b1: seq<char>)
    requires |b1| == 7 && b1[4] == '-' && b1[5] == 'l' && b1[6] == NUL
    ensures Terminated(b1, 4) && LexFrom(Scan(b1, 4, false, false, [0])) == Lexed(b1, [0, 4], Done)
  {
    assert Terminated(b1, 4) by { assert b1[4..][2] == NUL; }
    StartStep(b1, 4, false, [0]);
    assert [0] + [4] == [0, 4];
    InWord(b1, 5, 1, [0, 4]);
    EndStep(b1, 6, false, true, [0, 4]);
  }

  /** The scan of `ls  -l`: two tokens, and the run of blanks becomes terminators. */
  lemma LexExampleScan(b: seq<char>)
    requires |b| == 7 && b[0] == 'l' && b[1] == 's' && b[2] == ' ' && b[3] == ' '
    requires b[4] == '-' && b[5] == 'l' && b[6] == NUL
    ensures Terminated(b, 0) && Lex(b) == Lexed(Cleared(b, 2, 2), [0, 4], Done)
  {
    LexExampleFirst(b);
    LexExampleSecond(Cleared(b, 2, 2));
  }

  /** The texts left in the buffer of that scan. */
  lemma LexExampleTexts(b: seq<char>)
    requires |b| == 7 && b[0] == 'l' && b[1] == 's' && b[2] == ' ' && b[3] == ' '
    requires b[4] == '-' && b[5] == 'l' && b[6] == NUL
    ensures StartsOk(Cleared(b, 2, 2), [0, 4]) && Texts(Cleared(b, 2, 2), [0, 4]) == ["ls", "-l"]
  {
    var b1 := Cleared(b, 2, 2);
    assert b1[0..2] == "ls";
    assert b1[4..6] == "-l";
    CStrIs(b1, 0, "ls");
    CStrIs(b1, 4, "-l");
    var ts := Texts(b1, [0, 4]);
    assert ts[0] == "ls" && ts[1] == "-l";
  }

  /** `ls  -l` splits into `ls` and `-l`. */
  lemma LexExampleBlanks(b: seq<char>)
    requires |b| == 7 && b[0] == 'l' && b[1] == 's' && b[2] == ' ' && b[3] == ' '
    requires b[4] == '-' && b[5] == 'l' && b[6] == NUL
    ensures Terminated(b, 0) && Lex(b).outcome == Done
    ensures StartsOk(Lex(b).buffer, Lex(b).starts) && Texts(Lex(b).buffer, Lex(b).starts) == ["ls", "-l"]
  {
    LexExampleScan(b);
    LexExampleTexts(b);
  }

  /** Inside the quotes of `"a b"`: a token starts at `a` and the blank is kept. */
  lemma LexExampleInside(b1: seq<char>)
    requires |b1| == 6 && b1[1] == 'a' && b1[2] == ' ' && b1[3] == 'b' && b1[4] == '"' && b1[5] == NUL
    ensures Terminated(b1, 1) && Terminated(b1, 4)
    ensures LexFrom(Scan(b1, 1, true, false, [])) == LexFrom(Scan(b1, 4, true, true, [1]))
  {
    assert Terminated(b1, 1) by { assert b1[1..][4] == NUL; }
    StartStep(b1, 1, true, []);
    assert [] + [1] == [1];
    InQuotes(b1, 2, 2, [1]);
  }

  /** The scan of `"a b"` up to the closing quote. */
  lemma LexExampleOpen(b: seq<char>)
    requires |b| == 6 && b[0] == '"' && b[1] == 'a' && b[2] == ' ' && b[3] == 'b' && b[4] == '"' && b[5] == NUL
    ensures Terminated(b, 0) && Terminated(b[0 := NUL], 4)
    ensures Lex(b) == LexFrom(Scan(b[0 := NUL], 4, true, true, [1]))
  {
    assert Terminated(b, 0) by { assert b[0..][5] == NUL; }
    QuoteStep(b, 0, false, false, []);
    LexExampleInside(b[0 := NUL]);
  }

  /** The scan of `"a b"`: the quotes become terminators and the blank between them is kept. */
  lemma LexExampleQuotes(b: seq<char>)
    requires |b| == 6 && b[0] == '"' && b[1] == 'a' && b[2] == ' ' && b[3] == 'b' && b[4] == '"' && b[5] == NUL
    ensures Terminated(b, 0) && Lex(b) == Lexed(b[0 := NUL][4 := NUL], [1], Done)
  {
    LexExampleOpen(b);
    var b1 := b[0 := NUL];
    QuoteStep(b1, 4, true, true, [1]);
    EndStep(b1[4 := NUL], 5, false, true, [1]);
  }

  /** `"a b"` is the single token `a b`. */
  lemma LexExampleQuoted(b: seq<char>)
    requires |b| == 6 && b[0] == '"' && b[1] == 'a' && b[2] == ' ' && b[3] == 'b' && b[4] == '"' && b[5] == NUL
    ensures Terminated(b, 0) && Lex(b).outcome == Done
    ensures StartsOk(Lex(b).buffer, Lex(b).starts) && Texts(Lex(b).buffer, Lex(b).starts) == ["a b"]
  {
    LexExampleQuotes(b);
    var b1 := b[0 := NUL][4 := NUL];
    assert b1[1..4] == "a b";
    CStrIs(b1, 1, "a b");
    assert Texts(b1, [1])[0] == "a b";
  }

  /** The scan of `ls #x`: the comment is cut off after the first token. */
  lemma LexExampleComment(b: seq<char>)
    requires |b| == 6 && b[0] == 'l' && b[1] == 's' && b[2] == ' ' && b[3] == '#' && b[4] == 'x' && b[5] == NUL
    ensures Terminated(b, 0) && Lex(b) == Lexed(b[2 := NUL][3 := NUL], [0], Comment)
  {
    assert Terminated(b, 0) by { assert b[0..][5] == NUL; }
    StartStep(b, 0, false, []);
    assert [] + [0] == [0];
    InWord(b, 1, 1, [0]);
    BlankStep(b, 2, true, [0]);
    CommentStep(b[2 := NUL], 3, [0]);
  }

  /** `ls #x` is the single token `ls`, and the scan reports the comment. */
  lemma LexExampleCommented(b: seq<char>)
    requires |b| == 6 && b[0] == 'l' && b[1] == 's' && b[2] == ' ' && b[3] == '#' && b[4] == 'x' && b[5] == NUL
    ensures Terminated(b, 0) && Lex(b).outcome == Comment
    ensures StartsOk(Lex(b).buffer, Lex(b).starts) && Texts(Lex(b).buffer, Lex(b).starts) == ["ls"]
  {
    LexExampleComment(b);
    var b1 := b[2 := NUL][3 := NUL];
    assert b1[0..2] == "ls";
    CStrIs(b1, 0, "ls");
    assert Texts(b1, [0])[0] == "ls";
  }

  /** The line `echo  "a b"  c`, terminated. */
  predicate EchoLine(b: seq<char>) {
    && |b| == 15 && b[0] == 'e' && b[1] == 'c' && b[2] == 'h' && b[3] == 'o' && b[4] == ' ' && b[5] == ' '
    && b[6] == '"' && b[7] == 'a' && b[8] == ' ' && b[9] == 'b' && b[10] == '"'
    && b[11] == ' ' && b[12] == ' ' && b[13] == 'c' && b[14] == NUL
  }

  /** The first token of `echo  "a b"  c`: `echo` is scanned up to the first blank. */
  lemma LexExampleEchoWord(b: seq<char>)
    requires EchoLine(b)
    ensures Terminated(b, 0) && Terminated(b, 4)
    ensures Lex(b) == LexFrom(Scan(b, 4, false, true, [0]))
  {
    assert Terminated(b, 0) by { assert b[0..][14] == NUL; }
    StartStep(b, 0, false, []);
    assert [] + [0] == [0];
    InWord(b, 1, 3, [0]);
  }

  /** The two blanks after `echo` end the token and become terminators. */
  lemma LexExampleEchoGap(b: seq<char>)
    requires EchoLine(b)
    ensures Terminated(b, 4) && Terminated(Cleared(b, 4, 2), 6)
    ensures LexFrom(Scan(b, 4, false, true, [0])) == LexFrom(Scan(Cleared(b, 4, 2), 6, false, false, [0]))
  {
    assert Terminated(b, 4) by { assert b[4..][10] == NUL; }
    Blanks(b, 4, 2, true, [0]);
  }

  /** The opening quote of that line becomes a terminator, and a token starts at `a`. */
  lemma LexExampleEchoOpen(b1: seq<char>)
    requires |b1| == 15 && b1[6] == '"' && b1[7] == 'a' && b1[14] == NUL
    ensures Terminated(b1, 6) && Terminated(b1[6 := NUL], 8)
    ensures LexFrom(Scan(b1, 6, false, false, [0])) == LexFrom(Scan(b1[6 := NUL], 8, true, true, [0, 7]))
  {
    assert Terminated(b1, 6) by { assert b1[6..][8] == NUL; }
    QuoteStep(b1, 6, false, false, [0]);
    StartStep(b1[6 := NUL], 7, true, [0]);
    assert [0] + [7] == [0, 7];
  }

  /** Inside the quotes, the blank between `a` and `b` is kept, and the closing quote becomes a terminator. */
  lemma LexExampleEchoClose(b2: seq<char>)
    requires |b2| == 15 && b2[8] == ' ' && b2[9] == 'b' && b2[10] == '"' && b2[14] == NUL
    ensures Terminated(b2, 8) && Terminated(b2[10 := NUL], 11)
    ensures LexFrom(Scan(b2, 8, true, true, [0, 7])) == LexFrom(Scan(b2[10 := NUL], 11, false, true, [0, 7]))
  {
    assert Terminated(b2, 8) by { assert b2[8..][6] == NUL; }
    InQuotes(b2, 8, 2, [0, 7]);
    QuoteStep(b2, 10, true, true, [0, 7]);
  }

  /** The end of that line: the blanks end the quoted token, and `c` is the last token. */
  lemma LexExampleEchoLast(b3: seq<char>)
    requires |b3| == 15 && b3[11] == ' ' && b3[12] == ' ' && b3[13] == 'c' && b3[14] == NUL
    ensures Terminated(b3, 11)
    ensures LexFrom(Scan(b3, 11, false, true, [0, 7])) == Lexed(Cleared(b3, 11, 2), [0, 7, 13], Done)
  {
    assert Terminated(b3, 11) by { assert b3[11..][3] == NUL; }
    Blanks(b3, 11, 2, true, [0, 7]);
    LexExampleEchoC(Cleared(b3, 11, 2));
  }

  /** The last token `c`, then the terminator. */
  lemma LexExampleEchoC(b4: seq<char>)
    requires |b4| == 15 && b4[13] == 'c' && b4[14] == NUL
    ensures Terminated(b4, 13) && LexFrom(Scan(b4, 13, false, false, [0, 7])) == Lexed(b4, [0, 7, 13], Done)
  {
    assert Terminated(b4, 13) by { assert b4[13..][1] == NUL; }
    StartStep(b4, 13, false, [0, 7]);
    assert [0, 7] + [13] == [0, 7, 13];
    EndStep(b4, 14, false, true, [0, 7, 13]);
  }

  /** The buffer the scan of `echo  "a b"  c` leaves: blanks between tokens and the quotes overwritten. */
  function EchoScanned(b: seq<char>): (r: seq<char>)
    requires |b| == 15
    ensures |r| == 15
  {
    Cleared(Cleared(b, 4, 2)[6 := NUL][10 := NUL], 11, 2)
  }

  /** The whole scan of `echo  "a b"  c`: three tokens, starting at `e`, `a` and `c`. */
  lemma LexExampleEchoScan(b: seq<char>)
    requires EchoLine(b)
    ensures Terminated(b, 0) && Lex(b) == Lexed(EchoScanned(b), [0, 7, 13], Done)
  {
    LexExampleEchoWord(b);
    LexExampleEchoGap(b);
    var b1 := Cleared(b, 4, 2);
    LexExampleEchoOpen(b1);
    LexExampleEchoClose(b1[6 := NUL]);
    LexExampleEchoLast(b1[6 := NUL][10 := NUL]);
  }

  /** `echo  "a b"  c` splits into `echo`, `a b` and `c`: the quotes keep their blank, the other blanks separate. */
  lemma LexExampleEcho(b: seq<char>)
    requires EchoLine(b)
    ensures Terminated(b, 0) && Lex(b).outcome == Done
    ensures StartsOk(Lex(b).buffer, Lex(b).starts) && Texts(Lex(b).buffer, Lex(b).starts) == ["echo", "a b", "c"]
  {
    LexExampleEchoScan(b);
    LexExampleEchoTexts(b);
  }

  /** The buffer that scan leaves, character by character. */
  lemma EchoScannedChars(b: seq<char>)
    requires EchoLine(b)
    ensures var r := EchoScanned(b);
      && r[0] == 'e' && r[1] == 'c' && r[2] == 'h' && r[3] == 'o' && r[4] == NUL
      && r[7] == 'a' && r[8] == ' ' && r[9] == 'b' && r[10] == NUL && r[13] == 'c' && r[14] == NUL
  {
    var b1 := Cleared(b, 4, 2);
    assert b1[4] == NUL && b1[7] == 'a' && b1[8] == ' ' && b1[9] == 'b' && b1[13] == 'c';
    var b2 := b1[6 := NUL][10 := NUL];
    assert Cleared(b2, 11, 2)[10] == NUL;
  }

  /** The texts left in the buffer of that scan. */
  lemma LexExampleEchoTexts(b: seq<char>)
    requires EchoLine(b)
    ensures StartsOk(EchoScanned(b), [0, 7, 13]) && Texts(EchoScanned(b), [0, 7, 13]) == ["echo", "a b", "c"]
  {
    EchoScannedChars(b);
    var r := EchoScanned(b);
    assert r[0..4] == "echo";
    assert r[7..10] == "a b";
    assert r[13..14] == "c";
    CStrIs(r, 0, "echo");
    CStrIs(r, 7, "a b");
    CStrIs(r, 13, "c");
    var ts := Texts(r, [0, 7, 13]);
    assert ts[0] == "echo" && ts[1] == "a b" && ts[2] == "c";
  }

  // ---------------------------------------------------------------------
  // A line without quotes or comments: its blank-separated words

  /** The C string at i of b is t: t holds no terminator, sits at i, and a terminator follows it. */
  predicate TextAt(b: seq<char>, i: nat, t: string) {
    NUL !in t && i + |t| < |b| && b[i + |t|] == NUL && forall k :: 0 <= k < |t| ==> b[i + k] == t[k]
  }

  /** TextAt says exactly that the C string at i is t. */
  lemma TextAtIsCStr(b: seq<char>, i: nat, t: string)
    ensures TextAt(b, i, t) <==> Terminated(b, i) && CStr(b, i) == t
  {
    if TextAt(b, i, t) {
      assert b[i..i + |t|] == t;
      CStrIs(b, i, t);
    }
  }

  /** Overwriting character j of the text at i by a terminator leaves the rest of the text at i + j + 1. */
  lemma TextAtRest(b: seq<char>, i: nat, t: string, j: nat)
    requires TextAt(b, i, t) && j < |t|
    ensures b[i + j] == t[j] && TextAt(b[i + j := NUL], i + j + 1, t[j + 1..])
    ensures Terminated(b[i + j := NUL], i + j + 1)
  {
    var b' := b[i + j := NUL];
    var u := t[j + 1..];
    assert NUL !in u by {
      assert forall ch :: ch in u ==> ch in t;
    }
    forall k | 0 <= k < |u|
      ensures b'[i + j + 1 + k] == u[k]
    {
      assert b[i + (j + 1 + k)] == t[j + 1 + k];
    }
    assert b'[i + j + 1 + |u|] == NUL;
    assert b'[i + j + 1..][|u|] == NUL;
  }

  /** The tokens from index from on hold the texts w. */
  predicate WordsAt(b: seq<char>, starts: seq<nat>, from: nat, w: seq<string>) {
    |starts| == from + |w| && forall k :: 0 <= k < |w| ==> TextAt(b, starts[from + k], w[k])
  }

  /** The text scanned from c holds no quote and no `#`. */
  predicate Plain(buf: seq<char>, c: nat)
    requires Terminated(buf, c)
  {
    '"' !in CStr(buf, c) && '#' !in CStr(buf, c)
  }

  /**
   * A finished scan r of buf from c with the tokens starts already taken:
   * it is done, wrote nothing before c, kept those tokens and added one
   * token per word of w.
   */
  predicate ScannedWords(r: Lexed, buf: seq<char>, c: nat, starts: seq<nat>, w: seq<string>) {
    && r.outcome == Done && |r.buffer| == |buf| && c <= |buf|
    && (forall k :: 0 <= k < c ==> r.buffer[k] == buf[k])
    && WordsAt(r.buffer, r.starts, |starts|, w)
    && (forall k :: 0 <= k < |starts| ==> r.starts[k] == starts[k])
  }

  /**
   * Between tokens and outside quotes, a text t without quotes and without
   * `#` is split into its words: the scan finishes with one token per word,
   * each the C string of that word, and it writes nothing before c.
   */
  lemma {:induction false} LexWordsFrom(buf: seq<char>, c: nat, starts: seq<nat>, t: string, w: seq<string>)
    requires Terminated(buf, c) && TextAt(buf, c, t) && '"' !in t && '#' !in t && w == Builtins.Words(t)
    requires |starts| + |w| < MAX_TOKENS
    ensures ScannedWords(LexFrom(Scan(buf, c, false, false, starts)), buf, c, starts, w)
    decreases |t|, 1
  {
    if t == [] {
      EndStep(buf, c, false, false, starts);
    } else if t[0] == ' ' {
      BlankWordsFrom(buf, c, starts, t, w);
    } else if Builtins.WordLength(t) == |t| {
      LastWordFrom(buf, c, starts, t, w);
    } else {
      WordFrom(buf, c, starts, t, w);
    }
  }

  /** A blank between tokens is overwritten and skipped. */
  lemma {:induction false} BlankWordsFrom(buf: seq<char>, c: nat, starts: seq<nat>, t: string, w: seq<string>)
    requires Terminated(buf, c) && TextAt(buf, c, t) && '"' !in t && '#' !in t && w == Builtins.Words(t)
    requires t != [] && t[0] == ' ' && |starts| + |w| < MAX_TOKENS
    ensures ScannedWords(LexFrom(Scan(buf, c, false, false, starts)), buf, c, starts, w)
    decreases |t|, 0
  {
    var u := t[1..];
    var buf' := buf[c := NUL];
    assert Terminated(buf', c + 1) && TextAt(buf', c + 1, u) && '"' !in u && '#' !in u && w == Builtins.Words(u) by {
      TextAtRest(buf, c, t, 0);
      assert forall ch :: ch in u ==> ch in t;
    }
    LexWordsFrom(buf', c + 1, starts, u, w);
    var r := LexFrom(Scan(buf', c + 1, false, false, starts));
    assert ScannedWords(r, buf, c, starts, w) by {
      ScannedSkip(r, buf, c, starts, w);
    }
    assert LexFrom(Scan(buf, c, false, false, starts)) == r by {
      TextAtRest(buf, c, t, 0);
      BlankStep(buf, c, false, starts);
    }
  }

  /** Overwriting the blank at c does not touch what lies before it. */
  lemma ScannedSkip(r: Lexed, buf: seq<char>, c: nat, starts: seq<nat>, w: seq<string>)
    requires c < |buf| && ScannedWords(r, buf[c := NUL], c + 1, starts, w)
    ensures ScannedWords(r, buf, c, starts, w)
  {
  }

  /** The last word of the text becomes the last token. */
  lemma {:induction false} LastWordFrom(buf: seq<char>, c: nat, starts: seq<nat>, t: string, w: seq<string>)
    requires Terminated(buf, c) && TextAt(buf, c, t) && '"' !in t && '#' !in t && w == Builtins.Words(t)
    requires t != [] && t[0] != ' ' && Builtins.WordLength(t) == |t|
    requires |starts| + |w| < MAX_TOKENS
    ensures ScannedWords(LexFrom(Scan(buf, c, false, false, starts)), buf, c, starts, w)
  {
    var n := |t|;
    assert t[n..] == [] && t[..n] == t;
    assert Builtins.Words(t) == [t];
    WordChars(buf, c, t, n);
    WordEndScan(buf, c, n, starts);
    var r := LexFrom(Scan(buf, c, false, false, starts));
    assert r.starts[|starts| + 0] == c;
  }

  /** Outside a token, a word that ends the text: a token starts and the scan is done. */
  lemma WordEndScan(buf: seq<char>, c: nat, n: nat, starts: seq<nat>)
    requires Terminated(buf, c) && 0 < n && c + n < |buf| && buf[c + n] == NUL && |starts| + 1 < MAX_TOKENS
    requires forall k :: c <= k < c + n ==> buf[k] != NUL && buf[k] != ' ' && buf[k] != '"' && buf[k] != '#'
    ensures LexFrom(Scan(buf, c, false, false, starts)) == Lexed(buf, starts + [c], Done)
  {
    StartStep(buf, c, false, starts);
    InWord(buf, c + 1, n - 1, starts + [c]);
    EndStep(buf, c + n, false, true, starts + [c]);
  }

  /** A word followed by a blank becomes one token, cut by a terminator written over the blank. */
  lemma {:induction false} WordFrom(buf: seq<char>, c: nat, starts: seq<nat>, t: string, w: seq<string>)
    requires Terminated(buf, c) && TextAt(buf, c, t) && '"' !in t && '#' !in t && w == Builtins.Words(t)
    requires t != [] && t[0] != ' ' && Builtins.WordLength(t) < |t|
    requires |starts| + |w| < MAX_TOKENS
    ensures ScannedWords(LexFrom(Scan(buf, c, false, false, starts)), buf, c, starts, w)
    decreases |t|, 0
  {
    var n := Builtins.WordLength(t);
    var u := t[n + 1..];
    var w' := Builtins.Words(u);
    var buf' := buf[c + n := NUL];
    assert Terminated(buf', c + n + 1) && TextAt(buf', c + n + 1, u) && '"' !in u && '#' !in u by {
      TextAtRest(buf, c, t, n);
      assert forall ch :: ch in u ==> ch in t;
    }
    assert w == [t[..n]] + w' by {
      WordsFirst(t);
    }
    LexWordsFrom(buf', c + n + 1, starts + [c], u, w');
    var r := LexFrom(Scan(buf', c + n + 1, false, false, starts + [c]));
    assert ScannedWords(r, buf, c, starts, w) by {
      WordJoin(r, buf, c, t, n, starts, w');
    }
    assert LexFrom(Scan(buf, c, false, false, starts)) == r by {
      WordChars(buf, c, t, n);
      WordBlankScan(buf, c, n, starts);
    }
  }

  /** Outside a token, a word and the blank after it: a token starts, and the blank becomes its terminator. */
  lemma WordBlankScan(buf: seq<char>, c: nat, n: nat, starts: seq<nat>)
    requires Terminated(buf, c) && 0 < n && c + n < |buf| && buf[c + n] == ' ' && |starts| < MAX_TOKENS
    requires forall k :: c <= k < c + n ==> buf[k] != NUL && buf[k] != ' ' && buf[k] != '"' && buf[k] != '#'
    ensures Terminated(buf[c + n := NUL], c + n + 1)
    ensures LexFrom(Scan(buf, c, false, false, starts)) ==
      LexFrom(Scan(buf[c + n := NUL], c + n + 1, false, false, starts + [c]))
  {
    StartStep(buf, c, false, starts);
    InWord(buf, c + 1, n - 1, starts + [c]);
    BlankStep(buf, c + n, true, starts + [c]);
  }

  /** The first n characters of a text without quotes, `#` or blanks there: none is a terminator, a blank, a quote or `#`. */
  lemma WordChars(buf: seq<char>, c: nat, t: string, n: nat)
    requires TextAt(buf, c, t) && '"' !in t && '#' !in t
    requires n <= |t| && forall k :: 0 <= k < n ==> t[k] != ' '
    ensures c + n < |buf| && buf[c + n] == (if n < |t| then t[n] else NUL)
    ensures forall k :: c <= k < c + n ==> buf[k] != NUL && buf[k] != ' ' && buf[k] != '"' && buf[k] != '#'
  {
    forall k | c <= k < c + n
      ensures buf[k] != NUL && buf[k] != ' ' && buf[k] != '"' && buf[k] != '#'
    {
      assert buf[c + (k - c)] == t[k - c] && t[k - c] in t;
    }
    if n < |t| {
      assert buf[c + n] == t[n];
    }
  }

  /** A text that starts with a word and goes on after it: that word, then the words after the blank that ends it. */
  lemma WordsFirst(t: string)
    requires t != [] && t[0] != ' ' && Builtins.WordLength(t) < |t|
    ensures var n := Builtins.WordLength(t); Builtins.Words(t) == [t[..n]] + Builtins.Words(t[n + 1..])
  {
    var n := Builtins.WordLength(t);
    assert Builtins.Words(t) == [t[..n]] + Builtins.Words(t[n..]);
    assert t[n..][1..] == t[n + 1..];
  }

  /** The scan of the rest, with the token of the word before the overwritten blank added in front, is the scan from the word. */
  lemma WordJoin(r: Lexed, buf: seq<char>, c: nat, t: string, n: nat, starts: seq<nat>, w: seq<string>)
    requires TextAt(buf, c, t) && n < |t| && t[n] == ' '
    requires ScannedWords(r, buf[c + n := NUL], c + n + 1, starts + [c], w)
    ensures ScannedWords(r, buf, c, starts, [t[..n]] + w)
  {
    var buf' := buf[c + n := NUL];
    assert NUL !in t[..n] by {
      assert forall ch :: ch in t[..n] ==> ch in t;
    }
    forall k | 0 <= k < n
      ensures r.buffer[c + k] == t[..n][k]
    {
      assert r.buffer[c + k] == buf'[c + k] == buf[c + k];
    }
    assert r.buffer[c + n] == buf'[c + n] == NUL;
    assert TextAt(r.buffer, c, t[..n]);
    assert r.starts[|starts|] == (starts + [c])[|starts|] == c;
    var w' := [t[..n]] + w;
    forall k | 0 <= k < |w'|
      ensures TextAt(r.buffer, r.starts[|starts| + k], w'[k])
    {
      if k > 0 {
        assert r.starts[|starts| + k] == r.starts[|starts| + 1 + (k - 1)];
        assert w'[k] == w[k - 1];
      }
    }
  }

  /**
   * A line without quotes and without `#`, holding fewer than MAX_TOKENS
   * words, is split into exactly its blank-separated words.
   */
  lemma LexWords(b: seq<char>)
    requires Terminated(b, 0) && Plain(b, 0) && |Builtins.Words(CStr(b, 0))| < MAX_TOKENS
    ensures Lex(b).outcome == Done
    ensures StartsOk(Lex(b).buffer, Lex(b).starts) && Texts(Lex(b).buffer, Lex(b).starts) == Builtins.Words(CStr(b, 0))
  {
    var t := CStr(b, 0);
    var w := Builtins.Words(t);
    TextAtIsCStr(b, 0, t);
    LexWordsFrom(b, 0, [], t, w);
    var r := Lex(b);
    forall k | 0 <= k < |r.starts|
      ensures Terminated(r.buffer, r.starts[k]) && CStr(r.buffer, r.starts[k]) == w[k]
    {
      assert TextAt(r.buffer, r.starts[0 + k], w[k]);
      TextAtIsCStr(r.buffer, r.starts[k], w[k]);
    }
    assert Texts(r.buffer, r.starts) == w;
  }
}

=== FILE: redirects.dfy ===
/**
 * Extraction of the trailing background and redirection markers of a
 * command (handle_redirects), on the token texts. The scan runs from the
 * last token towards the first and stops at the first token that is not a
 * marker; every marker it passes is removed from the command.
 */
module Redirects {
  import opened Wrappers
  import opened Constants

  /** A token that is exactly `&`. */
  predicate IsBackground(t: string) { t == "&" }

  /** A token of more than one character that starts with kind (`<` or `>`). */
  predicate IsRedirect(t: string, kind: char) { |t| > 1 && t[0] == kind }

  predicate IsMarker(t: string) {
    IsBackground(t) || IsRedirect(t, '<') || IsRedirect(t, '>')
  }

  /**
   * The path after the marker character, copied with its terminator into a
   * buffer of PATH_MAX_LENGTH characters, fits it.
   */
  predicate PathFits(t: string) { |t| <= PATH_MAX_LENGTH }

  /** The number of tokens left once the maximal trailing run of markers is removed. */
  function Kept(ts: seq<string>): (n: nat)
    ensures n <= |ts|
    ensures n == 0 || !IsMarker(ts[n - 1])
  {
    KeptBelow(ts, |ts|)
  }

  /** The same for the first m tokens: the scan starts at index m - 1. */
  function KeptBelow(ts: seq<string>, m: nat): (n: nat)
    requires m <= |ts|
    ensures n <= m
    ensures n == 0 || !IsMarker(ts[n - 1])
  {
    if m == 0 || !IsMarker(ts[m - 1]) then m else KeptBelow(ts, m - 1)
  }

  /** Every token after the kept ones is a marker: the run removed is all markers. */
  lemma {:induction false} KeptRun(ts: seq<string>, m: nat)
    requires m <= |ts|
    ensures forall k :: KeptBelow(ts, m) <= k < m ==> IsMarker(ts[k])
  {
    if m > 0 && IsMarker(ts[m - 1]) {
      KeptRun(ts, m - 1);
    }
  }

  /** The trailing run of markers below m starts at n when ts[n..m] are markers and ts[n - 1] is not. */
  lemma {:induction false} KeptIs(ts: seq<string>, n: nat, m: nat)
    requires n <= m <= |ts| && forall k :: n <= k < m ==> IsMarker(ts[k])
    requires n == 0 || !IsMarker(ts[n - 1])
    ensures KeptBelow(ts, m) == n
  {
    if n < m {
      KeptIs(ts, n, m - 1);
    }
  }

  /** When ts[n..m] are all markers, at most the first n tokens are kept. */
  lemma {:induction false} KeptAtMost(ts: seq<string>, n: nat, m: nat)
    requires n <= m <= |ts| && forall k :: n <= k < m ==> IsMarker(ts[k])
    ensures KeptBelow(ts, m) <= n
  {
    if n < m {
      KeptAtMost(ts, n, m - 1);
    }
  }

  /** Taking one more token into the removed run, from the right: a marker of a kind becomes the leftmost of that kind. */
  lemma MarkerStep(ts: seq<string>, n: nat)
    requires 0 < n <= |ts|
    ensures ("&" in ts[n - 1..]) == (ts[n - 1] == "&" || "&" in ts[n..])
    ensures PathAt(ts, FirstRedirect(ts, n - 1, '<')) ==
      if IsRedirect(ts[n - 1], '<') then Some(ts[n - 1][1..]) else PathAt(ts, FirstRedirect(ts, n, '<'))
    ensures PathAt(ts, FirstRedirect(ts, n - 1, '>')) ==
      if IsRedirect(ts[n - 1], '>') then Some(ts[n - 1][1..]) else PathAt(ts, FirstRedirect(ts, n, '>'))
  {
    assert ts[n - 1..] == [ts[n - 1]] + ts[n..];
  }

  /** The index of the leftmost redirect of the given kind in ts[from..], if any. */
  function FirstRedirect(ts: seq<string>, from: nat, kind: char): (r: Option<nat>)
    requires from <= |ts|
    ensures r.Some? ==> from <= r.value < |ts| && IsRedirect(ts[r.value], kind)
    decreases |ts| - from
  {
    if from == |ts| then None
    else if IsRedirect(ts[from], kind) then Some(from)
    else FirstRedirect(ts, from + 1, kind)
  }

  /** No redirect of the kind lies between from and the one found, or after from when none is found. */
  lemma {:induction false} FirstRedirectLeftmost(ts: seq<string>, from: nat, kind: char)
    requires from <= |ts|
    ensures var r := FirstRedirect(ts, from, kind);
      forall j :: from <= j < (if r.Some? then r.value else |ts|) ==> !IsRedirect(ts[j], kind)
    decreases |ts| - from
  {
    if from < |ts| && !IsRedirect(ts[from], kind) {
      FirstRedirectLeftmost(ts, from + 1, kind);
    }
  }

  /** Every path from index from on fits its buffer. */
  predicate PathsFitFrom(ts: seq<string>, from: nat)
    requires from <= |ts|
    decreases |ts| - from
  {
    from == |ts| || (PathFits(ts[from]) && PathsFitFrom(ts, from + 1))
  }

  lemma {:induction false} PathsFitFromAll(ts: seq<string>, from: nat)
    requires from <= |ts|
    ensures PathsFitFrom(ts, from) <==> forall k :: from <= k < |ts| ==> PathFits(ts[k])
    decreases |ts| - from
  {
    if from < |ts| {
      PathsFitFromAll(ts, from + 1);
    }
  }

  /** The path of the redirect at the given index. */
  function PathAt(ts: seq<string>, k: Option<nat>): (r: Option<string>)
    requires k.Some? ==> k.value < |ts| && |ts[k.value]| > 0
  {
    match k
    case None => None
    case Some(i) => Some(ts[i][1..])
  }

  /** What the extraction leaves: the token count, the background flag and the two redirect paths. */
  datatype Redirection = Redirection(count: nat, background: bool, input: Option<string>, output: Option<string>)

  /**
   * handle_redirects: the trailing markers are removed; `&` sets background,
   * and of several `<` (or `>`) markers the leftmost wins, because the scan
   * meets it last. A path too long for its buffer fails the extraction.
   */
  function Extract(ts: seq<string>): (r: Option<Redirection>)
    ensures r.Some? ==> r.value.count == Kept(ts)
  {
    var n := Kept(ts);
    if !PathsFitFrom(ts, n) then None
    else Some(Redirection(n, "&" in ts[n..], PathAt(ts, FirstRedirect(ts, n, '<')), PathAt(ts, FirstRedirect(ts, n, '>'))))
  }

  /** The extraction fails exactly when a removed marker carries a path too long for its buffer. */
  lemma ExtractNone(ts: seq<string>)
    ensures Extract(ts).None? <==> exists k :: Kept(ts) <= k < |ts| && !PathFits(ts[k])
  {
    PathsFitFromAll(ts, Kept(ts));
  }

  /**
   * What the backward scan of handle_redirects knows once it has taken in
   * ts[n..]: all of them are markers whose paths fit, and the flag and the
   * paths are those of that suffix, the leftmost redirect of a kind winning.
   */
  predicate ScannedFrom(ts: seq<string>, n: nat, background: bool, input: Option<string>, output: Option<string>) {
    n <= |ts| && (forall k :: n <= k < |ts| ==> IsMarker(ts[k]) && PathFits(ts[k]))
    && background == ("&" in ts[n..])
    && input == PathAt(ts, FirstRedirect(ts, n, '<')) && output == PathAt(ts, FirstRedirect(ts, n, '>'))
  }

  /** One more marker taken in, from the right: it sets the flag or becomes the path of its kind. */
  lemma ScanStep(ts: seq<string>, n: nat, background: bool, input: Option<string>, output: Option<string>)
    requires ScannedFrom(ts, n, background, input, output)
    requires 0 < n && IsMarker(ts[n - 1]) && PathFits(ts[n - 1])
    ensures ScannedFrom(ts, n - 1, background || ts[n - 1] == "&",
      if IsRedirect(ts[n - 1], '<') then Some(ts[n - 1][1..]) else input,
      if IsRedirect(ts[n - 1], '>') then Some(ts[n - 1][1..]) else output)
  {
    MarkerStep(ts, n);
  }

  /**
   * What the backward scan of handle_redirects establishes when it stops
   * at a token that is no marker (or runs out of tokens): the extraction
   * keeps the tokens before it, with the flags and paths collected.
   */
  lemma ExtractIs(ts: seq<string>, n: nat, background: bool, input: Option<string>, output: Option<string>)
    requires ScannedFrom(ts, n, background, input, output)
    requires n == 0 || !IsMarker(ts[n - 1])
    ensures Extract(ts) == Some(Redirection(n, background, input, output))
  {
    KeptIs(ts, n, |ts|);
    PathsFitFromAll(ts, n);
  }

  /** The backward scan fails at a redirect whose path is too long, which lies in the trailing run of markers. */
  lemma ExtractFails(ts: seq<string>, t: nat)
    requires t < |ts| && forall k :: t < k < |ts| ==> IsMarker(ts[k])
    requires IsMarker(ts[t]) && !PathFits(ts[t])
    ensures Extract(ts).None?
  {
    KeptAtMost(ts, t, |ts|);
    ExtractNone(ts);
  }

  /** ts[k] is the first redirect of the given kind from index n on. */
  predicate Leftmost(ts: seq<string>, n: nat, k: nat, kind: char) {
    n <= k < |ts| && IsRedirect(ts[k], kind) && forall j :: n <= j < k ==> !IsRedirect(ts[j], kind)
  }

  /**
   * The flags say exactly which markers were removed: background iff an `&`
   * was among them, an input (output) path iff a `<` (`>`) marker was, and
   * then the path of the leftmost one.
   */
  lemma ExtractFlags(ts: seq<string>)
    requires Extract(ts).Some?
    ensures var r := Extract(ts).value;
      && (r.background <==> exists k :: r.count <= k < |ts| && IsBackground(ts[k]))
      && (r.input.Some? <==> exists k :: r.count <= k < |ts| && IsRedirect(ts[k], '<'))
      && (r.output.Some? <==> exists k :: r.count <= k < |ts| && IsRedirect(ts[k], '>'))
      && (r.input.Some? ==> exists k: nat :: Leftmost(ts, r.count, k, '<') && r.input.value == ts[k][1..])
      && (r.output.Some? ==> exists k: nat :: Leftmost(ts, r.count, k, '>') && r.output.value == ts[k][1..])
  {
    var r := Extract(ts).value;
    var n := r.count;
    FirstRedirectLeftmost(ts, n, '<');
    FirstRedirectLeftmost(ts, n, '>');
    if r.background {
      var k :| 0 <= k < |ts[n..]| && ts[n..][k] == "&";
      assert IsBackground(ts[n + k]);
    }
    if exists k :: n <= k < |ts| && IsBackground(ts[k]) {
      var k :| n <= k < |ts| && IsBackground(ts[k]);
      assert ts[n..][k - n] == "&";
    }
    if r.input.Some? {
      assert Leftmost(ts, n, FirstRedirect(ts, n, '<').value, '<');
    }
    if r.output.Some? {
      assert Leftmost(ts, n, FirstRedirect(ts, n, '>').value, '>');
    }
  }

  /** Extraction is idempotent: what it keeps holds no trailing marker, so a second pass changes nothing. */
  lemma ExtractIdempotent(ts: seq<string>)
    requires Extract(ts).Some?
    ensures Extract(ts[..Extract(ts).value.count]) == Some(Redirection(Extract(ts).value.count, false, None, None))
  {
    var n := Extract(ts).value.count;
    var kept := ts[..n];
    assert Kept(kept) == n;
    assert kept[n..] == [];
  }

  /** `cmd a >out &` keeps `cmd a`, runs in the background and writes to `out`. */
  lemma ExtractExample()
    ensures Extract(["cmd", "a", ">out", "&"]) == Some(Redirection(2, true, None, Some("out")))
  {
    var ts := ["cmd", "a", ">out", "&"];
    assert KeptBelow(ts, 2) == 2;
    assert KeptBelow(ts, 3) == 2;
    assert Kept(ts) == 2;
    assert ts[2..] == [">out", "&"];
    assert FirstRedirect(ts, 2, '>') == Some(2);
  }

  /** The run is not capped at three: four trailing markers are all removed. */
  lemma ExtractUncapped()
    ensures Extract(["x", "&", "<i", ">o", "&"]).Some?
    ensures Extract(["x", "&", "<i", ">o", "&"]).value.count == 1
  {
    var ts := ["x", "&", "<i", ">o", "&"];
    assert KeptBelow(ts, 1) == 1;
    assert KeptBelow(ts, 2) == 1;
    assert KeptBelow(ts, 3) == 1;
    assert KeptBelow(ts, 4) == 1;
  }

  /** Of two input redirects the leftmost wins; a marker followed by a word is not removed. */
  lemma ExtractLeftmostWins()
    ensures Extract(["sort", "<a", "<b"]) == Some(Redirection(1, false, Some("a"), None))
    ensures Extract(["echo", "&", "x"]) == Some(Redirection(3, false, None, None))
  {
    var ts := ["sort", "<a", "<b"];
    assert KeptBelow(ts, 1) == 1;
    assert KeptBelow(ts, 2) == 1;
    assert Kept(ts) == 1;
    assert ts[1..] == ["<a", "<b"];
    assert FirstRedirect(ts, 1, '<') == Some(1);
    assert FirstRedirect(ts, 1, '>') == None;
    var us := ["echo", "&", "x"];
    assert Kept(us) == 3;
    assert us[3..] == [];
  }
}

=== FILE: repl.dfy ===
/**
 * One turn of the read-eval loop (repl in main.c): the line is read (after
 * the line a `!!` or `!n` selected, when there is one), cut at its line
 * terminator, saved to the history unless it is a history command, split
 * into tokens, alias-substituted, stripped of its trailing redirection
 * markers and dispatched; finally the tokens the alias step allocated are
 * released. The input stream is a parameter (the text fgets returns, None at
 * the end of input), and so is the exit status of anything outside the
 * model (external programs and the builtins not modelled here).
 */
module Repl {
  import opened Wrappers
  import opened Constants
  import opened CString
  import opened Utility
  import opened Builtins
  import opened Tables
  import opened Lexer
  import opened Redirects
  import opened ShellState

  // ---------------------------------------------------------------------
  // Table indices of the modelled builtins

  const CMD_DEBUG: nat := 0
  const CMD_PROMPT: nat := 1
  const CMD_STATUS: nat := 2
  const CMD_EXIT: nat := 3
  const CMD_HELP: nat := 4
  const CMD_PRINT: nat := 5
  const CMD_ECHO: nat := 6
  const CMD_LEN: nat := 7
  const CMD_LASTCMD: nat := 38
  const CMD_NTHCMD: nat := 39
  const CMD_HISTORY: nat := 40
  const CMD_ALIAS: nat := 41
  const CMD_UNALIAS: nat := 42
  const CMD_ALIASLIST: nat := 43
  const CMD_SETVAR: nat := 47
  const CMD_FREEVAR: nat := 48
  const CMD_VARLIST: nat := 49

  // ---------------------------------------------------------------------
  // The session and what a command does to it

  /**
   * The part of the shell state that outlives a line: the prompt, the exit
   * status, the alias and variable tables, and the history entry selected
   * for replay by `!!` or `!n` (block_prompt and history_index).
   */
  datatype Session = Session(prompt: string, status: int, aliases: seq<Alias>, vars: seq<Variable>, replay: Option<nat>)

  /** How a line ended. */
  datatype Outcome =
    | EndOfInput         // fgets returned NULL: the loop ends
    | Unterminated       // no line terminator anywhere in the buffer (the C scan runs past it)
    | ExpansionTooLong   // the expanded line does not fit the buffer
    | TooManyTokens      // the token array would overflow
    | PathTooLong        // a redirection path does not fit its buffer
    | Empty              // no tokens: nothing is dispatched
    | NoCommand          // every token was a redirection marker (the C code would look up NULL)
    | Ran(builtin: Option<nat>, output: string)  // the command ran; the builtin's index, None for a program
    | Exited(status: int)                        // the exit builtin ended the shell

  /**
   * The session after the handler of a builtin (b is its table index) or a
   * program (b is None) ran in the foreground, with the saved lines history,
   * and what the handler wrote.
   */
  function Handle(s: Session, history: seq<string>, args: seq<string>, b: Option<nat>, otherStatus: int): (r: (Session, string))
    requires |args| >= 1
  {
    if b.None? then (s.(status := otherStatus), "")
    else if IsReplay(b.value) then Replay(s, history, args, b.value)
    else if IsTableEdit(b.value) then TableEdit(s, args, b.value)
    else Reply(s, args, b.value, otherStatus)
  }

  predicate IsReplay(i: nat) { i == CMD_LASTCMD || i == CMD_NTHCMD }

  predicate IsTableEdit(i: nat) { i == CMD_ALIAS || i == CMD_UNALIAS || i == CMD_SETVAR || i == CMD_FREEVAR }

  /** `!!` and `!n`: on success the selected entry is echoed and replayed as the next line. */
  function Replay(s: Session, history: seq<string>, args: seq<string>, i: nat): (r: (Session, string))
    requires IsReplay(i)
  {
    var k := if i == CMD_LASTCMD then LastCmd(|history|) else NthCmd(|history|, args);
    var out := if i == CMD_LASTCMD then LastCmdMessage(s.prompt, history) else NthCmdMessage(s.prompt, history, args);
    match k
    case Some(k) => (s.(replay := Some(k), status := 0), out)
    case None => (s.(status := 1), out)
  }

  /** alias, unalias, setvar and freevar, with what each writes. */
  function TableEdit(s: Session, args: seq<string>, i: nat): (r: (Session, string))
    requires IsTableEdit(i)
  {
    if i == CMD_ALIAS then
      var (a, st) := AddAlias(s.aliases, args);
      (s.(aliases := a, status := st), AliasMessage(s.aliases, args))
    else if i == CMD_UNALIAS then
      var (a, st) := Unalias(s.aliases, args);
      (s.(aliases := a, status := st), UnaliasMessage(s.aliases, args))
    else if i == CMD_SETVAR then
      var (v, st) := SetVar(s.vars, args);
      (s.(vars := v, status := st), SetVarMessage(s.vars, args))
    else
      var (v, st) := FreeVar(s.vars, args);
      (s.(vars := v, status := st), FreeVarMessage(s.vars, args))
  }

  /**
   * The other builtins: those modelled set the status and write their
   * output; the rest stand for code outside the model, whose status is a
   * parameter.
   */
  function Reply(s: Session, args: seq<string>, i: nat, otherStatus: int): (r: (Session, string))
    requires |args| >= 1
  {
    if i == CMD_DEBUG then (if |args| > 1 then s.(status := 0) else s, "")
    else if i == CMD_PROMPT then
      var (p, st) := PromptUpdate(s.prompt, args);
      (s.(prompt := p, status := st), if |args| == 1 then s.prompt + "\n" else "")
    else if i == CMD_STATUS then (s, "")
    else if i == CMD_HELP || i == CMD_HISTORY || i == CMD_ALIASLIST || i == CMD_VARLIST then (s.(status := 0), "")
    else if i == CMD_PRINT then (s.(status := 0), PrintOutput(args))
    else if i == CMD_ECHO then (s.(status := 0), EchoOutput(args))
    else if i == CMD_LEN then (s.(status := 0), Decimal(LenOutput(args)) + "\n")
    else (s.(status := otherStatus), "")
  }

  /**
   * execute_builtin / execute_external for the argument vector left after
   * the redirection markers: `exit` in the foreground ends the shell with
   * the status of its argument (or the current one); a builtin in the
   * background runs in a child process, which writes what the handler
   * writes and leaves the parent's session alone.
   */
  function Execute(s: Session, history: seq<string>, args: seq<string>, background: bool, otherStatus: int): (r: (Session, Outcome))
    requires |args| >= 1
  {
    var b := FindBuiltin(args[0]);
    if b == Some(CMD_EXIT) && !background then
      var st := if |args| > 1 then Atoi(args[1]) else s.status;
      (s.(status := st), Exited(st))
    else if b.Some? && background then (s, Ran(b, Handle(s, history, args, b, otherStatus).1))
    else
      var (s', out) := Handle(s, history, args, b, otherStatus);
      (s', Ran(b, out))
  }

  /** The bounds the shell's arrays put on a session, and its variables' unique names. */
  predicate SessionOk(s: Session, historyCount: nat) {
    && |s.prompt| <= PROMPT_TEXT_MAX_LENGTH
    && |s.aliases| <= MAX_ALIASES && |s.vars| <= MAX_VARIABLES
    && VarNamesUnique(s.vars)
    && (s.replay.Some? ==> s.replay.value < historyCount)
  }

  /** Every command keeps the session within the bounds of the arrays. */
  lemma ExecuteKeepsBounds(s: Session, history: seq<string>, args: seq<string>, background: bool, otherStatus: int)
    requires |args| >= 1 && SessionOk(s, |history|)
    ensures SessionOk(Execute(s, history, args, background, otherStatus).0, |history|)
  {
    HandleKeepsBounds(s, history, args, FindBuiltin(args[0]), otherStatus);
  }

  /** Every handler keeps the session within the bounds of the arrays. */
  lemma HandleKeepsBounds(s: Session, history: seq<string>, args: seq<string>, b: Option<nat>, otherStatus: int)
    requires |args| >= 1 && SessionOk(s, |history|)
    ensures SessionOk(Handle(s, history, args, b, otherStatus).0, |history|)
  {
    if b.Some? && IsTableEdit(b.value) {
      AliasTableBounded(s.aliases, args);
      VarTableInvariant(s.vars, args);
    }
  }

  /** Neither variable handler lets the table grow past MAX_VARIABLES. */
  lemma VarTableBounded(vars: seq<Variable>, args: seq<string>)
    requires |vars| <= MAX_VARIABLES
    ensures |SetVar(vars, args).0| <= MAX_VARIABLES
    ensures |FreeVar(vars, args).0| <= MAX_VARIABLES
  {
  }

  /** A program (a name outside the table) changes nothing but the exit status. */
  lemma ExecuteProgram(s: Session, history: seq<string>, args: seq<string>, background: bool, otherStatus: int)
    requires |args| >= 1 && args[0] !in Commands
    ensures Execute(s, history, args, background, otherStatus) == (s.(status := otherStatus), Ran(None, ""))
  {
  }

  /**
   * A builtin run in the background leaves the session unchanged, `exit`
   * included; for any builtin but `exit` the child writes what the same
   * command writes in the foreground.
   */
  lemma ExecuteBackground(s: Session, history: seq<string>, args: seq<string>, otherStatus: int)
    requires |args| >= 1 && args[0] in Commands
    ensures Execute(s, history, args, true, otherStatus).0 == s
    ensures !Execute(s, history, args, true, otherStatus).1.Exited?
    ensures FindBuiltin(args[0]) != Some(CMD_EXIT) ==>
      Execute(s, history, args, true, otherStatus).1 == Execute(s, history, args, false, otherStatus).1
  {
  }

  /** Only `exit` in the foreground ends the shell. */
  lemma ExecuteExits(s: Session, history: seq<string>, args: seq<string>, background: bool, otherStatus: int)
    requires |args| >= 1
    ensures Execute(s, history, args, background, otherStatus).1.Exited? <==> args[0] == "exit" && !background
  {
    assert Commands[CMD_EXIT] == "exit";
    if args[0] == "exit" {
      assert forall j :: 0 <= j < CMD_EXIT ==> Commands[j] != "exit";
    }
  }

  /**
   * Only `!!` and `!n` select a line for replay, always an existing entry;
   * any other command keeps the selection.
   */
  lemma ExecuteReplay(s: Session, history: seq<string>, args: seq<string>, background: bool, otherStatus: int)
    requires |args| >= 1
    ensures var s' := Execute(s, history, args, background, otherStatus).0;
      s'.replay != s.replay ==> !background && (args[0] == "!!" || args[0] == "!n") && s'.replay.Some? && s'.replay.value < |history|
  {
    HandleSelects(s, history, args, FindBuiltin(args[0]), otherStatus);
    assert Commands[CMD_LASTCMD] == "!!" && Commands[CMD_NTHCMD] == "!n";
  }

  /** Only the replay handlers change the selection, and only to an existing entry. */
  lemma HandleSelects(s: Session, history: seq<string>, args: seq<string>, b: Option<nat>, otherStatus: int)
    requires |args| >= 1
    ensures var s' := Handle(s, history, args, b, otherStatus).0;
      s'.replay != s.replay ==> b.Some? && IsReplay(b.value) && s'.replay.Some? && s'.replay.value < |history|
  {
  }

  /** `echo a b` writes `a b` and a newline and sets the status to 0. */
  lemma ExecuteEcho(s: Session, history: seq<string>, otherStatus: int)
    ensures Execute(s, history, ["echo", "a", "b"], false, otherStatus) == (s.(status := 0), Ran(Some(CMD_ECHO), "a b\n"))
  {
    EchoFound();
    EchoWords();
    assert Handle(s, history, ["echo", "a", "b"], Some(CMD_ECHO), otherStatus) == (s.(status := 0), "a b\n");
  }

  /**
   * `freevar name` leaves the name unset and every other name as it was:
   * the unique names every session keeps carry Tables.FreeThenGet over to
   * the shell.
   */
  lemma ExecuteFreeVar(s: Session, history: seq<string>, name: string, other: string, otherStatus: int)
    requires SessionOk(s, |history|) && other != name
    ensures var s' := Execute(s, history, ["freevar", name], false, otherStatus).0;
      Lookup(s'.vars, name).None? && Lookup(s'.vars, other) == Lookup(s.vars, other)
  {
    FreeVarFound();
    FreeThenGet(s.vars, name, other);
  }

  /** `freevar` is the entry of freevar_handler. */
  lemma FreeVarFound()
    ensures FindBuiltin("freevar") == Some(CMD_FREEVAR)
  {
    assert Commands[CMD_FREEVAR] == "freevar";
    assert forall j :: 0 <= j < CMD_FREEVAR ==> Commands[j] != "freevar";
  }

  /** `echo` is the entry of echo_handler. */
  lemma EchoFound()
    ensures FindBuiltin("echo") == Some(CMD_ECHO)
  {
    assert Commands[CMD_ECHO] == "echo";
    assert forall j :: 0 <= j < CMD_ECHO ==> Commands[j] != "echo";
  }

  /** What `echo a b` writes. */
  lemma EchoWords()
    ensures EchoOutput(["echo", "a", "b"]) == "a b\n"
  {
    var args := ["echo", "a", "b"];
    assert args[1..] == ["a", "b"];
    assert ["a", "b"][1..] == ["b"];
    assert Joined(["a", "b"]) == "a" + " " + "b" == "a b";
  }

  /**
   * A line whose arguments after tokenize are args: alias substitution
   * (skipped for `unalias`), the extraction of the trailing markers, and the
   * command that is left.
   */
  function Evaluate(s: Session, history: seq<string>, args: seq<string>, otherStatus: int): (r: (Session, Outcome))
  {
    if |args| == 0 then (s, Empty)
    else Redirected(s, history, Substituted(args, s.aliases), otherStatus)
  }

  /** The tokens once aliases are substituted: handle_redirects and the dispatch. */
  function Redirected(s: Session, history: seq<string>, mapped: seq<string>, otherStatus: int): (r: (Session, Outcome))
  {
    match Extract(mapped)
    case None => (s, PathTooLong)
    case Some(red) =>
      if red.count == 0 then (s, NoCommand)
      else Execute(s, history, mapped[..red.count], red.background, otherStatus)
  }

  /** A line as tokenize leaves it (None: the expansion did not fit). */
  function RunTokens(s: Session, history: seq<string>, split: Option<Lexed>, otherStatus: int): (r: (Session, Outcome))
    requires split.Some? ==> StartsOk(split.value.buffer, split.value.starts)
  {
    match split
    case None => (s, ExpansionTooLong)
    case Some(l) =>
      if l.outcome == TooMany then (s, TooManyTokens)
      else Evaluate(s, history, Texts(l.buffer, l.starts), otherStatus)
  }

  /** Only a line whose command, after substitution and extraction, is `exit` ends the shell. */
  lemma EvaluateExits(s: Session, history: seq<string>, args: seq<string>, otherStatus: int)
    ensures Evaluate(s, history, args, otherStatus).1.Exited? <==>
      |args| > 0 && Extract(Substituted(args, s.aliases)).Some? &&
      var red := Extract(Substituted(args, s.aliases)).value;
      red.count > 0 && Substituted(args, s.aliases)[0] == "exit" && !red.background
  {
    if |args| > 0 && Extract(Substituted(args, s.aliases)).Some? {
      var mapped := Substituted(args, s.aliases);
      var red := Extract(mapped).value;
      if red.count > 0 {
        ExecuteExits(s, history, mapped[..red.count], red.background, otherStatus);
      }
    }
  }

  /** Every line keeps the session within the bounds of the arrays. */
  lemma EvaluateKeepsBounds(s: Session, history: seq<string>, args: seq<string>, otherStatus: int)
    requires SessionOk(s, |history|)
    ensures SessionOk(Evaluate(s, history, args, otherStatus).0, |history|)
  {
    if |args| > 0 && Extract(Substituted(args, s.aliases)).Some? {
      var mapped := Substituted(args, s.aliases);
      var red := Extract(mapped).value;
      if red.count > 0 {
        ExecuteKeepsBounds(s, history, mapped[..red.count], red.background, otherStatus);
      }
    }
  }

  /** `unalias` is looked up as typed: an alias named `unalias` does not hide the builtin. */
  lemma UnaliasNotSubstituted(args: seq<string>, aliases: seq<Alias>)
    requires |args| > 0 && args[0] == "unalias"
    ensures Substituted(args, aliases) == args
  {
  }

  /**
   * One turn of repl on values: the session s, the saved lines, the line
   * buffer b, the line selected for replay (or nothing) and what fgets
   * returned give the new session, the new history and how the line ended.
   * The selection is used up whatever happens.
   */
  function Turn(s: Session, history: seq<string>, b: seq<char>, primed: string, chunk: Option<string>, otherStatus: int)
    : (r: (Session, seq<string>, Outcome))
    requires |b| == BUFFER_SIZE && |history| <= HISTORY_SIZE
    requires chunk.Some? ==> NUL !in primed + chunk.value && |primed| + |chunk.value| < BUFFER_SIZE
  {
    var s0 := s.(replay := None);
    match chunk
    case None => (s0, history, EndOfInput)
    case Some(c) =>
      var text := primed + c;
      if !LineFound(b, text) then (s0, history, Unterminated)
      else
        var line := CutAtLineEnd(text);
        var h := if Saved(Trim(line)) then Pushed(history, StripTrailing(line)) else history;
        var (s', outcome) := RunTokens(s0, h, Split(LineBuffer(b, text), s.vars), otherStatus);
        (s', h, outcome)
  }

  /**
   * A turn keeps the session within the arrays and the history within its
   * HISTORY_SIZE slots, and leaves no line selected for the next turn
   * unless the line run was `!!` or `!n`.
   */
  lemma TurnKeepsBounds(s: Session, history: seq<string>, b: seq<char>, primed: string, chunk: Option<string>, otherStatus: int)
    requires |b| == BUFFER_SIZE && |history| <= HISTORY_SIZE && SessionOk(s, |history|)
    requires chunk.Some? ==> NUL !in primed + chunk.value && |primed| + |chunk.value| < BUFFER_SIZE
    ensures var (s', h, _) := Turn(s, history, b, primed, chunk, otherStatus);
      |h| <= HISTORY_SIZE && SessionOk(s', |h|)
  {
    if chunk.Some? && LineFound(b, primed + chunk.value) {
      var text := primed + chunk.value;
      var line := CutAtLineEnd(text);
      var h := if Saved(Trim(line)) then Pushed(history, StripTrailing(line)) else history;
      var split := Split(LineBuffer(b, text), s.vars);
      if split.Some? && split.value.outcome != TooMany {
        EvaluateKeepsBounds(s.(replay := None), h, Texts(split.value.buffer, split.value.starts), otherStatus);
      }
    }
  }

  // ---------------------------------------------------------------------
  // Releasing the owned tokens (main.c, the loop after the dispatch)

  /**
   * The is_processed flags left set after a line with arguments args, once
   * the release loop has cleared the first n: map_aliases flags each token
   * an alias replaced (it is skipped for `unalias` and for an empty line).
   */
  function FlagsLeft(args: seq<string>, aliases: seq<Alias>, n: nat): (r: seq<bool>)
    ensures |r| == |args|
  {
    var mapped := |args| > 0 && args[0] != "unalias";
    seq(|args|, t requires 0 <= t < |args| => t >= n && mapped && Replaced(args[t], aliases))
  }

  /** The arguments after alias substitution, as the release loop sees them. */
  function Substituted(args: seq<string>, aliases: seq<Alias>): (r: seq<string>)
    ensures |r| == |args|
  {
    if |args| > 0 && args[0] != "unalias" then ResolveAll(args, aliases) else args
  }

  /**
   * The loop as written runs up to token_count after handle_redirects has
   * lowered it, so a token that an alias replaced and that then turned out
   * to be a trailing marker keeps its flag.
   */
  function FlagsLeftAsWritten(args: seq<string>, aliases: seq<Alias>): (r: seq<bool>)
    ensures |r| == |args|
  {
    var kept := match Extract(Substituted(args, aliases))
      case Some(red) => red.count
      case None => |args|;
    FlagsLeft(args, aliases, kept)
  }

  /** `alias & bg` then `sleep bg`: the flag of the replaced `bg` is never cleared. */
  lemma StaleFlagAfterMarkerAlias()
    ensures FlagsLeftAsWritten(["sleep", "bg"], [Alias("bg", "&")]) == [false, true]
  {
    var args, aliases := ["sleep", "bg"], [Alias("bg", "&")];
    assert aliases[..0] == [];
    assert Resolve("bg", aliases) == "&";
    assert Resolve("sleep", aliases) == "sleep";
    assert Replaced("bg", aliases);
    var ts := ["sleep", "&"];
    assert Substituted(args, aliases) == ts;
    assert KeptBelow(ts, 1) == 1;
    assert Kept(ts) == 1;
    assert ts[1..] == ["&"];
    assert Extract(ts) == Some(Redirection(1, true, None, None));
  }

  // ---------------------------------------------------------------------
  // The loop body on the shell's state

  /** The session the shell's fields hold. */
  function Snapshot(sh: Shell): (s: Session)
    reads sh, sh.aliases, sh.variables
    requires sh.Valid()
  {
    Session(sh.promptText, sh.exitStatus, sh.Aliases(), sh.Variables(),
            if sh.blockPrompt then Some(sh.historyIndex) else None)
  }

  /** The shell's arrays bound its session, which is within bounds exactly when its variables have unique names. */
  lemma SnapshotOk(sh: Shell)
    requires sh.Valid()
    ensures SessionOk(Snapshot(sh), sh.historyCount) <==> sh.NamesUnique()
  {
  }

  /** The session depends only on the prompt, the status, the selection and the two tables. */
  twostate lemma SnapshotKept(sh: Shell)
    requires old(sh.Valid()) && sh.Valid()
    requires unchanged(sh`promptText, sh`exitStatus, sh`blockPrompt, sh`historyIndex, sh`aliasCount, sh`variableCount)
    requires unchanged(sh.aliases, sh.variables)
    ensures Snapshot(sh) == old(Snapshot(sh))
  {
  }

  /** No token is flagged as owned. */
  predicate Clean(sh: Shell)
    reads sh, sh.isProcessed
    requires sh.Valid()
  {
    forall t :: 0 <= t < MAX_TOKENS ==> !sh.isProcessed[t]
  }

  /** The text the next line starts with: the history entry selected for replay, if any. */
  function Primed(sh: Shell): (t: string)
    reads sh, sh.history
    requires sh.Valid() && sh.HistoryFits()
    ensures Fits(t)
  {
    if sh.blockPrompt then sh.history[sh.historyIndex] else ""
  }

  /** The buffer b once text and its terminator are stored at its front. */
  function Filled(b: seq<char>, text: string): (r: seq<char>)
    requires |text| < |b|
    ensures |r| == |b| && r[..|text|] == text && r[|text|] == NUL
  {
    text + [NUL] + b[|text| + 1..]
  }

  /**
   * Storing c and its terminator after p, in a buffer that holds p (or b
   * itself when p is empty), stores p + c.
   */
  lemma FilledAppend(before: seq<char>, b: seq<char>, p: string, c: string)
    requires |p| + |c| < |b|
    requires before == Filled(b, p) || (p == "" && before == b)
    ensures before[..|p|] + (c + [NUL]) + before[|p| + |c| + 1..] == Filled(b, p + c)
  {
    if before == b {
      assert p == "" || before == Filled(b, p);
      assert before[|p| + |c| + 1..] == b[|p + c| + 1..];
    }
  }

  /** remove_newline finds a line terminator somewhere in the filled buffer. */
  predicate LineFound(b: seq<char>, text: string)
    requires |text| < |b|
  {
    LineEnd(Filled(b, text)) < |b|
  }

  /** A text that holds a line terminator is always found, whatever the rest of the buffer holds. */
  lemma LineFoundInText(b: seq<char>, text: string)
    requires |text| < |b| && LineEnd(text) < |text|
    ensures LineFound(b, text)
    ensures LineEnd(Filled(b, text)) == LineEnd(text)
  {
    var f := Filled(b, text);
    assert forall j :: 0 <= j <= LineEnd(text) ==> f[j] == text[j];
    LineEndUnique(f, LineEnd(text));
  }

  /** The buffer after fgets stored text and remove_newline cut it: the line read. */
  function Received(b: seq<char>, text: string): (r: seq<char>)
    requires |text| < |b| && NUL !in text && LineFound(b, text)
    ensures |r| == |b| && Terminated(r, 0) && CStr(r, 0) == CutAtLineEnd(text)
  {
    var f := Filled(b, text);
    CStrIs(f, 0, text);
    RemoveNewlineCuts(f);
    f[LineEnd(f) := NUL]
  }

  /** The buffer tokenize gets: the line read, without its trailing whitespace. */
  function LineBuffer(b: seq<char>, text: string): (r: seq<char>)
    requires |text| < |b| && NUL !in text && LineFound(b, text)
    ensures |r| == |b| && Terminated(r, 0) && CStr(r, 0) == StripTrailing(CutAtLineEnd(text))
  {
    TrimSpacesKeepsLeading(Received(b, text), 0);
    TrimmedBuffer(Received(b, text), 0)
  }

  /** The history filter of repl: the trimmed line is not `history`, `!!`, or a command starting with `!n`. */
  predicate Saved(t: string) {
    t != "history" && t != "!!" && !(|t| >= 2 && t[..2] == "!n")
  }

  /** The priming of repl: the line selected for replay is copied to the front of the buffer. */
  method Prime(sh: Shell) returns (offset: nat)
    requires sh.Valid() && sh.HistoryFits()
    modifies sh.buffer, sh`blockPrompt
    ensures sh.Valid() && sh.HistoryFits() && !sh.blockPrompt
    ensures offset == |old(Primed(sh))|
    ensures old(sh.blockPrompt) ==> sh.buffer[..] == Filled(old(sh.buffer[..]), old(Primed(sh)))
    ensures !old(sh.blockPrompt) ==> sh.buffer[..] == old(sh.buffer[..])
  {
    offset := 0;
    if sh.blockPrompt {
      var line := sh.history[sh.historyIndex];
      CopyInto(sh.buffer, 0, line + [NUL]);
      offset := |line|;
      sh.blockPrompt := false;
    }
  }

  /**
   * fgets stores the chunk and a terminator after the primed text, then
   * remove_newline cuts the line at its first terminator.
   */
  method Receive(sh: Shell, offset: nat, chunk: string, ghost b: seq<char>, ghost primed: string) returns (found: bool)
    requires sh.Valid() && |b| == BUFFER_SIZE && offset == |primed| && |primed| + |chunk| < BUFFER_SIZE
    requires NUL !in primed + chunk
    requires sh.buffer[..] == Filled(b, primed) || (primed == "" && sh.buffer[..] == b)
    modifies sh.buffer
    ensures found == LineFound(b, primed + chunk)
    ensures found ==> sh.buffer[..] == Received(b, primed + chunk)
  {
    ghost var before := sh.buffer[..];
    CopyInto(sh.buffer, offset, chunk + [NUL]);
    FilledAppend(before, b, primed, chunk);
    found := RemoveNewline(sh.buffer);
  }

  /**
   * trim_spaces on the line buffer and the trimmed text it points at. The
   * buffer holds the line b, or b already trimmed: trimming again changes
   * nothing.
   */
  method TrimmedLine(sh: Shell, ghost b: seq<char>) returns (t: string)
    requires sh.Valid() && Terminated(b, 0)
    requires sh.buffer[..] == b || sh.buffer[..] == TrimmedBuffer(b, 0)
    modifies sh.buffer
    ensures sh.buffer[..] == TrimmedBuffer(b, 0)
    ensures t == Trim(CStr(b, 0))
  {
    TrimSpacesResult(b, 0);
    TrimSpacesRepeat(b, 0);
    var r := TrimSpaces(sh.buffer, 0);
    t := ReadString(sh.buffer, r);
  }

  /**
   * The history filter of repl and save_to_history: trim_spaces is applied
   * once per comparison the condition reaches, and the buffer, which has
   * then lost its trailing whitespace, is saved unless the trimmed text is
   * a history command.
   */
  method SaveLine(sh: Shell) returns (saved: bool)
    requires sh.Valid() && sh.HistoryFits() && Terminated(sh.buffer[..], 0)
    modifies sh.buffer, sh`historyCount, sh.history
    ensures sh.Valid() && sh.HistoryFits()
    ensures sh.buffer[..] == TrimmedBuffer(old(sh.buffer[..]), 0)
    ensures saved == Saved(Trim(old(CStr(sh.buffer[..], 0))))
    ensures saved ==> sh.History() == Pushed(old(sh.History()), StripTrailing(old(CStr(sh.buffer[..], 0))))
    ensures !saved ==> sh.History() == old(sh.History())
  {
    ghost var b := sh.buffer[..];
    var t := TrimmedLine(sh, b);
    saved := t != "history";
    if saved {
      t := TrimmedLine(sh, b);
      saved := t != "!!";
    }
    if saved {
      t := TrimmedLine(sh, b);
      saved := !(|t| >= 2 && t[..2] == "!n");
    }
    if saved {
      TrimSpacesKeepsLeading(b, 0);
      var line := ReadString(sh.buffer, 0);
      sh.SaveToHistory(line);
    }
  }

  /** The release loop of repl over the first n tokens: their owned flags are cleared. */
  method Release(sh: Shell, n: nat)
    requires sh.Valid() && n <= MAX_TOKENS
    modifies sh.isProcessed
    ensures forall t :: 0 <= t < MAX_TOKENS ==> sh.isProcessed[t] == (t >= n && old(sh.isProcessed[t]))
  {
    var t := 0;
    while t < n
      invariant t <= n
      invariant forall k :: 0 <= k < MAX_TOKENS ==> sh.isProcessed[k] == (k >= t && old(sh.isProcessed[k]))
    {
      if sh.isProcessed[t] {
        sh.isProcessed[t] := false;
      }
      t := t + 1;
    }
  }

  /** The handler of builtin i, in the foreground. */
  method RunBuiltin(sh: Shell, i: nat, args: seq<string>, otherStatus: int) returns (out: string)
    requires sh.Valid() && |args| >= 1
    modifies sh`promptText, sh`exitStatus, sh`blockPrompt, sh`historyIndex
    modifies sh.aliases, sh`aliasCount, sh.variables, sh`variableCount
    ensures sh.Valid()
    ensures !sh.blockPrompt ==> sh.historyIndex == old(sh.historyIndex)
    ensures (Snapshot(sh), out) == Handle(old(Snapshot(sh)), old(sh.History()), args, Some(i), otherStatus)
  {
    if IsReplay(i) {
      out := RunReplay(sh, i, args);
    } else if IsTableEdit(i) {
      out := RunTableEdit(sh, i, args);
    } else {
      out := RunReply(sh, i, args, otherStatus);
    }
  }

  /** nthcmd_handler and lastcmd_handler. */
  method RunReplay(sh: Shell, i: nat, args: seq<string>) returns (out: string)
    requires sh.Valid() && IsReplay(i)
    modifies sh`exitStatus, sh`blockPrompt, sh`historyIndex
    ensures sh.Valid()
    ensures !sh.blockPrompt ==> sh.historyIndex == old(sh.historyIndex)
    ensures (Snapshot(sh), out) == Replay(old(Snapshot(sh)), old(sh.History()), args, i)
  {
    if i == CMD_LASTCMD {
      out := sh.LastCmdHandler();
    } else {
      out := sh.NthCmdHandler(args);
    }
  }

  /** alias_handler, unalias_handler, setvar_handler and freevar_handler. */
  method RunTableEdit(sh: Shell, i: nat, args: seq<string>) returns (out: string)
    requires sh.Valid() && IsTableEdit(i)
    modifies sh`exitStatus, sh.aliases, sh`aliasCount, sh.variables, sh`variableCount
    ensures sh.Valid()
    ensures (Snapshot(sh), out) == TableEdit(old(Snapshot(sh)), args, i)
  {
    if i == CMD_ALIAS {
      out := sh.AliasHandler(args);
    } else if i == CMD_UNALIAS {
      out := sh.UnaliasHandler(args);
    } else if i == CMD_SETVAR {
      out := sh.SetVarHandler(args);
    } else {
      out := sh.FreeVarHandler(args);
    }
  }

  /** The remaining handlers: debug, prompt, status, help, print, echo, len and the listings. */
  method RunReply(sh: Shell, i: nat, args: seq<string>, otherStatus: int) returns (out: string)
    requires sh.Valid() && |args| >= 1
    modifies sh`promptText, sh`exitStatus
    ensures sh.Valid()
    ensures (Snapshot(sh), out) == Reply(old(Snapshot(sh)), args, i, otherStatus)
  {
    out := "";
    if i == CMD_DEBUG {
      if |args| > 1 {
        sh.exitStatus := 0;
      }
    } else if i == CMD_PROMPT {
      out := sh.PromptHandler(args);
    } else if i == CMD_STATUS {
    } else if i == CMD_HELP || i == CMD_HISTORY || i == CMD_ALIASLIST || i == CMD_VARLIST {
      sh.exitStatus := 0;
    } else if i == CMD_PRINT {
      out := sh.PrintHandler(args);
    } else if i == CMD_ECHO {
      out := sh.PrintHandler(args);
      out := out + "\n";
    } else if i == CMD_LEN {
      var n := sh.LenHandler(args);
      out := Decimal(n) + "\n";
    } else {
      sh.exitStatus := otherStatus;
    }
  }

  /** The dispatch of repl: find_builtin, then execute_builtin or execute_external. */
  method Dispatch(sh: Shell, otherStatus: int) returns (outcome: Outcome)
    requires sh.Valid() && sh.tokenCount >= 1
    modifies sh`promptText, sh`exitStatus, sh`blockPrompt, sh`historyIndex
    modifies sh.aliases, sh`aliasCount, sh.variables, sh`variableCount
    ensures sh.Valid()
    ensures !sh.blockPrompt ==> sh.historyIndex == old(sh.historyIndex)
    ensures (Snapshot(sh), outcome) == Execute(old(Snapshot(sh)), old(sh.History()), sh.Args(), sh.background, otherStatus)
  {
    var args := sh.Args();
    var b := FindBuiltin(args[0]);
    if b == Some(CMD_EXIT) && !sh.background {
      if |args| > 1 {
        sh.exitStatus := Atoi(args[1]);
      }
      return Exited(sh.exitStatus);
    }
    if b.Some? && sh.background {
      // the child runs the handler on its own copy of the shell
      return Ran(b, Handle(Snapshot(sh), sh.History(), args, b, otherStatus).1);
    }
    var out := "";
    if b.None? {
      sh.exitStatus := otherStatus;
    } else {
      out := RunBuiltin(sh, b.value, args, otherStatus);
    }
    return Ran(b, out);
  }

  /** The alias step of repl: map_aliases, unless the command is `unalias`. */
  method Substitute(sh: Shell)
    requires sh.Valid() && Clean(sh) && sh.tokenCount >= 1
    modifies sh.tokens, sh.isProcessed
    ensures sh.Args() == Substituted(old(sh.Args()), sh.Aliases())
    ensures forall t :: sh.tokenCount <= t < MAX_TOKENS ==> !sh.isProcessed[t]
  {
    var first := sh.TokenText(sh.tokens[0]);
    if first != "unalias" {
      sh.MapAliases();
    }
  }

  /** The tokens of a line: alias substitution, handle_redirects and the dispatch. */
  method EvalTokens(sh: Shell, otherStatus: int) returns (outcome: Outcome)
    requires sh.Valid() && Clean(sh)
    modifies sh`tokenCount, sh.tokens, sh.isProcessed
    modifies sh`background, sh`isInputRedirected, sh`isOutputRedirected, sh`inputRedirect, sh`outputRedirect
    modifies sh`promptText, sh`exitStatus, sh`blockPrompt, sh`historyIndex
    modifies sh.aliases, sh`aliasCount, sh.variables, sh`variableCount
    ensures sh.Valid()
    ensures !sh.blockPrompt ==> sh.historyIndex == old(sh.historyIndex)
    ensures forall t :: old(sh.tokenCount) <= t < MAX_TOKENS ==> !sh.isProcessed[t]
    ensures (Snapshot(sh), outcome) == Evaluate(old(Snapshot(sh)), old(sh.History()), old(sh.Args()), otherStatus)
  {
    if sh.tokenCount == 0 {
      return Empty;
    }
    Substitute(sh);
    outcome := RedirectAndDispatch(sh, otherStatus);
  }

  /** handle_redirects on the substituted tokens, then the dispatch of what is left. */
  method RedirectAndDispatch(sh: Shell, otherStatus: int) returns (outcome: Outcome)
    requires sh.Valid()
    modifies sh`tokenCount, sh.tokens
    modifies sh`background, sh`isInputRedirected, sh`isOutputRedirected, sh`inputRedirect, sh`outputRedirect
    modifies sh`promptText, sh`exitStatus, sh`blockPrompt, sh`historyIndex
    modifies sh.aliases, sh`aliasCount, sh.variables, sh`variableCount
    ensures sh.Valid()
    ensures !sh.blockPrompt ==> sh.historyIndex == old(sh.historyIndex)
    ensures (Snapshot(sh), outcome) == Redirected(old(Snapshot(sh)), old(sh.History()), old(sh.Args()), otherStatus)
  {
    var ok := sh.HandleRedirects();
    if !ok {
      return PathTooLong;
    }
    if sh.tokenCount == 0 {
      return NoCommand;
    }
    outcome := Dispatch(sh, otherStatus);
  }

  /** tokenize, the evaluation of its tokens, and the release loop over every token it made. */
  method RunLine(sh: Shell, otherStatus: int) returns (outcome: Outcome)
    requires sh.Valid() && Terminated(sh.buffer[..], 0) && Clean(sh)
    modifies sh`tokenCount, sh.buffer, sh.tokens, sh.isProcessed
    modifies sh`background, sh`isInputRedirected, sh`isOutputRedirected, sh`inputRedirect, sh`outputRedirect
    modifies sh`promptText, sh`exitStatus, sh`blockPrompt, sh`historyIndex
    modifies sh.aliases, sh`aliasCount, sh.variables, sh`variableCount
    ensures sh.Valid() && Clean(sh)
    ensures !sh.blockPrompt ==> sh.historyIndex == old(sh.historyIndex)
    ensures (Snapshot(sh), outcome) == RunTokens(old(Snapshot(sh)), old(sh.History()), Split(old(sh.buffer[..]), old(sh.Variables())), otherStatus)
  {
    var r := sh.Tokenize();
    var n := sh.tokenCount;
    if r.None? {
      outcome := ExpansionTooLong;
    } else if r.value == TooMany {
      outcome := TooManyTokens;
    } else {
      outcome := EvalTokens(sh, otherStatus);
    }
    Release(sh, n);
  }

  /**
   * One turn of repl: chunk is what fgets returned (None at the end of the
   * input); the chunk fits the room fgets is given after the primed text.
   */
  method Step(sh: Shell, chunk: Option<string>, otherStatus: int) returns (outcome: Outcome)
    requires sh.Valid() && sh.HistoryFits() && Clean(sh) && sh.NamesUnique()
    requires chunk.Some? ==> NUL !in chunk.value && |Primed(sh)| + |chunk.value| < BUFFER_SIZE
    modifies sh, sh.buffer, sh.tokens, sh.isProcessed, sh.history, sh.aliases, sh.variables
    ensures sh.Valid() && sh.HistoryFits() && Clean(sh) && sh.NamesUnique()
    ensures (Snapshot(sh), sh.History(), outcome) ==
      Turn(old(Snapshot(sh)), old(sh.History()), old(sh.buffer[..]), old(Primed(sh)), chunk, otherStatus)
  {
    ghost var s, h, b, primed := Snapshot(sh), sh.History(), sh.buffer[..], Primed(sh);
    SnapshotOk(sh);
    TurnKeepsBounds(s, h, b, primed, chunk, otherStatus);
    var offset := Prime(sh);
    if chunk.None? {
      SnapshotOk(sh);
      return EndOfInput;
    }
    outcome := ReadAndRun(sh, offset, chunk.value, otherStatus, b, primed);
    SnapshotOk(sh);
  }

  /** A turn once the buffer is primed: fgets has returned chunk. */
  method ReadAndRun(sh: Shell, offset: nat, chunk: string, otherStatus: int, ghost b: seq<char>, ghost primed: string)
    returns (outcome: Outcome)
    requires sh.Valid() && sh.HistoryFits() && Clean(sh) && !sh.blockPrompt
    requires |b| == BUFFER_SIZE && offset == |primed| && |primed| + |chunk| < BUFFER_SIZE
    requires NUL !in primed + chunk
    requires sh.buffer[..] == Filled(b, primed) || (primed == "" && sh.buffer[..] == b)
    modifies sh, sh.buffer, sh.tokens, sh.isProcessed, sh.history, sh.aliases, sh.variables
    ensures sh.Valid() && sh.HistoryFits() && Clean(sh)
    ensures (Snapshot(sh), sh.History(), outcome) ==
      Turn(old(Snapshot(sh)), old(sh.History()), b, primed, Some(chunk), otherStatus)
  {
    ghost var s, h := Snapshot(sh), sh.History();
    var found := Receive(sh, offset, chunk, b, primed);
    if !found {
      return Unterminated;
    }
    ghost var line := CutAtLineEnd(primed + chunk);
    var saved := SaveLine(sh);
    assert sh.History() == if Saved(Trim(line)) then Pushed(h, StripTrailing(line)) else h;
    assert sh.buffer[..] == LineBuffer(b, primed + chunk);
    SnapshotKept(sh);
    ghost var saved_lines := sh.History();
    outcome := RunLine(sh, otherStatus);
    assert sh.History() == saved_lines;
  }
}

=== FILE: shell.dfy ===
/**
 * The state record of the shell (the Shell struct) as a class: the line
 * buffer, the token array with its ownership flags, the redirection fields,
 * and the history, alias and variable arrays with their counts. Each method
 * is one routine of the shell that updates this state in place, proved
 * against the function on values that states what the routine computes.
 */
module ShellState {
  import opened Wrappers
  import opened Constants
  import opened CString
  import opened Builtins
  import opened Tables
  import opened Expansion
  import opened Lexer
  import opened Redirects

  /**
   * An entry of the token array: NULL, a pointer into the line buffer (the
   * C string starting there), or a string of its own (an alias command,
   * which the shell allocated and flags in is_processed).
   */
  datatype Token = Null | Span(start: nat) | Owned(text: string)

  /** The text token t stands for in the line buffer b. */
  function TokenString(b: seq<char>, t: Token): (r: string) {
    match t
    case Null => ""
    case Span(i) => if Terminated(b, i) then CStr(b, i) else ""
    case Owned(s) => s
  }

  /** The texts of the tokens ts in the line buffer b. */
  function TokenStrings(b: seq<char>, ts: seq<Token>): (r: seq<string>) {
    seq(|ts|, k requires 0 <= k < |ts| => TokenString(b, ts[k]))
  }

  /** The texts of a prefix of the tokens are a prefix of their texts. */
  lemma TokenStringsPrefix(b: seq<char>, ts: seq<Token>, n: nat)
    requires n <= |ts|
    ensures TokenStrings(b, ts[..n]) == TokenStrings(b, ts)[..n]
  {
  }

  class Shell {
    const buffer: array<char>
    const tokens: array<Token>
    const isProcessed: array<bool>
    var tokenCount: nat
    var promptText: string
    var exitStatus: int
    var background: bool
    var inputRedirect: string
    var outputRedirect: string
    var isInputRedirected: bool
    var isOutputRedirected: bool
    const history: array<string>
    var historyCount: nat
    var blockPrompt: bool
    var historyIndex: nat
    const aliases: array<Alias>
    var aliasCount: nat
    const variables: array<Variable>
    var variableCount: nat

    /** Capacities of the arrays and the counts that index them. */
    predicate Valid()
      reads this
    {
      && buffer.Length == BUFFER_SIZE
      && tokens.Length == MAX_TOKENS && isProcessed.Length == MAX_TOKENS
      && history.Length == HISTORY_SIZE && aliases.Length == MAX_ALIASES && variables.Length == MAX_VARIABLES
      && tokenCount <= MAX_TOKENS && historyCount <= HISTORY_SIZE
      && aliasCount <= MAX_ALIASES && variableCount <= MAX_VARIABLES
      && |promptText| <= PROMPT_TEXT_MAX_LENGTH
      && (blockPrompt ==> historyIndex < historyCount)
    }

    /** Every history line fits the line buffer with its terminator. */
    predicate HistoryFits()
      reads this, history
      requires Valid()
    {
      forall k :: 0 <= k < historyCount ==> Fits(history[k])
    }

    /** The saved lines, oldest first. */
    function History(): (r: seq<string>)
      reads this, history
      requires Valid()
    {
      history[..historyCount]
    }

    function Variables(): (r: seq<Variable>)
      reads this, variables
      requires Valid()
    {
      variables[..variableCount]
    }

    /** No two variables share a name: setvar overwrites a name already set. */
    predicate NamesUnique()
      reads this, variables
      requires Valid()
    {
      VarNamesUnique(Variables())
    }

    function Aliases(): (r: seq<Alias>)
      reads this, aliases
      requires Valid()
    {
      aliases[..aliasCount]
    }

    /** The text a token stands for: the C string in the buffer at a span, or its own text. */
    function TokenText(t: Token): (r: string)
      reads buffer
    {
      TokenString(buffer[..], t)
    }

    /** The argument vector: the texts of the tokens, the command name first. */
    function Args(): (r: seq<string>)
      reads this, buffer, tokens
      requires Valid()
    {
      TokenStrings(buffer[..], tokens[..tokenCount])
    }

    /** start_shell: the default prompt, empty tables and no owned tokens. */
    constructor()
      ensures Valid() && HistoryFits()
      ensures fresh(buffer) && fresh(tokens) && fresh(isProcessed)
      ensures fresh(history) && fresh(aliases) && fresh(variables)
      ensures promptText == DEFAULT_PROMPT_TEXT && exitStatus == 0
      ensures History() == [] && Aliases() == [] && Variables() == []
      ensures NamesUnique()
      ensures !blockPrompt && !isInputRedirected && !isOutputRedirected
      ensures forall t :: 0 <= t < MAX_TOKENS ==> !isProcessed[t]
    {
      buffer := new char[BUFFER_SIZE](_ => NUL);
      tokens := new Token[MAX_TOKENS](_ => Null);
      isProcessed := new bool[MAX_TOKENS](_ => false);
      history := new string[HISTORY_SIZE](_ => "");
      aliases := new Alias[MAX_ALIASES](_ => Alias("", ""));
      variables := new Variable[MAX_VARIABLES](_ => Variable("", ""));
      tokenCount := 0;
      promptText := DEFAULT_PROMPT_TEXT;
      exitStatus := 0;
      background := false;
      inputRedirect := "";
      outputRedirect := "";
      isInputRedirected := false;
      isOutputRedirected := false;
      historyCount := 0;
      blockPrompt := false;
      historyIndex := 0;
      aliasCount := 0;
      variableCount := 0;
    }

    // -------------------------------------------------------------------
    // History

    /**
     * save_to_history: append while there is room; once full, shift every
     * line one slot towards the front and put the new line last.
     */
    method SaveToHistory(line: string)
      requires Valid() && HistoryFits() && Fits(line)
      modifies this`historyCount, history
      ensures Valid() && HistoryFits()
      ensures History() == Pushed(old(History()), line)
    {
      ghost var h := History();
      if historyCount < HISTORY_SIZE {
        history[historyCount] := line;
        historyCount := historyCount + 1;
        assert History() == h + [line];
      } else {
        var i := 1;
        while i < HISTORY_SIZE
          modifies history
          invariant 1 <= i <= HISTORY_SIZE
          invariant forall j :: 0 <= j < i - 1 ==> history[j] == h[j + 1]
          invariant forall j :: i - 1 <= j < HISTORY_SIZE ==> history[j] == h[j]
        {
          history[i - 1] := history[i];
          i := i + 1;
        }
        history[HISTORY_SIZE - 1] := line;
        assert History() == h[1..] + [line];
      }
    }

    // -------------------------------------------------------------------
    // Variables

    /** The loop of get_value, setvar and freevar: the first slot holding name, or the count. */
    method FindVariable(name: string) returns (i: nat)
      requires Valid()
      ensures i == VarIndex(Variables(), name)
    {
      i := 0;
      while i < variableCount && variables[i].name != name
        invariant i <= variableCount
        invariant forall j :: 0 <= j < i ==> variables[j].name != name
      {
        i := i + 1;
      }
      VarIndexFound(Variables(), name, i);
    }

    /** get_value: the value of the first variable of that name, or None (NULL). */
    method GetValue(name: string) returns (r: Option<string>)
      requires Valid()
      ensures r == Lookup(Variables(), name)
    {
      var i := FindVariable(name);
      r := if i < variableCount then Some(variables[i].value) else None;
    }

    /** setvar_handler, on the arguments args. */
    method SetVarHandler(args: seq<string>) returns (out: string)
      requires Valid()
      modifies variables, this`variableCount, this`exitStatus
      ensures Valid()
      ensures (Variables(), exitStatus) == SetVar(old(Variables()), args)
      ensures out == SetVarMessage(old(Variables()), args)
    {
      out := "";
      if |args| < 2 {
        out := SetVarUsage;
        exitStatus := 1;
        return;
      }
      if '=' !in args[1] {
        exitStatus := 1;
        return;
      }
      var name, value := Before(args[1]), After(args[1]);
      ghost var vars := Variables();
      var i := FindVariable(name);
      if i < variableCount {
        assert SetVarMessage(vars, args) == "";
        variables[i] := Variable(name, value);
        exitStatus := 0;
        assert Variables() == vars[i := Variable(name, value)];
        return;
      }
      if variableCount >= MAX_VARIABLES {
        out := VariablesFull;
        exitStatus := 1;
        return;
      }
      assert SetVarMessage(vars, args) == "";
      variables[variableCount] := Variable(name, value);
      variableCount := variableCount + 1;
      exitStatus := 0;
      assert Variables() == vars + [Variable(name, value)];
    }

    /** freevar_handler: the last variable moves into the freed slot. */
    method FreeVarHandler(args: seq<string>) returns (out: string)
      requires Valid()
      modifies variables, this`variableCount, this`exitStatus
      ensures Valid()
      ensures (Variables(), exitStatus) == FreeVar(old(Variables()), args)
      ensures out == FreeVarMessage(old(Variables()), args)
    {
      out := "";
      if |args| < 2 {
        out := FreeVarUsage;
        exitStatus := 1;
        return;
      }
      ghost var vars := Variables();
      var i := FindVariable(args[1]);
      if i == variableCount {
        out := "Variable '" + args[1] + "' wasn't set\n";
        exitStatus := 1;
        return;
      }
      variables[i] := variables[variableCount - 1];
      variableCount := variableCount - 1;
      exitStatus := 0;
      assert Variables() == SwapRemove(vars, i);
    }

    // -------------------------------------------------------------------
    // Expansion and splitting of the line

    /**
     * expand_variables: the line is expanded into a local buffer and copied
     * back with its terminator. A name that does not fit the 32-character
     * name buffer, or an expansion that does not fit BUFFER_SIZE with its
     * terminator, fails and leaves the buffer as it was.
     */
    method ExpandVariables() returns (ok: bool)
      requires Valid() && Terminated(buffer[..], 0)
      modifies buffer
      ensures ok == ExpandFits(CStr(old(buffer[..]), 0), Variables())
      ensures ok ==> buffer[..] == ExpandedBuffer(old(buffer[..]), Variables())
      ensures !ok ==> buffer[..] == old(buffer[..])
    {
      ghost var b := buffer[..];
      var expanded := new char[BUFFER_SIZE];
      var d;
      ok, d := ExpandInto(expanded);
      if !ok {
        return;
      }
      StoreExpansion(expanded, d);
    }

    /** The end of expand_variables: the expansion in expanded[..d] is terminated and copied over the line. */
    method StoreExpansion(expanded: array<char>, d: nat)
      requires Valid() && expanded.Length == BUFFER_SIZE && expanded != buffer && d < BUFFER_SIZE
      modifies expanded, buffer
      ensures buffer[..] == old(expanded[..d]) + [NUL] + old(buffer[..])[d + 1..]
    {
      ghost var e, b := expanded[..d], buffer[..];
      expanded[d] := NUL;
      assert expanded[..d + 1] == e + [NUL];
      CopyInto(buffer, 0, expanded[..d + 1]);
    }

    /**
     * The loop of expand_variables: the expansion of the line is written to
     * the front of expanded, failing as soon as a name or the expansion
     * outgrows its buffer.
     */
    method ExpandInto(expanded: array<char>) returns (ok: bool, d: nat)
      requires Valid() && Terminated(buffer[..], 0)
      requires expanded.Length == BUFFER_SIZE && expanded != buffer
      modifies expanded
      ensures ok == ExpandFits(CStr(buffer[..], 0), Variables())
      ensures ok ==> d < BUFFER_SIZE && expanded[..d] == Expand(CStr(buffer[..], 0), Variables())
    {
      ghost var s := CStr(buffer[..], 0);
      ghost var vars := Variables();
      ghost var p: string := [];
      d := 0;
      var i: nat := 0;
      while buffer[i] != NUL
        modifies expanded
        invariant i <= |s| && d < BUFFER_SIZE
        invariant expanded[..d] == p && p + ExpandFrom(s, i, vars) == Expand(s, vars)
        invariant NamesFitFrom(s, 0) == NamesFitFrom(s, i)
        decreases |s| - i
      {
        var fits;
        fits, d, i, p := ExpandAt(expanded, d, i, s, vars, p);
        if !fits {
          return false, d;
        }
      }
      assert p == Expand(s, vars);
      ok := true;
    }

    /**
     * One round of the expand_variables loop at buffer[i]: a reference or a
     * single character is appended to the expansion p held in expanded.
     */
    method ExpandAt(expanded: array<char>, d: nat, i: nat, ghost s: string, ghost vars: seq<Variable>, ghost p: string)
        returns (ok: bool, d': nat, i': nat, ghost p': string)
      requires Valid() && Terminated(buffer[..], 0) && s == CStr(buffer[..], 0) && vars == Variables()
      requires expanded.Length == BUFFER_SIZE && expanded != buffer
      requires i < |s| && d < BUFFER_SIZE && expanded[..d] == p && p + ExpandFrom(s, i, vars) == Expand(s, vars)
      modifies expanded
      ensures !ok ==> !(NamesFitFrom(s, i) && |Expand(s, vars)| < BUFFER_SIZE)
      ensures ok ==> i < i' <= |s| && d' < BUFFER_SIZE && expanded[..d'] == p'
      ensures ok ==> p' + ExpandFrom(s, i', vars) == Expand(s, vars) && NamesFitFrom(s, i) == NamesFitFrom(s, i')
    {
      if buffer[i] == '$' && IsAlpha(buffer[i + 1]) {
        assert RefAt(s, i);
        ok, d', i', p' := ExpandRefAt(expanded, d, i, s, vars, p);
      } else {
        assert !RefAt(s, i);
        ok, d', i', p' := ExpandCharAt(expanded, d, i, s, vars, p);
      }
    }

    /** The round at a reference: its value is appended. */
    method ExpandRefAt(expanded: array<char>, d: nat, i: nat, ghost s: string, ghost vars: seq<Variable>, ghost p: string)
        returns (ok: bool, d': nat, i': nat, ghost p': string)
      requires Valid() && Terminated(buffer[..], 0) && s == CStr(buffer[..], 0) && vars == Variables()
      requires expanded.Length == BUFFER_SIZE && expanded != buffer
      requires i < |s| && d < BUFFER_SIZE && expanded[..d] == p && p + ExpandFrom(s, i, vars) == Expand(s, vars)
      requires RefAt(s, i)
      modifies expanded
      ensures !ok ==> !(NamesFitFrom(s, i) && |Expand(s, vars)| < BUFFER_SIZE)
      ensures ok ==> i < i' <= |s| && d' < BUFFER_SIZE && expanded[..d'] == p'
      ensures ok ==> p' + ExpandFrom(s, i', vars) == Expand(s, vars) && NamesFitFrom(s, i) == NamesFitFrom(s, i')
    {
      ok, i', d' := ExpandReference(expanded, d, i, s, vars, p);
      RefRound(s, i, vars, p, i');
      p' := p + ValueOf(vars, RefName(s, i));
    }

    /** The round at any other character: it is appended. */
    method ExpandCharAt(expanded: array<char>, d: nat, i: nat, ghost s: string, ghost vars: seq<Variable>, ghost p: string)
        returns (ok: bool, d': nat, i': nat, ghost p': string)
      requires Valid() && Terminated(buffer[..], 0) && s == CStr(buffer[..], 0) && vars == Variables()
      requires expanded.Length == BUFFER_SIZE && expanded != buffer
      requires i < |s| && d < BUFFER_SIZE && expanded[..d] == p && p + ExpandFrom(s, i, vars) == Expand(s, vars)
      requires !RefAt(s, i)
      modifies expanded
      ensures !ok ==> !(NamesFitFrom(s, i) && |Expand(s, vars)| < BUFFER_SIZE)
      ensures ok ==> i < i' <= |s| && d' < BUFFER_SIZE && expanded[..d'] == p'
      ensures ok ==> p' + ExpandFrom(s, i', vars) == Expand(s, vars) && NamesFitFrom(s, i) == NamesFitFrom(s, i')
    {
      assert s[i] == buffer[i];
      ExpandCharStep(s, i, vars, p, Expand(s, vars));
      NamesFitChar(s, i);
      ok, d' := CopyChar(expanded, d, buffer[i], p);
      i', p' := i + 1, p + [s[i]];
    }

    /** A character that starts no reference is copied to expanded at d, when there is room for it. */
    method CopyChar(expanded: array<char>, d: nat, ch: char, ghost p: string) returns (ok: bool, d': nat)
      requires expanded.Length == BUFFER_SIZE && d < BUFFER_SIZE && expanded[..d] == p
      modifies expanded
      ensures ok <==> d + 1 < BUFFER_SIZE
      ensures ok ==> d' == d + 1 && expanded[..d'] == p + [ch]
    {
      if d + 1 >= BUFFER_SIZE {
        return false, d;
      }
      expanded[d] := ch;
      assert expanded[..d + 1] == expanded[..d] + [ch];
      return true, d + 1;
    }

    /**
     * The token array and the buffer hold the finished scan l: the tokens
     * are spans at its starts, and a scan that is done put the NULL entry
     * after them.
     */
    ghost predicate Tokenized(l: Lexed)
      reads this, buffer, tokens
      requires Valid()
    {
      && buffer[..] == l.buffer && tokenCount == |l.starts|
      && (forall k :: 0 <= k < tokenCount ==> tokens[k] == Span(l.starts[k]))
      && (l.outcome == Done ==> tokenCount < MAX_TOKENS && tokens[tokenCount] == Null)
    }

    /**
     * tokenize: the line is expanded, then split in place. None when the
     * expansion does not fit; otherwise how the scan ended, with the
     * arguments being the texts of the scanned tokens.
     */
    method Tokenize() returns (r: Option<LexOutcome>)
      requires Valid() && Terminated(buffer[..], 0)
      modifies this`tokenCount, buffer, tokens
      ensures Valid()
      ensures r.None? <==> Split(old(buffer[..]), Variables()).None?
      ensures r.None? ==> buffer[..] == old(buffer[..]) && tokenCount == 0
      ensures r.Some? ==> r.value == Split(old(buffer[..]), Variables()).value.outcome
      ensures r.Some? ==> Tokenized(Split(old(buffer[..]), Variables()).value)
      ensures r.Some? ==> Args() == Texts(Split(old(buffer[..]), Variables()).value.buffer,
                                         Split(old(buffer[..]), Variables()).value.starts)
    {
      ghost var line, vars := buffer[..], Variables();
      tokenCount := 0;
      var expandedOk := ExpandVariables();
      if !expandedOk {
        return None;
      }
      ghost var b := buffer[..];
      ghost var l := Lex(b);
      assert Split(line, vars) == Some(l);
      var outcome := ScanLine(b);
      TokenizedArgs(l);
      return Some(outcome);
    }

    /** Once tokenize has stored the scan l, the arguments are the texts of its tokens. */
    lemma TokenizedArgs(l: Lexed)
      requires Valid() && StartsOk(l.buffer, l.starts) && Tokenized(l)
      ensures Args() == Texts(l.buffer, l.starts)
    {
      assert forall k :: 0 <= k < tokenCount ==> tokens[..tokenCount][k] == Span(l.starts[k]);
    }

    /** The loop of tokenize over the expanded line b. */
    method ScanLine(ghost b: seq<char>) returns (outcome: LexOutcome)
      requires Valid() && tokenCount == 0 && buffer[..] == b && Terminated(b, 0)
      modifies this`tokenCount, buffer, tokens
      ensures Valid() && outcome == Lex(b).outcome && Tokenized(Lex(b))
    {
      var quoted, reading := false, false;
      ghost var starts: seq<nat> := [];
      var c: nat := 0;
      while buffer[c] != NUL
        invariant c < BUFFER_SIZE && Terminated(buffer[..], c)
        invariant LexFrom(Scan(buffer[..], c, quoted, reading, starts)) == Lex(b)
        invariant tokenCount == |starts| <= MAX_TOKENS
        invariant forall k :: 0 <= k < tokenCount ==> tokens[k] == Span(starts[k])
        decreases BUFFER_SIZE - c
      {
        var stop;
        stop, quoted, reading, starts := ScanChar(c, quoted, reading, starts, Lex(b));
        if stop.Some? {
          return stop.value;
        }
        c := c + 1;
      }
      outcome := EndScan(c, quoted, reading, starts, Lex(b));
    }

    /** The end of the tokenize loop at the terminator buffer[c]: the token list is closed. */
    method EndScan(c: nat, ghost quoted: bool, ghost reading: bool, ghost starts: seq<nat>, ghost goal: Lexed)
        returns (outcome: LexOutcome)
      requires Valid() && c < BUFFER_SIZE && buffer[c] == NUL
      requires LexFrom(Scan(buffer[..], c, quoted, reading, starts)) == goal
      requires tokenCount == |starts| <= MAX_TOKENS
      requires forall k :: 0 <= k < tokenCount ==> tokens[k] == Span(starts[k])
      modifies tokens
      ensures Valid() && outcome == goal.outcome && Tokenized(goal)
    {
      EndStep(buffer[..], c, quoted, reading, starts);
      if tokenCount >= MAX_TOKENS {
        return TooMany;
      }
      tokens[tokenCount] := Null;
      return Done;
    }

    /**
     * One character of the tokenize loop, at buffer[c]: it continues the
     * scan (None) or ends it, exactly as one step of the scan machine does.
     */
    method ScanChar(c: nat, quoted: bool, reading: bool, ghost starts: seq<nat>, ghost goal: Lexed)
        returns (stop: Option<LexOutcome>, quoted': bool, reading': bool, ghost starts': seq<nat>)
      requires Valid() && Terminated(buffer[..], c) && buffer[c] != NUL
      requires LexFrom(Scan(buffer[..], c, quoted, reading, starts)) == goal
      requires tokenCount == |starts| <= MAX_TOKENS
      requires forall k :: 0 <= k < tokenCount ==> tokens[k] == Span(starts[k])
      modifies this`tokenCount, buffer, tokens
      ensures tokenCount == |starts'| <= MAX_TOKENS
      ensures forall k :: 0 <= k < tokenCount ==> tokens[k] == Span(starts'[k])
      ensures stop != Some(Done)
      ensures stop.None? ==> Terminated(buffer[..], c + 1)
      ensures stop.None? ==> LexFrom(Scan(buffer[..], c + 1, quoted', reading', starts')) == goal
      ensures stop.Some? ==> goal == Lexed(buffer[..], starts', stop.value)
    {
      if buffer[c] == '"' || (buffer[c] == '#' && !quoted && !reading) || (!quoted && buffer[c] == ' ') {
        stop, quoted', reading', starts' := CutChar(c, quoted, reading, starts, goal);
      } else {
        stop, quoted', reading', starts' := WordChar(c, quoted, reading, starts, goal);
      }
    }

    /** A quote, a comment sign outside a token or a blank outside quotes: the character becomes a terminator. */
    method CutChar(c: nat, quoted: bool, reading: bool, ghost starts: seq<nat>, ghost goal: Lexed)
        returns (stop: Option<LexOutcome>, quoted': bool, reading': bool, ghost starts': seq<nat>)
      requires Valid() && Terminated(buffer[..], c) && buffer[c] != NUL
      requires LexFrom(Scan(buffer[..], c, quoted, reading, starts)) == goal
      requires tokenCount == |starts| <= MAX_TOKENS
      requires forall k :: 0 <= k < tokenCount ==> tokens[k] == Span(starts[k])
      requires buffer[c] == '"' || (buffer[c] == '#' && !quoted && !reading) || (!quoted && buffer[c] == ' ')
      modifies buffer
      ensures tokenCount == |starts'| <= MAX_TOKENS
      ensures forall k :: 0 <= k < tokenCount ==> tokens[k] == Span(starts'[k])
      ensures stop != Some(Done)
      ensures stop.None? ==> Terminated(buffer[..], c + 1)
      ensures stop.None? ==> LexFrom(Scan(buffer[..], c + 1, quoted', reading', starts')) == goal
      ensures stop.Some? ==> goal == Lexed(buffer[..], starts', stop.value)
    {
      ghost var buf := buffer[..];
      stop, quoted', reading', starts' := None, quoted, reading, starts;
      if buffer[c] == '"' {
        QuoteStep(buf, c, quoted, reading, starts);
        quoted' := !quoted;
      } else if buffer[c] == '#' && !quoted && !reading {
        CommentStep(buf, c, starts);
        stop := Some(Comment);
      } else {
        BlankStep(buf, c, reading, starts);
        reading' := false;
      }
      buffer[c] := NUL;
      assert buffer[..] == buf[c := NUL];
    }

    /** Any other character: it is kept in the current token or starts a new one. */
    method WordChar(c: nat, quoted: bool, reading: bool, ghost starts: seq<nat>, ghost goal: Lexed)
        returns (stop: Option<LexOutcome>, quoted': bool, reading': bool, ghost starts': seq<nat>)
      requires Valid() && Terminated(buffer[..], c) && buffer[c] != NUL
      requires LexFrom(Scan(buffer[..], c, quoted, reading, starts)) == goal
      requires tokenCount == |starts| <= MAX_TOKENS
      requires forall k :: 0 <= k < tokenCount ==> tokens[k] == Span(starts[k])
      requires buffer[c] != '"' && !(buffer[c] == '#' && !quoted && !reading) && (quoted || buffer[c] != ' ')
      modifies this`tokenCount, tokens
      ensures tokenCount == |starts'| <= MAX_TOKENS
      ensures forall k :: 0 <= k < tokenCount ==> tokens[k] == Span(starts'[k])
      ensures stop != Some(Done)
      ensures stop.None? ==> Terminated(buffer[..], c + 1)
      ensures stop.None? ==> LexFrom(Scan(buffer[..], c + 1, quoted', reading', starts')) == goal
      ensures stop.Some? ==> goal == Lexed(buffer[..], starts', stop.value)
    {
      ghost var buf := buffer[..];
      stop, quoted', reading', starts' := None, quoted, reading, starts;
      if reading {
        KeepStep(buf, c, quoted, starts);
      } else if tokenCount >= MAX_TOKENS {
        FullStep(buf, c, quoted, starts);
        stop := Some(TooMany);
      } else {
        StartStep(buf, c, quoted, starts);
        starts' := PushSpan(c, starts);
        reading' := true;
      }
    }

    /** A new token starts at buffer[c]. */
    method PushSpan(c: nat, ghost starts: seq<nat>) returns (ghost starts': seq<nat>)
      requires Valid() && tokenCount == |starts| < MAX_TOKENS
      requires forall k :: 0 <= k < tokenCount ==> tokens[k] == Span(starts[k])
      modifies this`tokenCount, tokens
      ensures Valid() && starts' == starts + [c] && tokenCount == |starts'|
      ensures forall k :: 0 <= k < tokenCount ==> tokens[k] == Span(starts'[k])
    {
      tokens[tokenCount] := Span(c);
      tokenCount := tokenCount + 1;
      starts' := starts + [c];
    }

    /**
     * The `$name` case of expand_variables: the name is read up to its end
     * and the variable's value copied to expanded at d. It fails when the
     * name does not fit the name buffer or the value does not fit after d.
     */
    method ExpandReference(expanded: array<char>, d: nat, i: nat, ghost s: string, ghost vars: seq<Variable>, ghost p: string)
        returns (ok: bool, j: nat, d': nat)
      requires Valid() && Terminated(buffer[..], 0) && s == CStr(buffer[..], 0) && vars == Variables() && RefAt(s, i)
      requires expanded.Length == BUFFER_SIZE && expanded != buffer && d < BUFFER_SIZE && expanded[..d] == p
      modifies expanded
      ensures j == i + 1 + NameLength(s, i + 1)
      ensures ok <==> NameLength(s, i + 1) < MAX_VARNAME_LENGTH && d + |ValueOf(vars, RefName(s, i))| < BUFFER_SIZE
      ensures ok ==> d' == d + |ValueOf(vars, RefName(s, i))| && expanded[..d'] == p + ValueOf(vars, RefName(s, i))
    {
      j := NameEnd(i + 1);
      if j - (i + 1) >= MAX_VARNAME_LENGTH {
        return false, j, d;
      }
      var text := ReferenceValue(i, j, s);
      if d + |text| >= BUFFER_SIZE {
        return false, j, d;
      }
      d' := AppendValue(expanded, d, text, p);
      ok := true;
    }

    /** The value of a reference copied to expanded at d, after the expansion p so far. */
    method AppendValue(expanded: array<char>, d: nat, text: string, ghost p: string) returns (d': nat)
      requires expanded.Length == BUFFER_SIZE && d + |text| < BUFFER_SIZE && expanded[..d] == p
      modifies expanded
      ensures d' == d + |text| && expanded[..d'] == p + text
    {
      CopyInto(expanded, d, text);
      d' := d + |text|;
      assert expanded[..d'] == p + text;
    }

    /** get_value on the name of the reference at i, which ends at j: the text of its value, empty when it is unset. */
    method ReferenceValue(i: nat, j: nat, ghost s: string) returns (text: string)
      requires Valid() && Terminated(buffer[..], 0) && s == CStr(buffer[..], 0) && RefAt(s, i)
      requires j == i + 1 + NameLength(s, i + 1)
      ensures text == ValueOf(Variables(), RefName(s, i))
    {
      CStrSlice(buffer[..], 0, i + 1, j);
      assert buffer[i + 1..j] == RefName(s, i);
      var value := GetValue(buffer[i + 1..j]);
      text := if value.Some? then CText(value.value) else "";
    }

    /** The loop that finds the end of a variable name in the line: the first character that is not a name character. */
    method NameEnd(start: nat) returns (j: nat)
      requires Valid() && Terminated(buffer[..], 0) && start <= |CStr(buffer[..], 0)|
      ensures j == start + NameLength(CStr(buffer[..], 0), start)
    {
      ghost var s := CStr(buffer[..], 0);
      j := start;
      while IsNameChar(buffer[j])
        invariant start <= j <= |s|
        invariant forall k :: start <= k < j ==> IsNameChar(s[k])
        decreases |s| - j
      {
        j := j + 1;
      }
      NameLengthIs(s, start, j);
    }

    /** What the redirection fields record: the command's length, the background flag and the paths that are set. */
    function Recorded(): (r: Redirection)
      reads this
    {
      Redirection(tokenCount, background,
        if isInputRedirected then Some(inputRedirect) else None,
        if isOutputRedirected then Some(outputRedirect) else None)
    }

    /**
     * handle_redirects: the trailing `&`, `<path` and `>path` tokens are
     * removed from the command, from the last one backwards, and recorded
     * in the background flag and the redirect fields. It fails when a path
     * does not fit its PATH_MAX_LENGTH buffer.
     */
    method HandleRedirects() returns (ok: bool)
      requires Valid()
      modifies this`background, this`isInputRedirected, this`isOutputRedirected
      modifies this`inputRedirect, this`outputRedirect, this`tokenCount, tokens
      ensures Valid()
      ensures !ok ==> Extract(old(Args())).None?
      ensures ok ==> Extract(old(Args())) == Some(Recorded())
      ensures ok ==> Args() == old(Args())[..tokenCount]
      ensures ok ==> forall k :: tokenCount <= k < old(tokenCount) ==> tokens[k] == Null
      ensures forall k :: old(tokenCount) <= k < MAX_TOKENS ==> tokens[k] == old(tokens[k])
    {
      ghost var ts, before := Args(), tokens[..tokenCount];
      var count, bg, input, output;
      ok, count, bg, input, output := TrailingMarkers(ts);
      if !ok {
        return;
      }
      assert tokens[..count] == before[..count];
      TokenStringsPrefix(buffer[..], before, count);
      Record(count, bg, input, output);
    }

    /** The end of handle_redirects: the command is cut to count tokens and the flags and paths are stored. */
    method Record(count: nat, bg: bool, input: Option<string>, output: Option<string>)
      requires Valid() && count <= tokenCount
      modifies this`background, this`isInputRedirected, this`isOutputRedirected
      modifies this`inputRedirect, this`outputRedirect, this`tokenCount
      ensures Valid() && Recorded() == Redirection(count, bg, input, output)
    {
      tokenCount, background, isInputRedirected, isOutputRedirected := count, bg, input.Some?, output.Some?;
      if input.Some? {
        inputRedirect := input.value;
      }
      if output.Some? {
        outputRedirect := output.value;
      }
    }

    /**
     * The loop of handle_redirects over the arguments ts: it nulls the
     * trailing markers from the last one backwards and collects the flag
     * and the paths; the leftmost path of each kind is the last one seen.
     */
    method TrailingMarkers(ghost ts: seq<string>) returns (ok: bool, count: nat, bg: bool, input: Option<string>, output: Option<string>)
      requires Valid() && |ts| == tokenCount
      requires forall k :: 0 <= k < tokenCount ==> TokenText(tokens[k]) == ts[k]
      modifies tokens
      ensures !ok ==> Extract(ts).None?
      ensures ok ==> Extract(ts) == Some(Redirection(count, bg, input, output))
      ensures ok ==> count <= tokenCount
      ensures ok ==> forall k :: 0 <= k < count ==> tokens[k] == old(tokens[k])
      ensures ok ==> forall k :: count <= k < tokenCount ==> tokens[k] == Null
      ensures forall k :: tokenCount <= k < MAX_TOKENS ==> tokens[k] == old(tokens[k])
    {
      ok, count, bg, input, output := NullMarkers(ts);
      if ok {
        ExtractIs(ts, count, bg, input, output);
      }
    }

    /** The tokens are those of orig, with the ones from c up to tokenCount nulled. */
    ghost predicate NulledFrom(orig: seq<Token>, c: int)
      reads this, tokens
      requires Valid()
    {
      |orig| == MAX_TOKENS && forall k :: 0 <= k < MAX_TOKENS ==> tokens[k] == if c <= k < tokenCount then Null else orig[k]
    }

    /** The loop of TrailingMarkers: the run of markers it took in and nulled. */
    method NullMarkers(ghost ts: seq<string>) returns (ok: bool, count: nat, bg: bool, input: Option<string>, output: Option<string>)
      requires Valid() && |ts| == tokenCount
      requires forall k :: 0 <= k < tokenCount ==> TokenText(tokens[k]) == ts[k]
      modifies tokens
      ensures !ok ==> Extract(ts).None?
      ensures ok ==> count <= tokenCount && ScannedFrom(ts, count, bg, input, output) && (count == 0 || !IsMarker(ts[count - 1]))
      ensures ok ==> NulledFrom(old(tokens[..]), count)
      ensures forall k :: tokenCount <= k < MAX_TOKENS ==> tokens[k] == old(tokens[k])
    {
      ghost var orig := tokens[..];
      assert forall k :: 0 <= k < tokenCount ==> TokenString(buffer[..], orig[k]) == ts[k];
      bg, input, output := false, None, None;
      var c: int := tokenCount;
      var t := c - 1;
      while t >= 0 && t >= c - 3
        invariant t == c - 1 && -1 <= t < tokenCount
        invariant ScannedFrom(ts, c, bg, input, output)
        invariant NulledFrom(orig, c)
        decreases t + 1
      {
        var fits, taken;
        fits, taken, bg, input, output := MarkerRound(c, ts, bg, input, output, orig);
        if !fits {
          return false, 0, bg, input, output;
        }
        if !taken {
          return true, c, bg, input, output;
        }
        c := c - 1;
        t := t - 1;
      }
      return true, 0, bg, input, output;
    }

    /** One round of the loop of NullMarkers, at token n - 1, stated in terms of its invariants. */
    method MarkerRound(n: nat, ghost ts: seq<string>, bg: bool, input: Option<string>, output: Option<string>, ghost orig: seq<Token>)
      returns (fits: bool, taken: bool, bg': bool, input': Option<string>, output': Option<string>)
      requires Valid() && 0 < n <= tokenCount == |ts| && |orig| == MAX_TOKENS
      requires forall k :: 0 <= k < tokenCount ==> TokenString(buffer[..], orig[k]) == ts[k]
      requires ScannedFrom(ts, n, bg, input, output) && NulledFrom(orig, n)
      modifies tokens
      ensures !fits ==> Extract(ts).None?
      ensures fits && taken ==> ScannedFrom(ts, n - 1, bg', input', output') && NulledFrom(orig, n - 1)
      ensures fits && !taken ==> !IsMarker(ts[n - 1]) && ScannedFrom(ts, n, bg', input', output') && NulledFrom(orig, n)
      ensures forall k :: tokenCount <= k < MAX_TOKENS ==> tokens[k] == orig[k]
    {
      fits, taken, bg', input', output' := TakeMarker(n - 1, ts, bg, input, output);
    }

    /**
     * One turn of the loop of handle_redirects, at token t: a marker is
     * taken in (its flag or path recorded, its token nulled); any other
     * token stops the scan; a path too long for its buffer fails it.
     */
    method TakeMarker(t: nat, ghost ts: seq<string>, bg: bool, input: Option<string>, output: Option<string>)
      returns (fits: bool, taken: bool, bg': bool, input': Option<string>, output': Option<string>)
      requires Valid() && t < tokenCount == |ts|
      requires TokenText(tokens[t]) == ts[t]
      requires ScannedFrom(ts, t + 1, bg, input, output)
      modifies tokens
      ensures !fits ==> Extract(ts).None?
      ensures fits && taken ==> ScannedFrom(ts, t, bg', input', output') && tokens[t] == Null
      ensures fits && !taken ==> !IsMarker(ts[t]) && tokens[t] == old(tokens[t]) && (bg', input', output') == (bg, input, output)
      ensures forall k :: 0 <= k < MAX_TOKENS && k != t ==> tokens[k] == old(tokens[k])
    {
      var text := TokenText(tokens[t]);
      bg', input', output' := bg, input, output;
      if |text| == 1 && text[0] == '&' {
        bg' := true;
      } else if |text| > 1 && text[0] == '<' {
        if |text| > PATH_MAX_LENGTH {
          ExtractFails(ts, t);
          return false, false, bg', input', output';
        }
        input' := Some(text[1..]);
      } else if |text| > 1 && text[0] == '>' {
        if |text| > PATH_MAX_LENGTH {
          ExtractFails(ts, t);
          return false, false, bg', input', output';
        }
        output' := Some(text[1..]);
      } else {
        return true, false, bg', input', output';
      }
      ScanStep(ts, t + 1, bg, input, output);
      tokens[t] := Null;
      fits, taken := true, true;
    }

    // -------------------------------------------------------------------
    // Aliases

    /**
     * map_aliases: every token is compared with each alias in table order
     * and, on a match, replaced by a copy of the command, which is flagged
     * as owned in is_processed.
     */
    method MapAliases()
      requires Valid()
      modifies tokens, isProcessed
      ensures Args() == ResolveAll(old(Args()), Aliases())
      ensures forall t :: 0 <= t < tokenCount ==>
        isProcessed[t] == (old(isProcessed[t]) || Replaced(old(Args())[t], Aliases()))
      ensures forall t :: 0 <= t < tokenCount && !Replaced(old(Args())[t], Aliases()) ==> tokens[t] == old(tokens[t])
      ensures forall t :: tokenCount <= t < MAX_TOKENS ==> tokens[t] == old(tokens[t]) && isProcessed[t] == old(isProcessed[t])
    {
      ghost var args := Args();
      var t := 0;
      while t < tokenCount
        invariant t <= tokenCount
        invariant forall k :: 0 <= k < t ==> TokenText(tokens[k]) == Resolve(args[k], Aliases())
        invariant forall k :: 0 <= k < t ==> isProcessed[k] == (old(isProcessed[k]) || Replaced(args[k], Aliases()))
        invariant forall k :: 0 <= k < t && !Replaced(args[k], Aliases()) ==> tokens[k] == old(tokens[k])
        invariant forall k :: t <= k < MAX_TOKENS ==> tokens[k] == old(tokens[k]) && isProcessed[k] == old(isProcessed[k])
      {
        MapToken(t);
        t := t + 1;
      }
    }

    /** The inner loop of map_aliases, on token t. */
    method MapToken(t: nat)
      requires Valid() && t < tokenCount
      modifies tokens, isProcessed
      ensures TokenText(tokens[t]) == Resolve(old(TokenText(tokens[t])), Aliases())
      ensures isProcessed[t] == (old(isProcessed[t]) || Replaced(old(TokenText(tokens[t])), Aliases()))
      ensures !Replaced(old(TokenText(tokens[t])), Aliases()) ==> tokens[t] == old(tokens[t])
      ensures forall k :: 0 <= k < MAX_TOKENS && k != t ==> tokens[k] == old(tokens[k]) && isProcessed[k] == old(isProcessed[k])
    {
      ghost var token, al := TokenText(tokens[t]), Aliases();
      var a := 0;
      while a < aliasCount
        invariant a <= aliasCount
        invariant TokenText(tokens[t]) == Resolve(token, al[..a])
        invariant isProcessed[t] == (old(isProcessed[t]) || Replaced(token, al[..a]))
        invariant !Replaced(token, al[..a]) ==> tokens[t] == old(tokens[t])
        invariant forall k :: 0 <= k < MAX_TOKENS && k != t ==> tokens[k] == old(tokens[k]) && isProcessed[k] == old(isProcessed[k])
      {
        ResolveStep(token, al, a);
        if aliases[a].alias == TokenText(tokens[t]) {
          tokens[t] := Owned(aliases[a].command);
          isProcessed[t] := true;
        }
        a := a + 1;
      }
      assert al[..aliasCount] == al;
    }


    /** The loop of unalias_handler: the first slot named name, or the count. */
    method FindAlias(name: string) returns (i: nat)
      requires Valid()
      ensures i == AliasIndex(Aliases(), name)
    {
      i := 0;
      while i < aliasCount && aliases[i].alias != name
        invariant i <= aliasCount
        invariant forall j :: 0 <= j < i ==> aliases[j].alias != name
      {
        i := i + 1;
      }
      AliasIndexFound(Aliases(), name, i);
    }

    /** alias_handler: `alias COMMAND NAME`. */
    method AliasHandler(args: seq<string>) returns (out: string)
      requires Valid()
      modifies aliases, this`aliasCount, this`exitStatus
      ensures Valid()
      ensures (Aliases(), exitStatus) == AddAlias(old(Aliases()), args)
      ensures out == AliasMessage(old(Aliases()), args)
    {
      if |args| < 3 {
        out := AliasUsage;
        exitStatus := 1;
        return;
      }
      if aliasCount >= MAX_ALIASES {
        out := AliasLimit;
        exitStatus := 1;
        return;
      }
      if FindBuiltin(args[2]).Some? {
        out := AliasBuiltin;
        exitStatus := 1;
        return;
      }
      ghost var old_aliases := Aliases();
      aliases[aliasCount] := Alias(args[2], args[1]);
      aliasCount := aliasCount + 1;
      out := "Alias '" + args[2] + "' added\n";
      exitStatus := 0;
      assert Aliases() == old_aliases + [Alias(args[2], args[1])];
    }

    /** unalias_handler: the last alias moves into the freed slot. */
    method UnaliasHandler(args: seq<string>) returns (out: string)
      requires Valid()
      modifies aliases, this`aliasCount, this`exitStatus
      ensures Valid()
      ensures (Aliases(), exitStatus) == Unalias(old(Aliases()), args)
      ensures out == UnaliasMessage(old(Aliases()), args)
    {
      if |args| < 2 {
        out := UnaliasUsage;
        exitStatus := 1;
        return;
      }
      var i := FindAlias(args[1]);
      if i == aliasCount {
        out := AliasNotFound;
        exitStatus := 1;
        return;
      }
      SwapOutAlias(i);
      out := "Alias '" + args[1] + "' removed\n";
      exitStatus := 0;
    }

    /** The freed slot i takes the last alias and the table shrinks by one. */
    method SwapOutAlias(i: nat)
      requires Valid() && i < aliasCount
      modifies aliases, this`aliasCount
      ensures Valid() && Aliases() == SwapRemove(old(Aliases()), i)
    {
      ghost var before := Aliases();
      aliases[i] := aliases[aliasCount - 1];
      aliasCount := aliasCount - 1;
      assert Aliases() == SwapRemove(before, i);
    }

    // -------------------------------------------------------------------
    // Replaying history

    /** nthcmd_handler (`!n N`): on success the next line starts with the selected entry. */
    method NthCmdHandler(args: seq<string>) returns (out: string)
      requires Valid()
      modifies this`blockPrompt, this`historyIndex, this`exitStatus
      ensures Valid()
      ensures NthCmd(historyCount, args).Some? ==>
        blockPrompt && historyIndex == NthCmd(historyCount, args).value && exitStatus == 0
      ensures NthCmd(historyCount, args).None? ==>
        blockPrompt == old(blockPrompt) && historyIndex == old(historyIndex) && exitStatus == 1
      ensures out == NthCmdMessage(promptText, old(History()), args)
    {
      if |args| < 2 {
        out := NthCmdUsage;
        exitStatus := 1;
        return;
      }
      out := SelectBack(Atoi(args[1]));
    }

    /** The checks and the selection of nthcmd_handler once N is read from the argument. */
    method SelectBack(n: int) returns (out: string)
      requires Valid()
      modifies this`blockPrompt, this`historyIndex, this`exitStatus
      ensures Valid()
      ensures NthBack(historyCount, n).Some? ==>
        blockPrompt && historyIndex == NthBack(historyCount, n).value && exitStatus == 0
      ensures NthBack(historyCount, n).None? ==>
        blockPrompt == old(blockPrompt) && historyIndex == old(historyIndex) && exitStatus == 1
      ensures out == NthBackMessage(promptText, old(History()), n)
    {
      if n > HISTORY_SIZE {
        out := NthCmdTooHigh;
        exitStatus := 1;
        return;
      }
      if n > historyCount {
        out := NotInHistory(n, historyCount);
        exitStatus := 1;
        return;
      }
      if n < 1 {
        out := "";
        exitStatus := 1;
        return;
      }
      blockPrompt := true;
      historyIndex := historyCount - n;
      out := promptText + ">" + history[historyIndex];
      exitStatus := 0;
    }

    /** lastcmd_handler (`!!`). */
    method LastCmdHandler() returns (out: string)
      requires Valid()
      modifies this`blockPrompt, this`historyIndex, this`exitStatus
      ensures Valid()
      ensures LastCmd(historyCount).Some? ==>
        blockPrompt && historyIndex == LastCmd(historyCount).value && exitStatus == 0
      ensures LastCmd(historyCount).None? ==>
        blockPrompt == old(blockPrompt) && historyIndex == old(historyIndex) && exitStatus == 1
      ensures out == LastCmdMessage(promptText, old(History()))
    {
      if historyCount < 1 {
        out := HistoryEmpty;
        exitStatus := 1;
        return;
      }
      blockPrompt := true;
      historyIndex := historyCount - 1;
      out := promptText + ">" + history[historyIndex];
      exitStatus := 0;
    }

    // -------------------------------------------------------------------
    // print, echo, len, prompt

    /** prompt_handler: with no argument the prompt is written out. */
    method PromptHandler(args: seq<string>) returns (out: string)
      requires Valid() && |args| >= 1
      modifies this`promptText, this`exitStatus
      ensures Valid()
      ensures (promptText, exitStatus) == PromptUpdate(old(promptText), args)
      ensures out == if |args| == 1 then old(promptText) + "\n" else ""
    {
      out := "";
      if |args| == 1 {
        out := promptText + "\n";
        exitStatus := 0;
        return;
      }
      if |args[1]| > PROMPT_TEXT_MAX_LENGTH {
        exitStatus := 1;
        return;
      }
      promptText := args[1];
      exitStatus := 0;
    }

    /** print_handler: the arguments after the command, separated by single blanks. */
    method PrintHandler(args: seq<string>) returns (out: string)
      requires Valid()
      modifies this`exitStatus
      ensures Valid() && exitStatus == 0
      ensures out == PrintOutput(args)
    {
      out := "";
      var t := 1;
      while t < |args|
        invariant 1 <= t <= |args| || (|args| <= 1 && t == 1)
        invariant t < |args| ==> out + Joined(args[t..]) == PrintOutput(args)
        invariant t >= |args| ==> out == PrintOutput(args)
      {
        out := out + args[t];
        if t + 1 != |args| {
          out := out + " ";
        }
        t := t + 1;
      }
      exitStatus := 0;
    }

    /** len_handler: the summed length of the arguments after the command. */
    method LenHandler(args: seq<string>) returns (n: nat)
      requires Valid()
      modifies this`exitStatus
      ensures Valid() && exitStatus == 0
      ensures n == LenOutput(args)
    {
      n := 0;
      var t := 1;
      while t < |args|
        invariant 1 <= t <= |args| || (|args| <= 1 && t == 1)
        invariant t < |args| ==> n + TotalLength(args[t..]) == LenOutput(args)
        invariant t >= |args| ==> n == LenOutput(args)
      {
        n := n + |args[t]|;
        t := t + 1;
      }
      exitStatus := 0;
    }
  }

  /**
   * What tokenize makes of the line buffer b: None when the expansion does
   * not fit, otherwise the scan of the expanded buffer.
   */
  function Split(b: seq<char>, vars: seq<Variable>): (r: Option<Lexed>)
    requires |b| == BUFFER_SIZE && Terminated(b, 0)
    ensures r.None? <==> !ExpandFits(CStr(b, 0), vars)
    ensures r.Some? ==> StartsOk(r.value.buffer, r.value.starts)
  {
    if ExpandFits(CStr(b, 0), vars) then
      var e := ExpandedBuffer(b, vars);
      LexTokens(e);
      Some(Lex(e))
    else None
  }

  /** Copying t into dst at index at, as strcpy and the copy loops of the shell do. */
  method CopyInto(dst: array<char>, at: nat, t: seq<char>)
    requires at + |t| <= dst.Length
    modifies dst
    ensures dst[..] == old(dst[..])[..at] + t + old(dst[..])[at + |t|..]
  {
    var m := 0;
    while m < |t|
      invariant m <= |t|
      invariant dst[..] == old(dst[..])[..at] + t[..m] + old(dst[..])[at + m..]
    {
      dst[at + m] := t[m];
      m := m + 1;
    }
  }

  /** A line fits the line buffer with its terminator. */
  predicate Fits(line: string) {
    |line| < BUFFER_SIZE && NUL !in line
  }

  lemma VarIndexFound(vars: seq<Variable>, name: string, i: nat)
    requires i <= |vars|
    requires i < |vars| ==> vars[i].name == name
    requires forall j :: 0 <= j < i ==> vars[j].name != name
    ensures VarIndex(vars, name) == i
  {
  }

  lemma AliasIndexFound(aliases: seq<Alias>, name: string, i: nat)
    requires i <= |aliases|
    requires i < |aliases| ==> aliases[i].alias == name
    requires forall j :: 0 <= j < i ==> aliases[j].alias != name
    ensures AliasIndex(aliases, name) == i
  {
  }
}

=== FILE: tables.dfy ===
/**
 * The bounded tables of the shell as values: the variable table, the alias
 * table and the history, with the handlers that update them stated as
 * functions from the old table and the argument vector to the new table and
 * the exit status. `args` holds the token texts, the command name at index 0.
 */
module Tables {
  import opened Wrappers
  import opened Constants
  import opened CString
  import opened Builtins
  import opened Utility

  datatype Variable = Variable(name: string, value: string)

  datatype Alias = Alias(alias: string, command: string)

  /** Removal as the handlers do it: the last entry moves into slot i and the table shrinks by one. */
  function SwapRemove<T>(s: seq<T>, i: nat): (r: seq<T>)
    requires i < |s|
    ensures |r| == |s| - 1
  {
    s[i := s[|s| - 1]][..|s| - 1]
  }

  /** Swap-removal takes out exactly the entry at i. */
  lemma SwapRemoveMultiset<T>(s: seq<T>, i: nat)
    requires i < |s|
    ensures multiset(SwapRemove(s, i)) + multiset{s[i]} == multiset(s)
  {
    var n := |s| - 1;
    if i == n {
      assert SwapRemove(s, i) == s[..n];
      assert s == s[..n] + [s[n]];
    } else {
      var t := s[i := s[n]];
      assert t == s[..i] + [s[n]] + s[i + 1..];
      assert s == s[..i] + [s[i]] + s[i + 1..n] + [s[n]];
      assert s[i + 1..] == s[i + 1..n] + [s[n]];
      assert t[..n] == s[..i] + [s[n]] + s[i + 1..n];
    }
  }

  // ---------------------------------------------------------------------
  // Variables

  /** Index of the first variable named name, or the table size. */
  function VarIndex(vars: seq<Variable>, name: string): (k: nat)
    ensures k <= |vars|
    ensures k < |vars| ==> vars[k].name == name
    ensures forall j :: 0 <= j < k ==> vars[j].name != name
  {
    if vars == [] then 0
    else if vars[0].name == name then 0
    else 1 + VarIndex(vars[1..], name)
  }

  /** get_value: the value of the first variable named name, or None (NULL). */
  function Lookup(vars: seq<Variable>, name: string): (r: Option<string>)
    ensures r.None? <==> forall j :: 0 <= j < |vars| ==> vars[j].name != name
    ensures r.Some? ==> exists j :: 0 <= j < |vars| && vars[j] == Variable(name, r.value)
  {
    var k := VarIndex(vars, name);
    if k < |vars| then Some(vars[k].value) else None
  }

  predicate VarNamesUnique(vars: seq<Variable>) {
    forall j, k :: 0 <= j < k < |vars| ==> vars[j].name != vars[k].name
  }

  /** The text before the first '=' of an argument. */
  function Before(s: string): (r: string) { s[..IndexOf(s, '=')] }

  /** The text after the first '=' of an argument. */
  function After(s: string): (r: string)
    requires '=' in s
  {
    s[IndexOf(s, '=') + 1..]
  }

  /**
   * setvar_handler: `setvar NAME=VALUE` replaces the value of an existing
   * NAME, or appends a new variable while fewer than MAX_VARIABLES are set.
   * A missing argument, an argument without '=', or a full table gives
   * status 1 and no change.
   */
  function SetVar(vars: seq<Variable>, args: seq<string>): (r: (seq<Variable>, int))
    ensures r.1 == 0 || r.1 == 1
    ensures r.1 == 1 ==> r.0 == vars
    ensures r.1 == 1 <==> (|args| < 2 || '=' !in args[1] ||
      (VarIndex(vars, Before(args[1])) == |vars| && |vars| >= MAX_VARIABLES))
  {
    if |args| < 2 || '=' !in args[1] then (vars, 1)
    else
      var name, value := Before(args[1]), After(args[1]);
      var i := VarIndex(vars, name);
      if i < |vars| then (vars[i := Variable(name, value)], 0)
      else if |vars| >= MAX_VARIABLES then (vars, 1)
      else (vars + [Variable(name, value)], 0)
  }

  /**
   * freevar_handler: `freevar NAME` swap-removes the first variable named
   * NAME. A missing argument or an unknown name gives status 1 and no change.
   */
  function FreeVar(vars: seq<Variable>, args: seq<string>): (r: (seq<Variable>, int))
    ensures r.1 == 0 || r.1 == 1
    ensures r.1 == 1 ==> r.0 == vars
    ensures r.1 == 1 <==> |args| < 2 || Lookup(vars, args[1]).None?
    ensures r.1 == 0 ==> multiset(r.0) + multiset{Variable(args[1], Lookup(vars, args[1]).value)} == multiset(vars)
  {
    if |args| < 2 then (vars, 1)
    else
      var i := VarIndex(vars, args[1]);
      if i == |vars| then (vars, 1)
      else
        SwapRemoveMultiset(vars, i);
        (SwapRemove(vars, i), 0)
  }

  // ---------------------------------------------------------------------
  // The notices the handlers write

  const AliasUsage: string := "Usage: alias 'command name' 'alias name'\n"
  const AliasLimit: string := "Alias limit reached\n"
  const AliasBuiltin: string := "Alias name cannot be another built-in command\n"
  const UnaliasUsage: string := "Usage: unalias 'alias name'\n"
  const AliasNotFound: string := "Alias not found\n"
  const SetVarUsage: string := "Usage: setvar 'varname'='value'\n"
  const VariablesFull: string :=
    "Maximum number of variables (32) reached. User 'free varname' to make space for new variables.\n"
  const FreeVarUsage: string := "Usage: freevar 'varname'\n"
  const NthCmdUsage: string := "Not enough input arguments. See 'help'\n"
  const NthCmdTooHigh: string := "Provided n is too high. Maximum value for n is 32\n"
  const HistoryEmpty: string := "History empty\n"

  /** The notice of `!n N` for an N beyond the count lines saved (the C text's wording). */
  function NotInHistory(n: nat, count: nat): (r: string)
  {
    "Command number " + Decimal(n) + " does not exit. Currently only " + Decimal(count) + " commands in history\n"
  }

  /**
   * What setvar_handler writes: its usage line, or the notice that the
   * table is full; nothing when the variable is set. An argument without
   * '=' leaves the C handler reading an unset name, and the model writes
   * nothing for it.
   */
  function SetVarMessage(vars: seq<Variable>, args: seq<string>): (r: string)
  {
    if |args| < 2 then SetVarUsage
    else if '=' !in args[1] then ""
    else if VarIndex(vars, Before(args[1])) == |vars| && |vars| >= MAX_VARIABLES then
      VariablesFull
    else ""
  }

  /** What freevar_handler writes: its usage line or the unknown name; nothing when the variable is freed. */
  function FreeVarMessage(vars: seq<Variable>, args: seq<string>): (r: string)
  {
    if |args| < 2 then FreeVarUsage
    else if VarIndex(vars, args[1]) == |vars| then "Variable '" + args[1] + "' wasn't set\n"
    else ""
  }

  /** setvar writes nothing exactly when it succeeds (or gets no '='); the notices go with status 1. */
  lemma SetVarMessageStatus(vars: seq<Variable>, args: seq<string>)
    ensures SetVarMessage(vars, args) == "" <==> SetVar(vars, args).1 == 0 || (|args| >= 2 && '=' !in args[1])
  {
  }

  /** freevar writes nothing exactly when it frees the variable, and names an unknown one. */
  lemma FreeVarMessageStatus(vars: seq<Variable>, args: seq<string>)
    ensures FreeVarMessage(vars, args) == "" <==> FreeVar(vars, args).1 == 0
    ensures FreeVar(vars, args).1 == 1 && |args| >= 2 ==> FreeVarMessage(vars, args) == "Variable '" + args[1] + "' wasn't set\n"
  {
  }

  /** After a successful setvar the name reads back the new value. */
  lemma SetThenGet(vars: seq<Variable>, name: string, value: string)
    requires '=' !in name
    requires SetVar(vars, ["setvar", name + "=" + value]).1 == 0
    ensures Lookup(SetVar(vars, ["setvar", name + "=" + value]).0, name) == Some(value)
  {
    var arg := name + "=" + value;
    assert IndexOf(arg, '=') == |name| by {
      assert arg[|name|] == '=';
      assert forall j :: 0 <= j < |name| ==> arg[j] == name[j];
    }
    assert Before(arg) == name && After(arg) == value;
    var i := VarIndex(vars, name);
    var vars' := SetVar(vars, ["setvar", arg]).0;
    assert VarIndex(vars', name) == i by {
      assert vars'[i].name == name;
      VarIndexAt(vars', name, i);
    }
  }

  /** The first entry with the name sits at k when no earlier entry has it. */
  lemma VarIndexAt(vars: seq<Variable>, name: string, k: nat)
    requires k < |vars| && vars[k].name == name
    requires forall j :: 0 <= j < k ==> vars[j].name != name
    ensures VarIndex(vars, name) == k
  {
  }

  /** setvar leaves every other name's lookup alone. */
  lemma SetVarKeepsOthers(vars: seq<Variable>, args: seq<string>, other: string)
    requires |args| >= 2 && '=' in args[1] && other != Before(args[1])
    ensures Lookup(SetVar(vars, args).0, other) == Lookup(vars, other)
  {
    var vars' := SetVar(vars, args).0;
    var k := VarIndex(vars, other);
    if k < |vars| {
      VarIndexAt(vars', other, k);
    } else {
      assert forall j :: 0 <= j < |vars'| ==> vars'[j].name != other;
    }
  }

  /** Neither handler lets the table grow past MAX_VARIABLES or duplicates a name. */
  lemma VarTableInvariant(vars: seq<Variable>, args: seq<string>)
    requires |vars| <= MAX_VARIABLES && VarNamesUnique(vars)
    ensures |SetVar(vars, args).0| <= MAX_VARIABLES && VarNamesUnique(SetVar(vars, args).0)
    ensures |FreeVar(vars, args).0| <= MAX_VARIABLES && VarNamesUnique(FreeVar(vars, args).0)
  {
  }

  /** With unique names, freevar makes the name unset and leaves the other names alone. */
  lemma FreeThenGet(vars: seq<Variable>, name: string, other: string)
    requires VarNamesUnique(vars) && other != name
    ensures Lookup(FreeVar(vars, ["freevar", name]).0, name).None?
    ensures Lookup(FreeVar(vars, ["freevar", name]).0, other) == Lookup(vars, other)
  {
    var i := VarIndex(vars, name);
    if i < |vars| {
      var vars' := SwapRemove(vars, i);
      assert forall j :: 0 <= j < |vars'| ==> vars'[j] == (if j == i then vars[|vars| - 1] else vars[j]);
      var k := VarIndex(vars, other);
      if k < |vars| {
        var k' := if k == |vars| - 1 then i else k;
        VarIndexFrom(vars', other, k');
      }
    }
  }

  /** A unique name is found at its only slot. */
  lemma VarIndexFrom(vars: seq<Variable>, name: string, k: nat)
    requires k < |vars| && vars[k].name == name
    requires forall j :: 0 <= j < |vars| && j != k ==> vars[j].name != name
    ensures VarIndex(vars, name) == k
  {
    VarIndexAt(vars, name, k);
  }

  // ---------------------------------------------------------------------
  // Aliases

  /** Index of the first alias named name, or the table size. */
  function AliasIndex(aliases: seq<Alias>, name: string): (k: nat)
    ensures k <= |aliases|
    ensures k < |aliases| ==> aliases[k].alias == name
    ensures forall j :: 0 <= j < k ==> aliases[j].alias != name
  {
    if aliases == [] then 0
    else if aliases[0].alias == name then 0
    else 1 + AliasIndex(aliases[1..], name)
  }

  /**
   * alias_handler: `alias COMMAND NAME` appends the entry NAME -> COMMAND.
   * Fewer than three tokens, a full table (checked first) or a NAME that is
   * a builtin gives status 1 and no change. An existing NAME is not
   * replaced: the new entry is appended beside it.
   */
  function AddAlias(aliases: seq<Alias>, args: seq<string>): (r: (seq<Alias>, int))
    ensures r.1 == 0 || r.1 == 1
    ensures r.1 == 1 ==> r.0 == aliases
    ensures r.1 == 1 <==> (|args| < 3 || |aliases| >= MAX_ALIASES || args[2] in Commands)
    ensures r.1 == 0 ==> |r.0| == |aliases| + 1 && r.0[..|aliases|] == aliases
    ensures r.1 == 0 ==> r.0[|aliases|] == Alias(args[2], args[1])
  {
    if |args| < 3 then (aliases, 1)
    else if |aliases| >= MAX_ALIASES then (aliases, 1)
    else if FindBuiltin(args[2]).Some? then (aliases, 1)
    else (aliases + [Alias(args[2], args[1])], 0)
  }

  /**
   * unalias_handler: `unalias NAME` swap-removes the first alias named NAME.
   * A missing argument or an unknown name gives status 1 and no change.
   */
  function Unalias(aliases: seq<Alias>, args: seq<string>): (r: (seq<Alias>, int))
    ensures r.1 == 0 || r.1 == 1
    ensures r.1 == 1 ==> r.0 == aliases
    ensures r.1 == 1 <==> (|args| < 2 || AliasIndex(aliases, args[1]) == |aliases|)
    ensures r.1 == 0 ==> multiset(r.0) + multiset{aliases[AliasIndex(aliases, args[1])]} == multiset(aliases)
  {
    if |args| < 2 then (aliases, 1)
    else
      var i := AliasIndex(aliases, args[1]);
      if i == |aliases| then (aliases, 1)
      else
        SwapRemoveMultiset(aliases, i);
        (SwapRemove(aliases, i), 0)
  }

  /**
   * What alias_handler writes: its usage line, the limit notice, the
   * builtin-name notice, or the confirmation naming the new alias.
   */
  function AliasMessage(aliases: seq<Alias>, args: seq<string>): (r: string)
  {
    if |args| < 3 then AliasUsage
    else if |aliases| >= MAX_ALIASES then AliasLimit
    else if FindBuiltin(args[2]).Some? then AliasBuiltin
    else "Alias '" + args[2] + "' added\n"
  }

  /** What unalias_handler writes: its usage line, the unknown-name notice, or the confirmation. */
  function UnaliasMessage(aliases: seq<Alias>, args: seq<string>): (r: string)
  {
    if |args| < 2 then UnaliasUsage
    else if AliasIndex(aliases, args[1]) == |aliases| then AliasNotFound
    else "Alias '" + args[1] + "' removed\n"
  }

  /** alias confirms the name it added exactly on success; a refusal writes one of its three notices. */
  lemma AliasMessageStatus(aliases: seq<Alias>, args: seq<string>)
    ensures AddAlias(aliases, args).1 == 0 ==> AliasMessage(aliases, args) == "Alias '" + args[2] + "' added\n"
    ensures AddAlias(aliases, args).1 == 1 ==> AliasMessage(aliases, args) in {AliasUsage, AliasLimit, AliasBuiltin}
  {
  }

  /** unalias confirms the name it removed exactly on success. */
  lemma UnaliasMessageStatus(aliases: seq<Alias>, args: seq<string>)
    ensures Unalias(aliases, args).1 == 0 <==> |args| >= 2 && UnaliasMessage(aliases, args) == "Alias '" + args[1] + "' removed\n"
  {
    if |args| >= 2 && Unalias(aliases, args).1 == 1 {
      assert ("Alias '" + args[1] + "' removed\n")[6] == '\'';
      assert UnaliasMessage(aliases, args)[6] != '\'';
    }
  }

  /** The alias table never grows past MAX_ALIASES. */
  lemma AliasTableBounded(aliases: seq<Alias>, args: seq<string>)
    requires |aliases| <= MAX_ALIASES
    ensures |AddAlias(aliases, args).0| <= MAX_ALIASES
    ensures |Unalias(aliases, args).0| <= MAX_ALIASES
  {
  }

  /** Removing a name that was just added, and was not there before, restores the table. */
  lemma AliasThenUnalias(aliases: seq<Alias>, command: string, name: string)
    requires AliasIndex(aliases, name) == |aliases|
    requires AddAlias(aliases, ["alias", command, name]).1 == 0
    ensures Unalias(AddAlias(aliases, ["alias", command, name]).0, ["unalias", name]) == (aliases, 0)
  {
    var added := aliases + [Alias(name, command)];
    assert AliasIndex(added, name) == |aliases| by {
      AliasIndexAt(added, name, |aliases|);
    }
    assert SwapRemove(added, |aliases|) == aliases;
  }

  lemma AliasIndexAt(aliases: seq<Alias>, name: string, k: nat)
    requires k < |aliases| && aliases[k].alias == name
    requires forall j :: 0 <= j < k ==> aliases[j].alias != name
    ensures AliasIndex(aliases, name) == k
  {
  }

  // ---------------------------------------------------------------------
  // Alias mapping of one token (the inner loop of map_aliases)

  /**
   * The token after it has been compared with every table entry in order:
   * each entry whose name equals the token as it stands at that point
   * replaces it by the entry's command.
   */
  function Resolve(token: string, aliases: seq<Alias>): (r: string)
    decreases |aliases|
  {
    if aliases == [] then token
    else
      var t := Resolve(token, aliases[..|aliases| - 1]);
      var last := aliases[|aliases| - 1];
      if last.alias == t then last.command else t
  }

  /** Some entry replaced the token along the way (is_processed gets set). */
  predicate Replaced(token: string, aliases: seq<Alias>)
    decreases |aliases|
  {
    aliases != [] &&
    (Replaced(token, aliases[..|aliases| - 1]) ||
     aliases[|aliases| - 1].alias == Resolve(token, aliases[..|aliases| - 1]))
  }

  /** Comparing the token with one more entry of the table. */
  lemma ResolveStep(token: string, aliases: seq<Alias>, a: nat)
    requires a < |aliases|
    ensures var t := Resolve(token, aliases[..a]);
      Resolve(token, aliases[..a + 1]) == (if aliases[a].alias == t then aliases[a].command else t)
    ensures Replaced(token, aliases[..a + 1]) == (Replaced(token, aliases[..a]) || aliases[a].alias == Resolve(token, aliases[..a]))
  {
    assert aliases[..a + 1][..a] == aliases[..a];
  }

  /** Every token of a command after alias substitution. */
  function ResolveAll(ts: seq<string>, aliases: seq<Alias>): (r: seq<string>)
    ensures |r| == |ts|
    ensures forall k :: 0 <= k < |ts| ==> r[k] == Resolve(ts[k], aliases)
  {
    seq(|ts|, k requires 0 <= k < |ts| => Resolve(ts[k], aliases))
  }

  /** A token that is no alias name is left alone and not marked. */
  lemma {:induction false} ResolveNoMatch(token: string, aliases: seq<Alias>)
    requires forall j :: 0 <= j < |aliases| ==> aliases[j].alias != token
    ensures Resolve(token, aliases) == token && !Replaced(token, aliases)
    decreases |aliases|
  {
    if aliases != [] {
      ResolveNoMatch(token, aliases[..|aliases| - 1]);
    }
  }

  /**
   * When no command is itself an alias name, a token that names an alias
   * becomes the command of the first entry with that name, and is marked.
   */
  lemma {:induction false} ResolveFirstMatch(token: string, aliases: seq<Alias>, i: nat)
    requires i < |aliases| && aliases[i].alias == token
    requires forall j :: 0 <= j < i ==> aliases[j].alias != token
    requires forall j, k :: 0 <= j < |aliases| && 0 <= k < |aliases| ==> aliases[j].alias != aliases[k].command
    ensures Resolve(token, aliases) == aliases[i].command && Replaced(token, aliases)
    decreases |aliases|
  {
    var init := aliases[..|aliases| - 1];
    if i == |aliases| - 1 {
      ResolveNoMatch(token, init);
    } else {
      ResolveFirstMatch(token, init, i);
      assert aliases[|aliases| - 1].alias != aliases[i].command;
    }
  }

  /** Entries apply in table order: a -> b then b -> c turns a into c, the reverse order only into b. */
  lemma ResolveChains()
    ensures Resolve("a", [Alias("a", "b"), Alias("b", "c")]) == "c"
    ensures Resolve("a", [Alias("b", "c"), Alias("a", "b")]) == "b"
  {
    assert [Alias("a", "b"), Alias("b", "c")][..1] == [Alias("a", "b")];
    assert [Alias("b", "c"), Alias("a", "b")][..1] == [Alias("b", "c")];
  }

  // ---------------------------------------------------------------------
  // History

  /**
   * save_to_history: while there is room the line is appended; once
   * HISTORY_SIZE lines are kept the oldest drops out.
   */
  function Pushed(history: seq<string>, line: string): (h: seq<string>)
    requires |history| <= HISTORY_SIZE
    ensures |h| == if |history| < HISTORY_SIZE then |history| + 1 else HISTORY_SIZE
  {
    if |history| < HISTORY_SIZE then history + [line] else history[1..] + [line]
  }

  /** The last n elements of s (all of s when it is shorter). */
  function LastN<T>(s: seq<T>, n: nat): (r: seq<T>)
    ensures |r| <= n && |r| <= |s|
  {
    if |s| <= n then s else s[|s| - n..]
  }

  /** The history is a window: it holds the HISTORY_SIZE most recent lines. */
  lemma PushedIsWindow(history: seq<string>, line: string)
    requires |history| <= HISTORY_SIZE
    ensures Pushed(history, line) == LastN(history + [line], HISTORY_SIZE)
  {
    if |history| == HISTORY_SIZE {
      assert (history + [line])[1..] == history[1..] + [line];
    }
  }

  /** Saving lines one after another from an empty history keeps the most recent ones. */
  function SaveAll(history: seq<string>, lines: seq<string>): (h: seq<string>)
    requires |history| <= HISTORY_SIZE
    ensures |h| <= HISTORY_SIZE
    decreases |lines|
  {
    if lines == [] then history
    else SaveAll(Pushed(history, lines[0]), lines[1..])
  }

  lemma {:induction false} SaveAllIsWindow(history: seq<string>, lines: seq<string>)
    requires |history| <= HISTORY_SIZE
    ensures SaveAll(history, lines) == LastN(history + lines, HISTORY_SIZE)
    decreases |lines|
  {
    if lines != [] {
      PushedIsWindow(history, lines[0]);
      SaveAllIsWindow(Pushed(history, lines[0]), lines[1..]);
      LastNAppend(history + [lines[0]], lines[1..]);
      assert history + [lines[0]] + lines[1..] == history + lines;
    }
  }

  /** Taking the window before appending does not change the final window. */
  lemma LastNAppend(s: seq<string>, t: seq<string>)
    ensures LastN(LastN(s, HISTORY_SIZE) + t, HISTORY_SIZE) == LastN(s + t, HISTORY_SIZE)
  {
    var n := HISTORY_SIZE;
    if |s| > n {
      var w := s[|s| - n..];
      assert s + t == s[..|s| - n] + (w + t);
      if |w + t| > n {
        assert (s + t)[|s + t| - n..] == (w + t)[|w + t| - n..];
      }
    }
  }

  // ---------------------------------------------------------------------
  // Replaying history: !n and !!

  /**
   * nthcmd_handler: `!n N` selects the entry N back from the newest, index
   * count - N. A missing argument, N > HISTORY_SIZE, N > count, or N < 1
   * gives status 1 and selects nothing.
   */
  function NthCmd(count: nat, args: seq<string>): (r: Option<nat>)
    ensures r.Some? ==> r.value < count
    ensures r.Some? <==> (|args| >= 2 && 1 <= Atoi(args[1]) <= count && Atoi(args[1]) <= HISTORY_SIZE)
  {
    if |args| < 2 then None else NthBack(count, Atoi(args[1]))
  }

  /** The entry N back from the newest of count entries, once N is read. */
  function NthBack(count: nat, n: int): (r: Option<nat>)
    ensures r.Some? <==> 1 <= n <= count && n <= HISTORY_SIZE
    ensures r.Some? ==> r.value == count - n
  {
    if n > HISTORY_SIZE then None
    else if n > count then None
    else if n < 1 then None
    else Some(count - n)
  }

  /**
   * nthcmd_handler as written: the index is count - N whenever N passes the
   * two upper-bound checks, whatever the sign of N.
   */
  function NthCmdAsWritten(count: nat, args: seq<string>): (r: Option<int>)
    ensures r.Some? ==> r.value >= 0
  {
    if |args| < 2 then None
    else
      var n := Atoi(args[1]);
      if n > HISTORY_SIZE then None
      else if n > count then None
      else Some(count - n)
  }

  /** `!n 0` and `!n -1` get past the checks and select a slot at or beyond the newest entry. */
  lemma NthCmdAsWrittenOutOfRange(count: nat)
    ensures NthCmdAsWritten(count, ["!n", "0"]) == Some(count)
    ensures NthCmdAsWritten(count, ["!n", "-1"]) == Some(count + 1)
    ensures NthCmd(count, ["!n", "0"]).None? && NthCmd(count, ["!n", "-1"]).None?
  {
    AtoiSmall();
    assert ["!n", "0"][1] == "0" && ["!n", "-1"][1] == "-1";
  }

  /** atoi of the two arguments above. */
  lemma AtoiSmall()
    ensures Atoi("0") == 0 && Atoi("-1") == -1
  {
    AtoiDecimal(0);
    assert Decimal(0) == "0";
    assert FirstNonSpace("-1", 0) == 0;
    assert "-1"[0..][1..] == "1";
    assert DigitRun("1") == 1;
    assert "1"[..1] == "1";
    assert DigitsValue("1") == 1 by {
      assert "1"[..0] == "";
    }
  }

  /** The two agree wherever the corrected handler selects an entry. */
  lemma NthCmdAgrees(count: nat, args: seq<string>)
    ensures NthCmd(count, args).Some? ==> NthCmdAsWritten(count, args) == Some(NthCmd(count, args).value as int)
  {
  }

  /** lastcmd_handler (`!!`): the newest entry; an empty history gives status 1. */
  function LastCmd(count: nat): (r: Option<nat>)
    ensures r.Some? <==> count >= 1
    ensures r.Some? ==> r.value == count - 1
  {
    if count < 1 then None else Some(count - 1)
  }

  /**
   * What nthcmd_handler writes: the prompt, '>' and the selected entry
   * (without a newline: the entry is replayed as the start of the next
   * line), or the notice for a missing argument, an N over HISTORY_SIZE or
   * an N over the count. The refusal of N < 1 writes nothing.
   */
  function NthCmdMessage(prompt: string, history: seq<string>, args: seq<string>): (r: string)
  {
    if |args| < 2 then NthCmdUsage else NthBackMessage(prompt, history, Atoi(args[1]))
  }

  /** What nthcmd_handler writes once N is read. */
  function NthBackMessage(prompt: string, history: seq<string>, n: int): (r: string)
  {
    if n > HISTORY_SIZE then NthCmdTooHigh
    else if n > |history| then NotInHistory(n, |history|)
    else if n < 1 then ""
    else prompt + ">" + history[|history| - n]
  }

  /** What lastcmd_handler writes: the prompt, '>' and the newest entry, or the empty-history notice. */
  function LastCmdMessage(prompt: string, history: seq<string>): (r: string)
  {
    if |history| < 1 then HistoryEmpty else prompt + ">" + history[|history| - 1]
  }

  /**
   * `!n` echoes the prompt, '>' and the entry it selects; a refusal writes
   * a notice, except for N < 1.
   */
  lemma NthCmdMessageEchoes(prompt: string, history: seq<string>, args: seq<string>)
    ensures NthCmd(|history|, args).Some? ==> NthCmdMessage(prompt, history, args) == prompt + ">" + history[NthCmd(|history|, args).value]
    ensures NthCmd(|history|, args).None? ==> (NthCmdMessage(prompt, history, args) == "" <==> |args| >= 2 && Atoi(args[1]) < 1)
  {
  }

  /** `!!` echoes the prompt, '>' and the newest entry, or says that the history is empty. */
  lemma LastCmdMessageEchoes(prompt: string, history: seq<string>)
    ensures LastCmd(|history|).Some? ==> LastCmdMessage(prompt, history) == prompt + ">" + history[LastCmd(|history|).value]
    ensures LastCmd(|history|).None? ==> LastCmdMessage(prompt, history) == HistoryEmpty
  {
  }

  /** `!n 1` replays the same entry as `!!`. */
  lemma NthOneIsLast(count: nat)
    ensures NthCmd(count, ["!n", "1"]) == LastCmd(count)
  {
    AtoiDecimal(1);
    assert Decimal(1) == "1";
  }

  /** `!n N` selects the N-th most recent line of the history, and echoes it after the prompt. */
  lemma NthCmdSelects(prompt: string, history: seq<string>, n: nat)
    requires 1 <= n <= |history| && n <= HISTORY_SIZE
    ensures NthCmd(|history|, ["!n", Decimal(n)]) == Some(|history| - n)
    ensures NthCmdMessage(prompt, history, ["!n", Decimal(n)]) == prompt + ">" + history[|history| - n]
  {
    AtoiDecimal(n);
  }
}

=== FILE: utility.dfy ===
/**
 * String helpers and comparators of utility.c. The helpers work on the
 * caller's character buffer in place: they return an index into it (the
 * pointer of the C code) and write terminators into it.
 */
module Utility {
  import opened CString

  // ---------------------------------------------------------------------
  // Whitespace trimming

  /** Index of the first non-space character at or after i, or the length. */
  function FirstNonSpace(s: string, i: nat): (r: nat)
    requires i <= |s|
    ensures i <= r <= |s|
    ensures forall k :: i <= k < r ==> IsSpace(s[k])
    ensures r < |s| ==> !IsSpace(s[r])
    decreases |s| - i
  {
    if i < |s| && IsSpace(s[i]) then FirstNonSpace(s, i + 1) else i
  }

  /** End of the text before j once the whitespace right before j is dropped. */
  function EndNonSpace(s: string, j: nat): (r: nat)
    requires j <= |s|
    ensures r <= j
    ensures forall k :: r <= k < j ==> IsSpace(s[k])
    ensures r > 0 ==> !IsSpace(s[r - 1])
  {
    if j > 0 && IsSpace(s[j - 1]) then EndNonSpace(s, j - 1) else j
  }

  /** The text consists of whitespace only (or is empty). */
  predicate IsBlank(s: string) {
    FirstNonSpace(s, 0) == |s|
  }

  function TrimLeft(s: string): (r: string) {
    s[FirstNonSpace(s, 0)..]
  }

  function TrimRight(s: string): (r: string) {
    s[..EndNonSpace(s, |s|)]
  }

  function Trim(s: string): (r: string) {
    TrimRight(TrimLeft(s))
  }

  /**
   * What trim_spaces leaves in the buffer from the original start: trailing
   * whitespace goes, leading whitespace stays, and a blank text is untouched.
   */
  function StripTrailing(s: string): (r: string) {
    if IsBlank(s) then s else TrimRight(s)
  }

  /** Index returned by trim_spaces: the first non-space character or the terminator. */
  function TrimStart(b: seq<char>, i: nat): (r: nat)
    requires Terminated(b, i)
  {
    i + FirstNonSpace(CStr(b, i), 0)
  }

  /** Buffer after trim_spaces: a terminator right after the last non-space character. */
  function TrimmedBuffer(b: seq<char>, i: nat): (b': seq<char>)
    requires Terminated(b, i)
    ensures |b'| == |b|
  {
    var s := CStr(b, i);
    if IsBlank(s) then b else b[i + EndNonSpace(s, |s|) := NUL]
  }

  /** p and e are the first and the last non-space characters of s. */
  predicate Located(s: string, p: nat, e: nat) {
    && p <= e < |s|
    && (forall k :: 0 <= k < p ==> IsSpace(s[k]))
    && !IsSpace(s[p]) && !IsSpace(s[e])
    && (forall k :: e < k < |s| ==> IsSpace(s[k]))
  }

  /** Locating the first and last non-space characters determines every trimmed form of the text. */
  lemma TrimLocate(s: string, p: nat, e: nat)
    requires Located(s, p, e)
    ensures FirstNonSpace(s, 0) == p && !IsBlank(s)
    ensures EndNonSpace(s, |s|) == e + 1
    ensures TrimLeft(s) == s[p..] && TrimRight(s) == s[..e + 1]
    ensures Trim(s) == s[p..e + 1]
  {
    var f, r := FirstNonSpace(s, 0), EndNonSpace(s, |s|);
    assert f == p by {
      assert f <= p && p <= f;
    }
    assert r == e + 1 by {
      assert r <= e + 1 && e + 1 <= r;
    }
    var l := s[p..];
    var rl := EndNonSpace(l, |l|);
    assert rl == e - p + 1 by {
      assert l[e - p] == s[e];
      assert rl <= e - p + 1 && e - p + 1 <= rl;
    }
    assert l[..rl] == s[p..e + 1];
  }

  /** A text that is not blank has a first and a last non-space character. */
  lemma TrimEnds(s: string) returns (p: nat, e: nat)
    requires !IsBlank(s)
    ensures Located(s, p, e)
  {
    p := FirstNonSpace(s, 0);
    e := EndNonSpace(s, |s|) - 1;
  }

  /** A blank text trims to nothing. */
  lemma TrimBlank(s: string)
    requires IsBlank(s)
    ensures Trim(s) == []
  {
    assert TrimLeft(s) == [];
  }

  /** A trimmed text neither starts nor ends with whitespace. */
  lemma TrimmedIsTrimmed(s: string)
    ensures FirstNonSpace(Trim(s), 0) == 0 || Trim(s) == []
    ensures EndNonSpace(Trim(s), |Trim(s)|) == |Trim(s)|
  {
    if !IsBlank(s) {
      var p, e := TrimEnds(s);
      TrimLocate(s, p, e);
      var t := s[p..e + 1];
      assert Located(t, 0, e - p);
      TrimLocate(t, 0, e - p);
    }
  }

  /** Trimming twice trims nothing more. */
  lemma TrimIdempotent(s: string)
    ensures Trim(Trim(s)) == Trim(s)
  {
    var t := Trim(s);
    TrimmedIsTrimmed(s);
    assert t[..|t|] == t;
  }

  /** Where trim_spaces points and writes once the first and last non-space characters are located. */
  lemma TrimBufferAt(b: seq<char>, i: nat, p: nat, e: nat)
    requires Terminated(b, i) && Located(CStr(b, i), p, e)
    ensures TrimStart(b, i) == i + p
    ensures TrimmedBuffer(b, i) == b[i + e + 1 := NUL]
  {
    TrimLocate(CStr(b, i), p, e);
  }

  /** The trimmed text, read off the buffer, once the non-space ends are located. */
  lemma TrimTextAt(b: seq<char>, i: nat, p: nat, e: nat)
    requires Terminated(b, i) && Located(CStr(b, i), p, e)
    ensures Trim(CStr(b, i)) == b[i + p..i + e + 1] && NUL !in b[i + p..i + e + 1]
  {
    TrimLocate(CStr(b, i), p, e);
    CStrSlice(b, i, p, e + 1);
  }

  /** The text without its trailing whitespace, read off the buffer, once the non-space ends are located. */
  lemma StripTextAt(b: seq<char>, i: nat, p: nat, e: nat)
    requires Terminated(b, i) && Located(CStr(b, i), p, e)
    ensures StripTrailing(CStr(b, i)) == b[i..i + e + 1] && NUL !in b[i..i + e + 1]
  {
    TrimLocate(CStr(b, i), p, e);
    CStrSlice(b, i, 0, e + 1);
  }

  /** With the non-space ends located, the C string at the first one, once cut after the last, is the trimmed text. */
  lemma TrimCutAt(b: seq<char>, i: nat, p: nat, e: nat)
    requires Terminated(b, i) && Located(CStr(b, i), p, e)
    ensures Terminated(b[i + e + 1 := NUL], i + p)
    ensures CStr(b[i + e + 1 := NUL], i + p) == Trim(CStr(b, i))
  {
    TrimTextAt(b, i, p, e);
    CStrCut(b, i + p, i + e + 1);
  }

  /** With the non-space ends located, the C string at the start, once cut after the last, keeps only the leading whitespace. */
  lemma TrimKeepAt(b: seq<char>, i: nat, p: nat, e: nat)
    requires Terminated(b, i) && Located(CStr(b, i), p, e)
    ensures Terminated(b[i + e + 1 := NUL], i)
    ensures CStr(b[i + e + 1 := NUL], i) == StripTrailing(CStr(b, i))
  {
    StripTextAt(b, i, p, e);
    CStrCut(b, i, i + e + 1);
  }

  /** On a blank text trim_spaces points at the terminator and writes nothing. */
  lemma TrimBlankResult(b: seq<char>, i: nat)
    requires Terminated(b, i) && IsBlank(CStr(b, i))
    ensures TrimmedBuffer(b, i) == b
    ensures Terminated(b, TrimStart(b, i)) && CStr(b, TrimStart(b, i)) == []
    ensures Trim(CStr(b, i)) == [] && StripTrailing(CStr(b, i)) == CStr(b, i)
  {
    var r := TrimStart(b, i);
    assert b[r] == NUL;
    CStrIs(b, r, []);
    TrimBlank(CStr(b, i));
  }

  /**
   * trim_spaces returns the index of the trimmed text, and the C string there
   * is the trimmed text.
   */
  lemma TrimSpacesResult(b: seq<char>, i: nat)
    requires Terminated(b, i)
    ensures Terminated(TrimmedBuffer(b, i), TrimStart(b, i))
    ensures CStr(TrimmedBuffer(b, i), TrimStart(b, i)) == Trim(CStr(b, i))
  {
    var s := CStr(b, i);
    if IsBlank(s) {
      TrimBlankResult(b, i);
    } else {
      var p, e := TrimEnds(s);
      TrimBufferAt(b, i, p, e);
      TrimCutAt(b, i, p, e);
    }
  }

  /** trim_spaces writes at most one character: the terminator right after the trimmed text. */
  lemma TrimSpacesWritesOnce(b: seq<char>, i: nat)
    requires Terminated(b, i)
    ensures forall k :: 0 <= k < |b| && k != TrimStart(b, i) + |Trim(CStr(b, i))| ==>
      TrimmedBuffer(b, i)[k] == b[k]
  {
    var s := CStr(b, i);
    if !IsBlank(s) {
      var p, e := TrimEnds(s);
      TrimBufferAt(b, i, p, e);
      TrimLocate(s, p, e);
    }
  }

  /** Applying trim_spaces to its own result returns the same index and writes nothing new. */
  lemma TrimSpacesIdempotent(b: seq<char>, i: nat)
    requires Terminated(b, i)
    ensures Terminated(TrimmedBuffer(b, i), TrimStart(b, i))
    ensures TrimStart(TrimmedBuffer(b, i), TrimStart(b, i)) == TrimStart(b, i)
    ensures TrimmedBuffer(TrimmedBuffer(b, i), TrimStart(b, i)) == TrimmedBuffer(b, i)
  {
    var b', r := TrimmedBuffer(b, i), TrimStart(b, i);
    TrimSpacesResult(b, i);
    var t := Trim(CStr(b, i));
    assert CStr(b', r) == t;
    TrimmedIsTrimmed(CStr(b, i));
    assert b'[r + |t|] == NUL;
  }

  /** Calling trim_spaces again on the same start returns the same index and writes nothing new. */
  lemma TrimSpacesRepeat(b: seq<char>, i: nat)
    requires Terminated(b, i)
    ensures Terminated(TrimmedBuffer(b, i), i)
    ensures TrimStart(TrimmedBuffer(b, i), i) == TrimStart(b, i)
    ensures TrimmedBuffer(TrimmedBuffer(b, i), i) == TrimmedBuffer(b, i)
  {
    TrimSpacesKeepsLeading(b, i);
    if !IsBlank(CStr(b, i)) {
      var p, e := TrimEnds(CStr(b, i));
      TrimRepeatAt(b, i, p, e);
    }
  }

  /** TrimSpacesRepeat, once the non-space ends of the text are located. */
  lemma TrimRepeatAt(b: seq<char>, i: nat, p: nat, e: nat)
    requires Terminated(b, i) && Located(CStr(b, i), p, e)
    ensures Terminated(TrimmedBuffer(b, i), i)
    ensures TrimStart(TrimmedBuffer(b, i), i) == TrimStart(b, i)
    ensures TrimmedBuffer(TrimmedBuffer(b, i), i) == TrimmedBuffer(b, i)
  {
    var s := CStr(b, i);
    var b' := TrimmedBuffer(b, i);
    TrimSpacesKeepsLeading(b, i);
    TrimBufferAt(b, i, p, e);
    TrimLocate(s, p, e);
    assert CStr(b', i) == s[..e + 1];
    LocatedPrefix(s, p, e);
    TrimBufferAt(b', i, p, e);
    assert b'[i + e + 1] == NUL;
  }

  /** Cutting the text after its last non-space character leaves both ends where they were. */
  lemma LocatedPrefix(s: string, p: nat, e: nat)
    requires Located(s, p, e)
    ensures Located(s[..e + 1], p, e)
  {
  }

  /**
   * Seen from the original start, the buffer keeps its leading whitespace and
   * loses its trailing whitespace.
   */
  lemma TrimSpacesKeepsLeading(b: seq<char>, i: nat)
    requires Terminated(b, i)
    ensures Terminated(TrimmedBuffer(b, i), i)
    ensures CStr(TrimmedBuffer(b, i), i) == StripTrailing(CStr(b, i))
  {
    var s := CStr(b, i);
    if IsBlank(s) {
      TrimBlankResult(b, i);
    } else {
      var p, e := TrimEnds(s);
      TrimBufferAt(b, i, p, e);
      TrimKeepAt(b, i, p, e);
    }
  }

  /** trim_spaces (utility.c): skips leading whitespace, cuts trailing whitespace. */
  method TrimSpaces(a: array<char>, i: nat) returns (r: nat)
    requires Terminated(a[..], i)
    modifies a
    ensures r == TrimStart(old(a[..]), i)
    ensures a[..] == TrimmedBuffer(old(a[..]), i)
  {
    ghost var s := CStr(a[..], i);
    r := i;
    while a[r] != NUL && IsSpace(a[r])
      invariant i <= r <= i + |s|
      invariant forall k :: 0 <= k < r - i ==> IsSpace(s[k])
      decreases i + |s| - r
    {
      r := r + 1;
    }
    if a[r] == NUL {
      assert r == i + |s|;
      return;
    }
    var len := Length(a, r);
    var e := r + len - 1;
    while e > r && IsSpace(a[e])
      invariant r <= e < i + |s|
      invariant forall k :: e - i < k < |s| ==> IsSpace(s[k])
    {
      e := e - 1;
    }
    TrimBufferAt(a[..], i, r - i, e - i);
    a[e + 1] := NUL;
  }

  // ---------------------------------------------------------------------
  // Line terminators

  predicate IsLineEnd(c: char) { c == '\n' || c == '\r' }

  /** Index of the first '\n' or '\r', or the length when there is none. */
  function LineEnd(s: seq<char>): (k: nat)
    ensures k <= |s|
    ensures k < |s| ==> IsLineEnd(s[k])
    ensures forall j :: 0 <= j < k ==> !IsLineEnd(s[j])
  {
    if s == [] || IsLineEnd(s[0]) then 0 else 1 + LineEnd(s[1..])
  }

  /** The text up to its first line terminator. */
  function CutAtLineEnd(t: string): (r: string) {
    t[..LineEnd(t)]
  }

  lemma LineEndUnique(s: seq<char>, k: nat)
    requires k <= |s|
    requires k < |s| ==> IsLineEnd(s[k])
    requires forall j :: 0 <= j < k ==> !IsLineEnd(s[j])
    ensures LineEnd(s) == k
  {
  }

  /**
   * remove_newline (utility.c): terminates the buffer at the first '\n' or
   * '\r'. The C loop does not stop at the string's terminator; when neither
   * character occurs anywhere in the buffer it would read past its end, which
   * the model reports as found == false, writing nothing.
   */
  method RemoveNewline(a: array<char>) returns (found: bool)
    modifies a
    ensures found == (LineEnd(old(a[..])) < a.Length)
    ensures found ==> a[..] == old(a[..])[LineEnd(old(a[..])) := NUL]
    ensures !found ==> a[..] == old(a[..])
  {
    var c := 0;
    while c < a.Length && !IsLineEnd(a[c])
      invariant c <= a.Length
      invariant forall j :: 0 <= j < c ==> !IsLineEnd(a[j])
    {
      c := c + 1;
    }
    LineEndUnique(a[..], c);
    found := c < a.Length;
    if found {
      a[c] := NUL;
    }
  }

  /** After remove_newline the string is the old one cut at its first line terminator. */
  lemma RemoveNewlineCuts(b: seq<char>)
    requires Terminated(b, 0) && LineEnd(b) < |b|
    ensures Terminated(b[LineEnd(b) := NUL], 0)
    ensures CStr(b[LineEnd(b) := NUL], 0) == CutAtLineEnd(CStr(b, 0))
  {
    var s := CStr(b, 0);
    var k := LineEnd(b);
    var b' := b[k := NUL];
    if k < |s| {
      LineEndUnique(s, k);
      assert b'[0..k] == s[..k];
      CStrIs(b', 0, s[..k]);
    } else {
      LineEndUnique(s, |s|);
      assert s[..|s|] == s;
      CStrFramed(b, b', 0);
    }
  }

  // ---------------------------------------------------------------------
  // Enclosing pair

  /**
   * remove_brackets (utility.c): overwrites the last character with a
   * terminator and returns the index after the first one. A non-empty string
   * is needed: on an empty one the C code writes before the string.
   */
  method RemoveBrackets(a: array<char>, i: nat) returns (r: nat)
    requires Terminated(a[..], i) && StrLen(a[..], i) >= 1
    modifies a
    ensures r == i + 1
    ensures a[..] == old(a[..])[i + StrLen(old(a[..]), i) - 1 := NUL]
  {
    var n := Length(a, i);
    a[i + n - 1] := NUL;
    r := i + 1;
  }

  /** The string at the returned index is the old one without its first and last characters. */
  lemma RemoveBracketsStrips(b: seq<char>, i: nat)
    requires Terminated(b, i) && StrLen(b, i) >= 1
    ensures Terminated(b[i + StrLen(b, i) - 1 := NUL], i + 1)
    ensures CStr(b[i + StrLen(b, i) - 1 := NUL], i + 1) ==
      (var s := CStr(b, i); if |s| >= 2 then s[1..|s| - 1] else [])
  {
    var s := CStr(b, i);
    var b' := b[i + |s| - 1 := NUL];
    if |s| >= 2 {
      assert b'[i + 1..i + 1 + |s| - 2] == s[1..|s| - 1] by {
        assert forall k :: i + 1 <= k < i + |s| - 1 ==> b'[k] == b[k] == s[k - i];
      }
      CStrIs(b', i + 1, s[1..|s| - 1]);
    } else {
      CStrIs(b', i + 1, []);
    }
  }

  // ---------------------------------------------------------------------
  // Comparators for qsort

  const INT_MIN: int := -0x8000_0000
  const INT_MAX: int := 0x7FFF_FFFF

  predicate IsInt(x: int) { INT_MIN <= x <= INT_MAX }

  /**
   * compare_int: the difference a - b, whose sign orders ascending. The
   * difference of two C ints can overflow, so it must itself be an int.
   */
  function CompareInt(a: int, b: int): (r: int)
    requires IsInt(a) && IsInt(b) && IsInt(a - b)
    ensures IsInt(r)
    ensures r < 0 <==> a < b
    ensures r == 0 <==> a == b
    ensures r > 0 <==> a > b
  {
    a - b
  }

  /** The process record filled from a procfs status file. */
  datatype ProcessInfo = ProcessInfo(pid: int, ppid: int, state: char, name: string)

  /** compare_process_info: orders process records by pid. */
  function CompareProcessInfo(p: ProcessInfo, q: ProcessInfo): (r: int)
    requires IsInt(p.pid) && IsInt(q.pid) && IsInt(p.pid - q.pid)
    ensures IsInt(r)
    ensures r < 0 <==> p.pid < q.pid
    ensures r == 0 <==> p.pid == q.pid
    ensures r > 0 <==> p.pid > q.pid
  {
    p.pid - q.pid
  }

  /** Process ids are non-negative C ints, so any two can be compared without overflow. */
  predicate Comparable(ps: seq<ProcessInfo>) {
    forall p :: p in ps ==> 0 <= p.pid <= INT_MAX
  }

  /** What qsort leaves: every neighbour compares at most zero against the next. */
  predicate SortedByComparator(ps: seq<ProcessInfo>)
    requires Comparable(ps)
  {
    forall k :: 0 <= k < |ps| - 1 ==> CompareProcessInfo(ps[k], ps[k + 1]) <= 0
  }

  /** Sorting with compare_process_info orders the records by ascending pid. */
  lemma {:induction false} ComparatorOrderIsAscending(ps: seq<ProcessInfo>, j: nat, k: nat)
    requires Comparable(ps) && SortedByComparator(ps)
    requires j <= k < |ps|
    ensures ps[j].pid <= ps[k].pid
    decreases k - j
  {
    if j < k {
      assert CompareProcessInfo(ps[j], ps[j + 1]) <= 0;
      ComparatorOrderIsAscending(ps, j + 1, k);
    }
  }
}

=== FILE: wrappers.dfy ===
/** An optional value, standing for the NULL-or-pointer results of the C code. */
module Wrappers {
  datatype Option<T> = None | Some(value: T)
}
